=== FILE: README.md ===
# SCADE dataflow-equation compiler, modelled in Dafny

The builder of `SCADEAPI.py` (class `SCADE_Builder`), and its older copy in `Example1_V4.py`, turn a block of dataflow text into equations of a SCADE operator. A line is either `outs = callee (args)`, `out = value` or `outs = (mapfoldwi A Op <<S>> if c)(args)`. This project models that compiler as pure Dafny functions over immutable data:

- **Line parsers** (`ExprLine`, `MapfoldLine`, `TextBlock`). The regular expressions are rewritten as character-level scans, and a small pattern engine (`Pattern`) explains `re.search`. `Text` holds the Python string built-ins the parsers rely on: `strip`, `split`, `join`, `splitlines`, `int` and `str`.
- **Scope paths** (`ScopePaths`). This is the string half of `switch_to_operator_by_path`: which package, operator and canvas names a path sends the walk to.
- **Types and literals** (`Types`, `Json`, `JsonRoundTrip`, `Literals`).
  - Type strings `Base^s1^...^sk` become nested Table types, and `clone_type` copies them.
  - The value text of a constant is decoded with a model of Python's `json.loads` and compiled into constant values, structure expressions and array expressions.
  - `JsonRoundTrip` is a writer for JSON values, with the proof that the decoder reads back whatever it writes.
- **Symbol table and equation builders** (`Symbols`, `Equations`, `Builders`, `BuildersV4`, `Dispatch`).
  - The state holds the operator's inputs, outputs and locals, the current canvas's locals, the equations, the edges between them, and the producer map `lx_to_ge` from a name to the equation that produces it.
  - Every builder returns the new state together with the Python exception it raised, if any. State changed before a raise is kept, as in Python.
  - `Dispatch` routes each parsed line to its builder.

The properties proved include:
- The parsers return exactly what the regular expressions match.
- Written paths, type strings and JSON values read back to what was written.
- Declarations never duplicate a name.
- Lookup order and shadowing of names.
- Every builder that raised nothing keeps the producer map pointing at equations that define the names, with one exception: `create_operator_equation` also points an output that was already an Output or a Local at the new equation, which does not define it (`Builders.OperatorRecordsSkippedOutput`). The well-formedness results for that builder and for the dispatch of a line therefore require that no output of a call is already taken.
- How the two versions of the script differ.

## Model

| member | source | states |
|---|---|---|
| Text.StripIdempotent | SCADEAPI.py:1183 | stripping a stripped line changes nothing |
| Text.StripRemovesEnds | SCADEAPI.py:1183 | `strip` removes only whitespace, and only at the two ends: the text is some whitespace, then the result, then some whitespace |
| Text.SplitThenJoin | SCADEAPI.py:292 | splitting on a separator loses nothing: joining the pieces with it rebuilds the text |
| Text.JoinThenSplit | SCADEAPI.py:1187 | for a one-character separator no piece contains, splitting the joined text gives the pieces back |
| Text.SplitCount | SCADEAPI.py:1217-1218 | splitting on one character gives one piece more than the character occurs, so `len(split('=')) == 2` means exactly one `=` |
| Text.SplitLinesThenJoin | SCADEAPI.py:1288 | for `\n`-separated text, `splitlines` gives the lines that joining with `\n` would rebuild |
| Text.NatToStringValue | SCADEAPI.py:357 | `str(n)` of a natural number is canonical and reads back as `n` |
| Text.DigitsValueToString | SCADEAPI.py:964 | `str(int(s))` of a canonical digit string is `s` |
| Pattern.ScanComplete | SCADEAPI.py:1226-1227 | for a deterministic pattern, any way of matching the pieces is the one the greedy scan finds |
| Pattern.MatchUnique | SCADEAPI.py:1226-1227 | a deterministic pattern matches in at most one way at each position |
| Pattern.SearchIsLeftmost | SCADEAPI.py:1227 | `re.search` reports a match exactly when one exists, and the one it reports starts leftmost |
| Pattern.ChunksGiveFit | SCADEAPI.py:1226 | text made of chunks the pieces accept is matched chunk by chunk |
| ExprLine.MatchCall | SCADEAPI.py:1185 | the call match found is a match of `([\w,\s]+)=\s*([^\s(]+)\s*\((.*)\)` at the start of the line |
| ExprLine.MatchCallComplete | SCADEAPI.py:1185 | whenever the call pattern can match, the scan finds a match; groups 1 and 2 match one way only, and group 3 is the longest possible, ending at the last `)` |
| ExprLine.MatchSimple | SCADEAPI.py:1193 | the simple match found is a match of `([\w,\s]+)=\s*(\S+)` |
| ExprLine.MatchSimpleComplete | SCADEAPI.py:1193 | whenever the simple pattern can match, the scan finds it, with the longest value |
| ExprLine.ParseExpressionLine | SCADEAPI.py:1182-1199 | a call has at least one output and one input, a non-empty callee without whitespace or `(`, and trimmed names; an assignment has a trimmed target and a non-empty value |
| ExprLine.ParseExpressionLineV4 | Example1_V4.py:591-608 | the older parser gives the same call descriptors; a simple line keeps the whole output list, with operator `"assign"` and one input |
| ExprLine.ParseLineSound | SCADEAPI.py:1185-1198 | a parsed call line comes from the call match of the stripped line with the longest argument group: outputs and inputs are groups 1 and 3 split on `,` and stripped, the operator is group 2; a parsed simple line has no call match and comes from the simple match with the longest value: the first stripped piece of group 1 and group 2 |
| ExprLine.CallLineParses | SCADEAPI.py:1185-1190 | a line on which the call pattern can match parses as a call |
| ExprLine.SimpleLineParses | SCADEAPI.py:1193-1198 | a line on which only the simple pattern can match parses as an assignment of its first left-hand name |
| ExprLine.MatchersDecide | SCADEAPI.py:1185-1193 | each scan succeeds exactly when its pattern can match |
| ExprLine.NoEqualsRejected | SCADEAPI.py:1199 | a line without `=` never parses |
| ExprLine.EmptyLeftSideRejected | SCADEAPI.py:1199 | a stripped line starting with `=`, like `= + ()`, never parses |
| ExprLine.NoParenNoCall | SCADEAPI.py:1185 | without a `(` the call pattern cannot match |
| ExprLine.ParseCallLayout | SCADEAPI.py:1185-1190 | any line `lhs = callee (args)` parses to the stripped left pieces, the callee token and the stripped argument pieces |
| ExprLine.ParseSampleCall | SCADEAPI.py:1185-1190 | the sample line `_L4 = + (_L1, _L2, _L3)` parses to outputs `["_L4"]`, operator `+` and inputs `["_L1", "_L2", "_L3"]` |
| ExprLine.ParseAssignLayout | SCADEAPI.py:1193-1198 | a line `lhs = value` whose value has no `(` is an assignment of the first stripped left-hand piece |
| MapfoldLine.OpPatternDeterministic | SCADEAPI.py:1226 | the operator-part pattern matches in at most one way |
| MapfoldLine.InputPatternDeterministic | SCADEAPI.py:1238 | the argument-part pattern matches in at most one way |
| MapfoldLine.GroupClasses | SCADEAPI.py:1226-1235 | accumulators and size are digit strings; the sub-operator and the condition are identifiers |
| MapfoldLine.ParseMapfoldwi | SCADEAPI.py:1201-1254 | the result is an error or an iterator descriptor with operator `mapfoldwi` whose outputs come from the left side |
| MapfoldLine.EqualsCountRule | SCADEAPI.py:1217-1219 | a line without exactly one `=` raises `ValueError` |
| MapfoldLine.OperatorPartRule | SCADEAPI.py:1226-1229 | with one `=`, a right side without the operator part raises `ValueError` |
| MapfoldLine.InputsPartRule | SCADEAPI.py:1238-1241 | with one `=` and an operator part, a right side without the argument part raises `ValueError` |
| MapfoldLine.ParseOfSides | SCADEAPI.py:1221-1254 | with one `=`, given the leftmost operator part and the leftmost argument list of the stripped right side, the outputs are the stripped left side split on `,` and stripped, sub-operator, accumulators, size and condition are groups 3, 2, 4 and 5 of the operator part, and the inputs are the argument group split on `,` and stripped |
| MapfoldLine.ParseMapfoldLayout | SCADEAPI.py:1217-1254 | `x = (mapfoldwi A Op <<S>> if c)(args)` reads back as its outputs, groups and stripped arguments |
| MapfoldLine.ParseDocumentedExample | SCADEAPI.py:1203-1214 | the documented line gives four outputs, accumulators `2`, sub-operator `Operator2`, size `5`, condition `_L1` and inputs `_L2`, `_L3` |
| TextBlock.BlockLinesRejoin | SCADEAPI.py:1288 | for `\n`-separated text, the block's lines rebuild the stripped text |
| TextBlock.ParseLine | SCADEAPI.py:1288-1292 | only a line containing `mapfoldwi` can raise, and then only `ValueError`; such a line is otherwise kept as a mapfoldwi descriptor, and every other kept line is a well-shaped call or assignment |
| TextBlock.CollectOk | SCADEAPI.py:1288-1296 | the walk over the lines succeeds exactly when no line raises |
| TextBlock.CollectFirstError | SCADEAPI.py:1288-1296 | a failing walk raises the exception of the first line that raises |
| TextBlock.CollectKept | SCADEAPI.py:1295-1296 | a successful walk keeps one descriptor per parsing line, in order, and nothing for the others |
| TextBlock.ParseTextBlock | SCADEAPI.py:1286-1298 | the block yields no more descriptors than it has lines, and the only error it raises is `ValueError` |
| TextBlock.BlockErrors | SCADEAPI.py:1288-1296 | the block raises exactly when one of its lines does, with the first such line's exception |
| TextBlock.BlockKeepsParsedLines | SCADEAPI.py:1288-1296 | a block that does not raise holds the descriptors of its parsing lines in line order, and a line is kept exactly when it parses |
| TextBlock.ParseTextBlockV4 | Example1_V4.py:610-616 | the older block parser yields only call descriptors, never more than the block has lines |
| TextBlock.BlockV4KeepsParsedLines | Example1_V4.py:610-616 | for every text, the older block keeps the descriptors of its parsing lines in textual order: descriptor `i` is line `idx[i]`'s, positions increasing, and a line is kept exactly when the older expression parser accepts it |
| TextBlock.BlocksAgree | Example1_V4.py:610-616 | without mapfoldwi lines both versions keep the same lines: calls agree, and a simple line is the builder's one-name assignment and the older script's `"assign"` call on the same first name |
| ScopePaths.SwitchPath | SCADEAPI.py:146-209 | the producer map is reset under the stripped path, a blank path has no target, and any target has non-empty names without `/` and canvas parts without `:` |
| ScopePaths.SwitchPathRoundTrip | SCADEAPI.py:152-209 | a written path reads back to its root package, packages, operator and canvas parts |
| ScopePaths.TrailingColonIgnored | SCADEAPI.py:141-209 | a trailing `:` after the canvas parts, as in the documented example, changes nothing |
| ScopePaths.SingleSegmentPath | SCADEAPI.py:159-196 | a one-segment path names a package and an operator of the same name |
| ScopePaths.EmptySegmentDropped | SCADEAPI.py:159 | an empty segment between two `::` is dropped |
| Types.TypeFromString | SCADEAPI.py:286-311 | `k` `^` separators give `k` Table layers around a NamedType of the looked-up first segment, sizes innermost first as raw text |
| Types.TypeStringRoundTrip | SCADEAPI.py:292-311 | reading a printed type back gives the same type |
| Types.LastSuffixIsOutermost | SCADEAPI.py:287-311 | `Type1^3^2` is a Table of size 2 around a Table of size 3 around `Type1` |
| Types.Clone | SCADEAPI.py:557-575 | the clone equals the original type, every layer and every size copied |
| Types.CloneType | SCADEAPI.py:557-561 | cloning a missing type raises `AttributeError`; cloning a type gives its copy |
| Types.PromotionWrapsOnce | SCADEAPI.py:1048-1051 | a named port type promoted with `^size` becomes one Table of that size around the same base |
| Symbols.FindIsFirst | SCADEAPI.py:597-614 | the variable found is the first one with the name |
| Symbols.Resolve | SCADEAPI.py:587-617 | a name resolves to its first match among operator inputs, operator locals, canvas locals and operator outputs, else to NotFound |
| Symbols.ResolveV4 | Example1_V4.py:328-353 | the older lookup goes through inputs, locals and outputs, else NotFound |
| Symbols.ResolveVersionsAgree | Example1_V4.py:337-353 | with no separate operator locals the two lookups agree |
| Symbols.InputsShadow | SCADEAPI.py:596-599 | a name that is an input resolves to the input whatever else declares it |
| Symbols.ResolveAfterLocal | SCADEAPI.py:606-609 | appending a canvas local only turns an unknown or Output name into a Local |
| Symbols.Declare | SCADEAPI.py:474-487 | a taken name returns the existing variable and leaves the list unchanged; a new name appends exactly one variable |
| Symbols.DeclareIdempotent | SCADEAPI.py:474-477 | declaring twice under one name is declaring once |
| Symbols.DeclareKeepsUnique | SCADEAPI.py:474-486 | declarations keep the names of a list distinct |
| Symbols.DeclareFinds | SCADEAPI.py:474-487 | after a declaration the name finds the variable returned |
| Symbols.CreateInput | SCADEAPI.py:468-487 | inputs grow by at most one variable, typed by the parsed type string, and nothing else changes |
| Symbols.CreateOutput | SCADEAPI.py:490-509 | outputs grow by at most one variable, typed by the parsed type string, and nothing else changes |
| Symbols.CreateLocal | SCADEAPI.py:513-532 | canvas locals grow by at most one variable, and nothing else changes |
| Symbols.CreateLocalE | SCADEAPI.py:536-554 | a taken canvas name is returned unchanged; a missing type raises before any change; otherwise one local with a copy of the type is appended |
| Symbols.CreateInputV4 | Example1_V4.py:242-259 | the older `create_input` returns an existing input or appends one NamedType input |
| Symbols.CreateOutputV4 | Example1_V4.py:261-278 | the older `create_output` returns an existing output or appends one NamedType output |
| Symbols.CreateLocalV4 | Example1_V4.py:281-298 | the older `create_local` returns an existing operator local or appends one |
| Symbols.CreateLocalEV4 | Example1_V4.py:301-320 | the older `create_local_E` returns an existing local, raises for a missing or Table type, or appends one NamedType local with the type's declaration |
| Symbols.OutputPortType | SCADEAPI.py:1076-1094 | an index out of range gives `None`, a missing operator raises, and otherwise the port's type |
| Equations.GrowsTransitive | SCADEAPI.py:724-1074 | what the builders may change composes: inputs, outputs and operator locals stay and the rest only grows |
| Equations.MapTo | SCADEAPI.py:908-913 | every name of the list points at the given equation, and no other entry changes |
| Equations.Connect | SCADEAPI.py:919-921 | one edge per operand into the given slots until the first operand without a producer, which raises `KeyError` |
| Equations.ConnectKeepsWellFormed | SCADEAPI.py:919-921 | edges between producer entries of a well-formed state keep it well formed |
| Equations.ReadOperands | SCADEAPI.py:821-835 | every variable read is that of a Local operand, no more than there are operands; the only error raised is `AttributeError`, and a stop happens only in the variant that stops at non-Locals |
| Equations.ReadOperandsFails | SCADEAPI.py:821-835 | the operand loop raises exactly when some operand is unknown, unless it stopped first |
| Equations.ReadOperandsComplete | SCADEAPI.py:821-835 | a loop that ran to the end read every Local operand |
| Equations.ReadOperandsInOrder | SCADEAPI.py:821-835 | a loop that skips Inputs and Outputs and ran to the end read the Local operands in input order, repeats included: operand `i` is the resolution at increasing position `idx[i]`, and a position is kept exactly when it holds a Local |
| Equations.OperandNamesInOrder | SCADEAPI.py:875-887 | the parameter names a built-in or operator call passes on are the inputs that resolve to Local, in textual order and with repeats: name `i` is input `idx[i]`, positions increasing, an input kept exactly when it is a Local |
| Equations.ReadOperandsAll | SCADEAPI.py:987-1001 | when every operand must be a Local, a loop that ran to the end read them all, in order |
| Equations.LastOperandType | SCADEAPI.py:826-829 | the type the loop leaves in `outType` is that of the last Local operand |
| Equations.RuleType | SCADEAPI.py:1015-1051 | the type handed to `create_local_E`, or `AttributeError` for a missing operator or an unnamed promoted type |
| Equations.RuleTypeIterated | SCADEAPI.py:1015-1051 | accumulator outputs keep the callee's port type; later ones get the port type's name with `^size` appended |
| Equations.DeclareOne | SCADEAPI.py:837-853 | an Output or Local name is taken; otherwise a local is declared with the rule's type or an error is raised |
| Equations.DeclareOutputs | SCADEAPI.py:837-853 | the output loop only appends canvas locals, each named in the lefts; the only error is `AttributeError`; in the stopping variant a loop that ran to the end has every output as a left |
| Equations.DeclareLeftsUnclaimed | SCADEAPI.py:837-853 | only names that were neither Output nor Local reach the lefts |
| Equations.DeclareLeftsFromOutputs | SCADEAPI.py:837-853 | the lefts are drawn from the outputs, each at most as often as it occurs there |
| Equations.DeclareOutputsComplete | SCADEAPI.py:837-853 | a loop that ran to the end put every unclaimed output into the lefts |
| Equations.DeclareOutputsInOrder | SCADEAPI.py:889-906 | the loop that skips taken names, run to the end, appends the lefts in output order: left `i` is output `idx[i]`, positions increasing, and output `k` is there exactly when it was neither Output nor Local at the start and, unless an Input shadows it, does not repeat an earlier output (the new canvas local claims the repeats) |
| Equations.DeclareOutputsTyped | SCADEAPI.py:891-906 | each newly declared output has the type the rule gives its position |
| Equations.DeclareOutputsFixed | SCADEAPI.py:848-851 | with a fixed type every declared local has that type |
| Builders.RecordKeepsWellFormed | SCADEAPI.py:740-741 | appending an equation and pointing its lefts at it keeps the state well formed |
| Builders.InputEquation | SCADEAPI.py:724-746 | acts only on an Input source; reuses a Local target, otherwise declares a local of the input's type, and makes the new equation the target's producer |
| Builders.InputEquationKeepsWellFormed | SCADEAPI.py:724-746 | `create_input_equation` keeps the state well formed |
| Builders.InputEquationDeclares | SCADEAPI.py:728-738 | after reading an Input, an unknown target becomes a canvas local of the input's type, and any target that is not an Input resolves as a Local |
| Builders.OutputEquation | SCADEAPI.py:748-785 | acts only on an Output target; the right side names the input only when it is a Local; a missing producer raises `KeyError` |
| Builders.OutputEquationKeepsWellFormed | SCADEAPI.py:748-785 | `create_output_equation` keeps the state well formed, raised or not |
| Builders.ShapeOf | SCADEAPI.py:795-817 | a name selects a shape exactly when it is one of the listed built-ins; the n-ary and the binary shapes are chosen exactly for the names in their lists |
| Builders.ShapesDisjoint | SCADEAPI.py:795-817 | no name selects two shapes, so the order of the tests does not matter |
| Builders.BuiltInEquation | SCADEAPI.py:787-862 | the built-in builder only grows the state and raises only `AttributeError` or `KeyError`; an unknown operand, or an unknown operator with operands, raises `AttributeError` with nothing changed; otherwise one equation is appended whose lefts are the declared outputs in output order (`Equations.DeclareOutputsInOrder`) and whose parameters are the Local operands in input order (`Equations.OperandNamesInOrder`) |
| Builders.BuiltInKeepsWellFormed | SCADEAPI.py:787-862 | a built-in equation that raised nothing leaves the state well formed |
| Builders.BuiltInDefinesOutputs | SCADEAPI.py:837-856 | the new equation's lefts are the outputs that join them, in output order as `Equations.DeclareOutputsInOrder` states; every unclaimed output is among them and is produced by the new equation; the lefts are drawn from the outputs |
| Builders.BuiltInOutputsTyped | SCADEAPI.py:826-851 | each new local has the type of the last Local operand read |
| Builders.FindOperator | SCADEAPI.py:123-135 | the called operator's interface when the package declares it |
| Builders.OperatorEquation | SCADEAPI.py:864-922 | the builder only grows the state and raises only `AttributeError` or `KeyError`; an unknown operand raises before any change, an output-loop error keeps the locals declared so far, and otherwise one call equation is appended, its lefts in output order (`Equations.DeclareOutputsInOrder`) and its parameters the Local operands in input order (`Equations.OperandNamesInOrder`) |
| Builders.OperatorKeepsWellFormed | SCADEAPI.py:864-922 | when no output was already Output or Local, an operator equation that raised nothing leaves the state well formed |
| Builders.OperatorRecordsSkippedOutput | SCADEAPI.py:893-913 | an Output given as an output is skipped by the loop but still recorded against the new equation |
| Builders.OperatorOutputsTyped | SCADEAPI.py:902-906 | a new output local is typed as the callee's output port at the same position |
| Builders.AccumulatorCount | SCADEAPI.py:964 | `int(accumulators)` of a digit string is its value; anything else raises `ValueError` |
| Builders.DefaultCount | SCADEAPI.py:963-968 | the default list has `output_count - accumulators - 1` items, none when that is negative |
| Builders.MapfoldRecord | SCADEAPI.py:1055-1073 | every output is recorded against the equation, the condition feeds slot 1 and the operands slots 2 onwards |
| Builders.MapfoldEquation | SCADEAPI.py:924-1074 | an unknown sub-operator raises with nothing changed and wrong port counts return with nothing changed; then a bad accumulator count raises `ValueError`, an unknown condition raises `AttributeError` and an Input or Output condition returns, each with nothing changed; an unknown operand raises and a non-Local one returns, again with nothing changed; an appended equation implies a known sub-operator, a digit accumulator count and a Local condition; the builder only grows the state |
| Builders.MapfoldLocalsKeepFresh | SCADEAPI.py:1004-1009 | the `_L011` and `_L022` locals leave every other new name new |
| Builders.MapfoldOutputsTyped | SCADEAPI.py:1012-1053 | outputs before `accumulators` keep the callee's port type; later ones become `base^size` |
| Builders.MapfoldKeepsWellFormed | SCADEAPI.py:924-1074 | a mapfoldwi equation that raised nothing leaves the state well formed |
| BuildersV4.InputEquationV4 | Example1_V4.py:369-404 | the older input builder reuses a Local target, else declares one via `create_local_E`, and records the target |
| BuildersV4.InputEquationV4KeepsWellFormed | Example1_V4.py:369-404 | the older input builder keeps the state well formed |
| BuildersV4.InputEquationVersionsAgree | Example1_V4.py:369-404 | with no canvas locals and a non-Table input, the two input builders agree |
| BuildersV4.OutputEquationV4 | Example1_V4.py:406-470 | the older output builder records the output before looking up the input's producer |
| BuildersV4.OutputEquationV4KeepsWellFormed | Example1_V4.py:406-470 | the older output builder keeps the state well formed, raised or not |
| BuildersV4.OutputEquationVersions | Example1_V4.py:426-449 | the two output builders agree except when the input has no producer, where only the older one has recorded the output |
| BuildersV4.BuiltInOutputsV4 | Example1_V4.py:497-530 | the older output loop only grows the state, adds no edges, and raises only `AttributeError` or `ForeignError` |
| BuildersV4.BuiltInOutputsV4Records | Example1_V4.py:497-530 | every producer entry the loop leaves is untouched or names one of its new one-left equations |
| BuildersV4.BuiltInOutputsV4KeepsKeys | Example1_V4.py:497-530 | the older loop never drops a producer entry |
| BuildersV4.BuiltInOutputsV4Complete | Example1_V4.py:497-530 | every unclaimed output is produced by a new equation whose only left is that output |
| BuildersV4.BuiltInEquationV4 | Example1_V4.py:472-551 | the older built-in builder only grows the state; an unknown operand raises with nothing changed; every equation it appends has one left and applies the operator to the Local operands read, in input order with repeats (`Equations.OperandNamesInOrder` with the older lookup) |
| BuildersV4.BuiltInV4KeepsWellFormed | Example1_V4.py:472-551 | an older built-in equation that raised nothing leaves the state well formed |
| BuildersV4.BuiltInV4DefinesOutputs | Example1_V4.py:497-530 | every unclaimed output gets an equation `output = op(...)` of its own and is recorded against it |
| Dispatch.Dispatch | SCADEAPI.py:1300-1324 | a line only grows the state and raises only `AttributeError`, `ValueError` or `KeyError`; an assignment from a non-Input to a non-Output and a call with an empty operator change nothing; a plain call spelled `mapfoldwi` raises `KeyError` for its missing sub-operator |
| Dispatch.DispatchKeepsWellFormed | SCADEAPI.py:1300-1324 | a line that raised nothing and claims no taken output keeps the state well formed |
| Dispatch.DispatchAllAppend | SCADEAPI.py:1300-1324 | running two blocks one after the other is running them joined, unless the first raised |
| Dispatch.DispatchAllStops | SCADEAPI.py:1300-1324 | a run that raised was stopped by one line, after the lines before it ran cleanly |
| Dispatch.DispatchAllKeepsWellFormed | SCADEAPI.py:1300-1324 | a clean run over lines that claim no taken output keeps the state well formed |
| Dispatch.BuildFromText | SCADEAPI.py:1286-1324 | a parse error raises before any line is built; otherwise the parsed lines run |
| Dispatch.BuiltInAllV4KeepsWellFormed | Example1_V4.py:656-657 | the older main loop keeps the state well formed when it raises nothing |
| Dispatch.BuildFromTextV4 | Example1_V4.py:647-657 | the older script end to end only grows the state and keeps it well formed when it raises nothing |
| Json.ParseNumber | SCADEAPI.py:320 | a number that reads consumes at least one character, stays within the text, and is an integer or a float |
| Json.ParseString | SCADEAPI.py:320 | a string that reads stays within the text and decodes to fewer characters than it spans |
| Json.DictOf | SCADEAPI.py:320 | the object keeps no more pairs than were read, each of them one that was read |
| Json.Loads | SCADEAPI.py:320-323 | a decoded value holds no string longer than the text |
| JsonRoundTrip.RepeatedKeyDropsLoneValue | SCADEAPI.py:320 | a text spelling `{"a":"\ud800","a":1}` loads as `{"a": 1}`: the repeated key drops the value with the lone surrogate, so nothing is reported |
| JsonRoundTrip.ReadsEncoded | SCADEAPI.py:320 | a written value reads back as itself up to a delimiter |
| JsonRoundTrip.DictOfDistinct | SCADEAPI.py:320 | an object whose keys are all different is kept as it is |
| JsonRoundTrip.LoadsEncoded | SCADEAPI.py:320-323 | `json.loads` reads back every written value without floats or repeated keys |
| Literals.ElementType | SCADEAPI.py:366-368 | the items of a list get an expected type exactly when the list's is a Table, one layer shallower |
| Literals.TableFor | SCADEAPI.py:350-358 | an array gets a table exactly when its expected type is a Table, with that type's element type and the element count as its size, whatever size the type declares |
| Literals.CompileValue | SCADEAPI.py:318-333 | a non-string scalar always compiles to a constant value |
| Literals.CompileParsed | SCADEAPI.py:325-376 | scalars never fail and become constant values; a structure has one field per entry and an array one item per element |
| Literals.CompileFieldsFrom | SCADEAPI.py:338-344 | one labelled expression per remaining entry |
| Literals.CompileItemsFrom | SCADEAPI.py:364-369 | one expression per remaining element |
| Literals.CompileConstant | SCADEAPI.py:397-398 | a value text that is not JSON becomes one constant value holding the text; a text whose string holds a lone surrogate yields no value |
| Literals.ItemsCompiled | SCADEAPI.py:364-369 | elements compile one by one, in order, and the list fails exactly when one element does |
| Literals.FieldsFail | SCADEAPI.py:338-344 | an object fails exactly when one of its values does |
| Literals.FieldsCompiled | SCADEAPI.py:338-344 | each field is labelled by its key and holds its value compiled with no expected type, in order |
| Literals.ListCompiles | SCADEAPI.py:347-371 | a list becomes an array with one item per element, in order, compiled with the element type of a Table, and the table `TableFor` gives |
| Literals.ObjectCompiles | SCADEAPI.py:336-344 | an object becomes a structure with one labelled expression per key, in order, holding the value compiled with no type |
| Literals.TypeOnlyShapesLists | SCADEAPI.py:336-376 | only a list reads its expected type; any other value compiles the same under every type |
| Literals.ScalarCompiles | SCADEAPI.py:326-333 | a boolean is `true` or `false`, an integer is decimal text reading back as the integer, a string is itself, `null` is `None` |
| Literals.NotJsonKeptVerbatim | SCADEAPI.py:318-322 | a text that is not JSON is kept verbatim as one constant value |
| Literals.CompileWritten | SCADEAPI.py:318-323 | compiling the JSON text of a value compiles the value itself |
| Literals.ConstantTableFollowsTypeName | SCADEAPI.py:379-398 | a list constant carries a table exactly when its type name has a `^` size, whose element type has the named base type and one `^` layer fewer than the type name, and the list's length as size |

## Left out

- JVM start-up, Java class loading, and project creation, loading and saving are foreign runtime and I/O. So are `create_package`, `save_project` and `generate_oid`, which makes random identifiers.
- Graphical presentation elements are not modelled: the positions and sizes of equation shapes, and `create_operator_diagram`. Only the producer map from a name to its equation and the edges as (source, destination, slot) remain.
- `print` logging is not modelled.
- The EMF model walks are replaced by given data:
  - `find_typeObject` is a set of declared type names;
  - `find_operator` is a map from operator name to its interface;
  - the object half of `switch_to_operator_by_path` is left out, and only the names it looks for are modelled.
- EMF containment side effects are not modelled, such as one operator object attached to several equations in the older built-in builder.
- `parse_text_block1` is not modelled, because nothing calls it. The same goes for `create_sensor`, `create_operator`, `create_state_machine_with_transitions` and `create_input_equation_E`'s diagram part.
- `mainaa` is not modelled, because it calls methods that do not exist.
- SCADETools.py is not modelled: it only forwards tool calls to the builder.
- The `current_operator is None` and `current_canvas is None` guards are not modelled. The model always has an operator and a canvas selected.
- `\w` is read as ASCII letters, digits and `_`. Python's Unicode word class is wider.
- Json.ParseNumber: Python's 4300-digit limit on integer conversion is not modelled. Its own contract states only bounds and the kind of number; exact integer values are stated through `JsonRoundTrip.LoadsEncoded`.
- Json.ParseString: its own contract states only bounds; the decoding of escapes is stated through `JsonRoundTrip.LoadsEncoded`, for the strings the encoder writes.
- Json.DictOf: the rule that a repeated key keeps its last value at its first position is in the definition but not in a contract; `JsonRoundTrip.DictOfDistinct` states only the case of distinct keys.
- Json.Loads: a text whose decoded value holds a string with a lone UTF-16 surrogate is reported as `LoneSurrogate`. A Dafny `char` cannot hold such a string, and `Literals.CompileText` gives no literal for it. The report counts every object key, but a value only when no later member repeats its key, so a surrogate that `dict` discards does not count (`JsonRoundTrip.RepeatedKeyDropsLoneValue`).
- Equations.DeclareOutputsInOrder: an output name that an Input shadows is unclaimed on every pass, so each repeat of it is appended to the lefts again, with the canvas local `create_local_E` returns. Whether the foreign `getLefts().add` keeps such a repeat is EMF list behaviour, and it is not modelled.
- Literals.TableFor: `getDefinedType()` on a Table (SCADEAPI.py:355 and 366) is taken to be the element type that `create_type_from_string` stores with `setType` (SCADEAPI.py:304) and that `clone_type` reads with `getType()` (SCADEAPI.py:574), following the source's own comment at line 365. The two getters are foreign calls into the SCADE model, and `Literals.ElementType` rests on the same reading; so do `Literals.ListCompiles` and `Literals.ConstantTableFollowsTypeName`.
- Literals.CompileParsed: a float is kept as the text `float()` read (`FloatConst`), not formatted by `str(float)`.
- JsonRoundTrip.LoadsEncoded: the round trip covers values without floats and without repeated object keys. The writer has no spelling for a float, and a repeated key is merged by `dict`.
- Literals.CompileConstant: the package bookkeeping of `create_constant` is not modelled. That covers the missing-package `None`, the duplicate-name check, the declaration list and the code-generation pragma. Only the value compilation is modelled.
- Builders.OperatorKeepsWellFormed: this requires that no output is already an Output or a Local. The source records such an output against the new equation anyway, which `Builders.OperatorRecordsSkippedOutput` states.
- Builders.MapfoldEquation: `create_local` is called on a module-level `builder` rather than `self`. The model takes it to be the same builder.
- Builders.AccumulatorCount: `int()` is modelled on ASCII digit strings only; other text raises `ValueError`. Python's `int()` also reads other Unicode decimal digits, such as `٢`, which the line parser's `\d` lets through (see the `MapfoldLine.ParseMapfoldwi` line).
- MapfoldLine.ParseMapfoldwi: the pattern's `\d` is read as the ASCII digits `0`-`9`. Python's `re` also matches every other Unicode decimal digit there, so a line such as `_L4 = (mapfoldwi ٢ Op <<5>> if c)(a)` parses in Python with 2 accumulators but raises `ValueError` in the model, and that error then stops the whole block. Modelling Unicode's decimal digits would need its full table of digit ranges.
- MapfoldLine.GroupClasses: states that the accumulator and size groups are ASCII digits, for the same reading of `\d`.
- MapfoldLine.OperatorPartRule: refuses an operator part whose counts use non-ASCII decimal digits, which Python accepts, for the same reading of `\d`.
- Symbols.CreateLocalEV4: the older `create_local_E` calls `getType()` on a Table, which yields the element type where a declaration is expected. The model reports that case as a foreign error.

=== FILE: builders.dfy ===
/**
 * The equation builders of `SCADE_Builder`, one function per
 * `create_*_equation` method. Each returns the state it leaves behind and the
 * exception it raised, if any; the diagram element of an equation is
 * represented by the equation's index.
 */
module Builders {
  import opened Wrappers
  import opened Exceptions
  import opened Text
  import opened Types
  import opened Symbols
  import opened Equations

  // ---------------------------------------------------------------------------
  // Recording an equation
  // ---------------------------------------------------------------------------

  /**
   * Appending an equation and pointing producer entries at it keeps the state
   * well formed when every re-pointed name is among its left-hand sides.
   */
  lemma RecordKeepsWellFormed(st: State, eq: Equation, producers: map<string, nat>)
    requires WellFormed(st)
    requires forall n :: n in producers ==>
               (n in st.producers && producers[n] == st.producers[n])
               || (producers[n] == |st.equations| && n in eq.lefts)
    ensures WellFormed(st.(equations := st.equations + [eq], producers := producers))
  {
    var st' := st.(equations := st.equations + [eq], producers := producers);
    forall n | n in producers
      ensures producers[n] < |st'.equations| && n in st'.equations[producers[n]].lefts
    {
      if n in st.producers && producers[n] == st.producers[n] {
        assert st'.equations[producers[n]] == st.equations[producers[n]];
      }
    }
  }

  // ---------------------------------------------------------------------------
  // create_input_equation
  // ---------------------------------------------------------------------------

  /**
   * `create_input_equation(input, output)`: when `input` is an Input, the
   * equation `output = input` is appended and becomes `output`'s producer. A
   * Local `output` is reused; any other gets a canvas local of the input's
   * type. An unknown `input` raises `AttributeError` (its warning reads
   * `None.getName()`); a Local or Output `input` changes nothing.
   */
  function InputEquation(st: State, input: string, output: string): (o: Outcome)
    ensures Grows(st, o.st)
    ensures o.error.Some? <==> Resolve(st, input).kind == NotFound
    ensures o.error.Some? ==> o.error == Some(AttributeError)
    ensures Resolve(st, input).kind != InputKind ==> o.st == st
    ensures Resolve(st, input).kind == InputKind ==>
              && o.st.equations == st.equations + [Equation([output], Id(Some(input)))]
              && o.st.producers == st.producers[output := |st.equations|]
              && o.st.edges == st.edges
    ensures Resolve(st, input).kind == InputKind && Resolve(st, output).kind != LocalKind ==>
              o.st.locals == Declare(st.locals, Var(output, Resolve(st, input).v.value.ty)).0
  {
    var ri := Resolve(st, input);
    if ri.kind == InputKind then
      var ro := Resolve(st, output);
      var made := if ro.kind == LocalKind then Ok(Made(st, ro.v.value)) else CreateLocalE(st, Some(ri.v.value.ty), output);
      match made
      case Err(e) => Outcome(st, Some(e))
      case Ok(m) =>
        var idx := |m.st.equations|;
        Outcome(m.st.(equations := m.st.equations + [Equation([output], Id(Some(input)))],
                      producers := m.st.producers[output := idx]), None)
    else if ri.kind == NotFound then Outcome(st, Some(AttributeError))
    else Outcome(st, None)
  }

  /** `create_input_equation` keeps every producer entry and edge pointing at an equation that defines it. */
  lemma InputEquationKeepsWellFormed(st: State, input: string, output: string)
    requires WellFormed(st)
    ensures WellFormed(InputEquation(st, input, output).st)
  {
    var o := InputEquation(st, input, output);
    if Resolve(st, input).kind == InputKind {
      var st1 := o.st.(equations := st.equations, producers := st.producers);
      assert WellFormed(st1);
      RecordKeepsWellFormed(st1, Equation([output], Id(Some(input))), st.producers[output := |st.equations|]);
    }
  }

  /**
   * After `create_input_equation` reads an Input, the output is declared: an
   * unknown output becomes a canvas local of the input's type, and one that is
   * not an Input itself resolves as a Local.
   */
  lemma InputEquationDeclares(st: State, input: string, output: string)
    requires Resolve(st, input).kind == InputKind
    ensures var o := InputEquation(st, input, output);
            output !in Names(st.inputs) ==> Resolve(o.st, output).kind == LocalKind
    ensures var o := InputEquation(st, input, output);
            Resolve(st, output).kind == NotFound ==>
              Resolve(o.st, output) == Resolution(LocalKind, Some(Var(output, Resolve(st, input).v.value.ty)))
  {
    var o := InputEquation(st, input, output);
    var ro := Resolve(st, output);
    if ro.kind != LocalKind {
      var v := Var(output, Resolve(st, input).v.value.ty);
      if output !in Names(st.locals) {
        var st1 := st.(locals := st.locals + [v]);
        assert o.st.locals == st1.locals;
        ResolveAfterLocal(st, v, output);
        FindAppended(st.locals, v);
        assert Resolve(o.st, output) == Resolve(st1, output);
      }
    }
  }

  // ---------------------------------------------------------------------------
  // create_output_equation
  // ---------------------------------------------------------------------------

  /**
   * `create_output_equation(input, output)`: when `output` is an Output, the
   * equation `output = input` is appended, its right side naming `input` only
   * when that is a Local, and an edge joins `input`'s producer to it. An
   * unknown `input` or `output` raises `AttributeError` before anything
   * changes; an `input` without a producer raises `KeyError` after the
   * equation was added.
   */
  function OutputEquation(st: State, input: string, output: string): (o: Outcome)
    ensures Grows(st, o.st)
    ensures o.error == Some(AttributeError) <==>
              Resolve(st, input).kind == NotFound || Resolve(st, output).kind == NotFound
    ensures o.error.Some? && o.error != Some(AttributeError) ==>
              o.error == Some(KeyError(input)) && input !in st.producers && Resolve(st, output).kind == OutputKind
    ensures o.error == Some(AttributeError) || Resolve(st, output).kind != OutputKind ==> o.st == st
    ensures o.error != Some(AttributeError) && Resolve(st, output).kind == OutputKind ==>
              && |o.st.equations| == |st.equations| + 1
              && o.st.equations[|st.equations|].lefts == [output]
              && o.st.equations[|st.equations|].right ==
                   Id(if Resolve(st, input).kind == LocalKind then Some(input) else None)
    ensures o.error.None? && Resolve(st, output).kind == OutputKind ==>
              && input in st.producers
              && o.st.producers == st.producers[output := |st.equations|]
              && o.st.edges == st.edges + [Edge(st.producers[input], Some(|st.equations|), 1, 1)]
  {
    var ri := Resolve(st, input);
    if ri.kind == NotFound then Outcome(st, Some(AttributeError))
    else
      var ro := Resolve(st, output);
      if ro.kind == OutputKind then
        var idx := |st.equations|;
        var path := if ri.kind == LocalKind then Some(input) else None;
        var st1 := st.(equations := st.equations + [Equation([output], Id(path))]);
        if input !in st.producers then Outcome(st1, Some(KeyError(input)))
        else
          Outcome(st1.(producers := st.producers[output := idx],
                       edges := st.edges + [Edge(st.producers[input], Some(idx), 1, 1)]), None)
      else if ro.kind == NotFound then Outcome(st, Some(AttributeError))
      else Outcome(st, None)
  }

  /** `create_output_equation` keeps the state well formed, whether or not it raised. */
  lemma OutputEquationKeepsWellFormed(st: State, input: string, output: string)
    requires WellFormed(st)
    ensures WellFormed(OutputEquation(st, input, output).st)
  {
    var o := OutputEquation(st, input, output);
    if o.st != st {
      var eq := o.st.equations[|st.equations|];
      assert o.st.equations == st.equations + [eq];
      var mid := st.(equations := st.equations + [eq], producers := o.st.producers);
      RecordKeepsWellFormed(st, eq, o.st.producers);
      assert o.st == mid.(edges := o.st.edges);
      forall e | e in o.st.edges
        ensures e.src < |o.st.equations| && (e.dst.Some? ==> e.dst.value < |o.st.equations|)
      {
        if e !in st.edges {
          assert e == Edge(st.producers[input], Some(|st.equations|), 1, 1);
        }
      }
    }
  }

  // ---------------------------------------------------------------------------
  // create_buildInOperator_equation
  // ---------------------------------------------------------------------------

  const NAryOps: set<string> := {"+", "*", "and", "or", "xor", "land", "lor"}
  const UnaryOps: set<string> := {"not", "lnot"}
  const BinaryOps: set<string> :=
    {"-", "/", "mod", "&lt;", "&lt;=", "&gt;", "&gt;=", "&lt;&gt;", "=", "lxor", "lsl", "lsr"}

  /**
   * The operator object a built-in operator name selects; the comparison
   * names arrive still escaped as in the diagram text. Any other name selects
   * none.
   */
  function ShapeOf(op: string): (s: Option<Shape>)
    ensures s.None? <==> op !in NAryOps + UnaryOps + BinaryOps + {"1", "pre", "fby"}
    ensures s == Some(NAry) <==> op in NAryOps
    ensures s == Some(Binary) <==> op in BinaryOps
  {
    if op in NAryOps then Some(NAry)
    else if op in UnaryOps then Some(Unary)
    else if op in BinaryOps then Some(Binary)
    else if op == "1" then Some(NumericCast)
    else if op == "pre" then Some(Pre)
    else if op == "fby" then Some(Fby)
    else None
  }

  /** No name selects two shapes, so the order of the tests does not matter. */
  lemma ShapesDisjoint(op: string)
    ensures op in UnaryOps ==> ShapeOf(op) == Some(Unary)
    ensures op == "1" ==> ShapeOf(op) == Some(NumericCast)
    ensures op == "pre" ==> ShapeOf(op) == Some(Pre)
    ensures op == "fby" ==> ShapeOf(op) == Some(Fby)
    ensures NAryOps * BinaryOps == {} && NAryOps * UnaryOps == {} && UnaryOps * BinaryOps == {}
  {
  }

  /**
   * `create_buildInOperator_equation(expr)`. The operand loop reads the Local
   * operands (an unknown one, or any Local when the name selects no operator
   * object, raises `AttributeError` with nothing changed); the output loop
   * declares every output that is neither Output nor Local, typed as the last
   * Local operand, and makes it produced by the new equation even when a later
   * declaration raises. Then the equation joins the canvas and an edge runs
   * from each operand's producer into slot `k + 1`.
   */
  function BuiltInEquation(st: State, op: string, inputs: seq<string>, outputs: seq<string>): (o: Outcome)
    ensures Grows(st, o.st)
    ensures o.error.Some? ==> o.error == Some(AttributeError) || o.error.value.KeyError?
    ensures var r := ReadOperands(Lookups(Current, st, inputs), false);
            r.error.Some? || (ShapeOf(op).None? && |r.vars| > 0) ==> o == Outcome(st, Some(AttributeError))
    ensures var r := ReadOperands(Lookups(Current, st, inputs), false);
            var d := DeclareOutputs(st, Fixed(LastLocalType(Lookups(Current, st, inputs))), outputs, 0, false);
            o.error.None? || o.error.value.KeyError? ==>
              && r.error.None? && d.error.None?
              && o.st.equations == st.equations + [Equation(d.lefts, BuiltIn(op, ShapeOf(op), Names(r.vars)))]
              && o.st.locals == d.st.locals
              && o.st.producers == MapTo(st.producers, d.lefts, |st.equations|)
    ensures o.error.None? ==>
              |o.st.edges| == |st.edges| + |inputs| && forall k :: 0 <= k < |inputs| ==> inputs[k] in o.st.producers
  {
    var rs := Lookups(Current, st, inputs);
    var r := ReadOperands(rs, false);
    var shape := ShapeOf(op);
    if r.error.Some? || (shape.None? && |r.vars| > 0) then Outcome(st, Some(AttributeError))
    else
      var d := DeclareOutputs(st, Fixed(LastLocalType(rs)), outputs, 0, false);
      var idx := |st.equations|;
      var st1 := d.st.(producers := MapTo(st.producers, d.lefts, idx));
      if d.error.Some? then Outcome(st1, d.error)
      else
        var st2 := st1.(equations := st.equations + [Equation(d.lefts, BuiltIn(op, shape, Names(r.vars)))]);
        Connect(st2, inputs, if |d.lefts| > 0 then Some(idx) else None, 1)
  }

  /** Re-pointing the names of `lefts` at a new last equation keeps the state well formed. */
  lemma RecordLeftsKeepsWellFormed(st: State, eq: Equation)
    requires WellFormed(st)
    ensures WellFormed(st.(equations := st.equations + [eq],
                           producers := MapTo(st.producers, eq.lefts, |st.equations|)))
  {
    RecordKeepsWellFormed(st, eq, MapTo(st.producers, eq.lefts, |st.equations|));
  }

  /** A built-in equation that raised nothing leaves the state well formed. */
  lemma BuiltInKeepsWellFormed(st: State, op: string, inputs: seq<string>, outputs: seq<string>)
    requires WellFormed(st)
    requires BuiltInEquation(st, op, inputs, outputs).error.None?
    ensures WellFormed(BuiltInEquation(st, op, inputs, outputs).st)
  {
    var rs := Lookups(Current, st, inputs);
    var r := ReadOperands(rs, false);
    var d := DeclareOutputs(st, Fixed(LastLocalType(rs)), outputs, 0, false);
    var eq := Equation(d.lefts, BuiltIn(op, ShapeOf(op), Names(r.vars)));
    assert WellFormed(d.st);
    RecordLeftsKeepsWellFormed(d.st, eq);
    var st2 := d.st.(equations := st.equations + [eq], producers := MapTo(st.producers, d.lefts, |st.equations|));
    ConnectKeepsWellFormed(st2, inputs, if |d.lefts| > 0 then Some(|st.equations|) else None, 1);
  }

  /**
   * The outputs of a built-in equation that raised nothing: its lefts are the
   * outputs that join them, in output order (left `i` is output `idx[i]`),
   * every output that was neither Output nor Local is among them, and each of
   * them is produced by it.
   */
  lemma BuiltInDefinesOutputs(st: State, op: string, inputs: seq<string>, outputs: seq<string>) returns (idx: seq<nat>)
    requires BuiltInEquation(st, op, inputs, outputs).error.None?
    ensures var o := BuiltInEquation(st, op, inputs, outputs);
            var lefts := DeclareOutputs(st, Fixed(LastLocalType(Lookups(Current, st, inputs))), outputs, 0, false).lefts;
            && o.st.equations[|st.equations|].lefts == lefts
            && (forall n :: n in outputs && Unclaimed(Current, st, n) ==>
                  n in lefts && n in o.st.producers && o.st.producers[n] == |st.equations|)
            && (forall i :: 0 <= i < |lefts| ==> Unclaimed(Current, st, lefts[i]))
            && multiset(lefts) <= multiset(outputs)
            && LeftsAt(st, outputs, lefts, idx)
  {
    var t := LastLocalType(Lookups(Current, st, inputs));
    DeclareOutputsComplete(st, Fixed(t), outputs, 0, false);
    DeclareLeftsUnclaimed(st, Fixed(t), outputs, 0, false);
    DeclareLeftsFromOutputs(st, Fixed(t), outputs, 0, false);
    idx := DeclareOutputsInOrder(st, Fixed(t), outputs, 0);
  }

  /** The type of the last operand read, if any. */
  function LastReadType(vs: seq<Var>): Option<Ty> {
    if |vs| == 0 then None else Some(vs[|vs| - 1].ty)
  }

  /**
   * The output loop of a built-in equation, whose locals the equation keeps
   * when it raises nothing: each new local is among the lefts and has the
   * type of the last operand read.
   */
  lemma BuiltInOutputsTyped(st: State, rs: seq<Resolution>, outputs: seq<string>)
    requires ReadOperands(rs, false).error.None?
    ensures var d := DeclareOutputs(st, Fixed(LastLocalType(rs)), outputs, 0, false);
            var vs := ReadOperands(rs, false).vars;
            forall i :: |st.locals| <= i < |d.st.locals| ==>
              && d.st.locals[i].name in d.lefts
              && Some(d.st.locals[i].ty) == LastReadType(vs)
  {
    DeclareOutputsFixed(st, LastLocalType(rs), outputs, 0, false);
    LastOperandType(rs);
  }


  // ---------------------------------------------------------------------------
  // create_operator_equation
  // ---------------------------------------------------------------------------

  /** `find_operator`: the called operator's interface, when the package declares it. */
  function FindOperator(ops: map<string, OpSig>, name: string): (r: Option<OpSig>)
    ensures r.Some? <==> name in ops
    ensures r.Some? ==> r.value == ops[name]
  {
    if name in ops then Some(ops[name]) else None
  }

  /**
   * `create_operator_equation(expr)`: a call of the operator named `callee`.
   * The operand loop is the built-in one's; the output loop types each new
   * local as the callee's output port at the same position (an unknown callee
   * raises `AttributeError` there, keeping the locals declared before). Every
   * output, declared or not, is then made produced by the new equation, and
   * the edges run into it as for a built-in equation.
   */
  function OperatorEquation(st: State, ops: map<string, OpSig>, callee: string, inputs: seq<string>, outputs: seq<string>): (o: Outcome)
    ensures Grows(st, o.st)
    ensures o.error.Some? ==> o.error == Some(AttributeError) || o.error.value.KeyError?
    ensures ReadOperands(Lookups(Current, st, inputs), false).error.Some? ==> o == Outcome(st, Some(AttributeError))
    ensures var d := DeclareOutputs(st, PortOf(FindOperator(ops, callee)), outputs, 0, false);
            ReadOperands(Lookups(Current, st, inputs), false).error.None? && d.error.Some? ==>
              o == Outcome(d.st, d.error)
    ensures var r := ReadOperands(Lookups(Current, st, inputs), false);
            var d := DeclareOutputs(st, PortOf(FindOperator(ops, callee)), outputs, 0, false);
            o.error.None? || o.error.value.KeyError? ==>
              && r.error.None? && d.error.None?
              && o.st.equations == st.equations
                   + [Equation(d.lefts, OpCall(if callee in ops then Some(callee) else None, Names(r.vars)))]
              && o.st.locals == d.st.locals
              && o.st.producers == MapTo(st.producers, outputs, |st.equations|)
  {
    var sig := FindOperator(ops, callee);
    var r := ReadOperands(Lookups(Current, st, inputs), false);
    if r.error.Some? then Outcome(st, Some(AttributeError))
    else
      var d := DeclareOutputs(st, PortOf(sig), outputs, 0, false);
      if d.error.Some? then Outcome(d.st, d.error)
      else
        var idx := |st.equations|;
        var eq := Equation(d.lefts, OpCall(if sig.Some? then Some(callee) else None, Names(r.vars)));
        var st1 := d.st.(equations := st.equations + [eq], producers := MapTo(st.producers, outputs, idx));
        Connect(st1, inputs, if |outputs| > 0 then Some(idx) else None, 1)
  }

  /**
   * When every output was neither Output nor Local, an operator equation
   * that raised nothing leaves the state well formed: each output is then
   * among the lefts of the equation it is recorded against.
   */
  lemma OperatorKeepsWellFormed(st: State, ops: map<string, OpSig>, callee: string, inputs: seq<string>, outputs: seq<string>)
    requires WellFormed(st)
    requires forall k :: 0 <= k < |outputs| ==> Unclaimed(Current, st, outputs[k])
    requires OperatorEquation(st, ops, callee, inputs, outputs).error.None?
    ensures WellFormed(OperatorEquation(st, ops, callee, inputs, outputs).st)
  {
    var sig := FindOperator(ops, callee);
    var r := ReadOperands(Lookups(Current, st, inputs), false);
    var d := DeclareOutputs(st, PortOf(sig), outputs, 0, false);
    DeclareOutputsComplete(st, PortOf(sig), outputs, 0, false);
    var eq := Equation(d.lefts, OpCall(if sig.Some? then Some(callee) else None, Names(r.vars)));
    var idx := |st.equations|;
    var producers := MapTo(st.producers, outputs, idx);
    forall n | n in producers
      ensures (n in d.st.producers && producers[n] == d.st.producers[n]) || (producers[n] == idx && n in eq.lefts)
    {
      if n in outputs {
        var k :| 0 <= k < |outputs| && outputs[k] == n;
      }
    }
    assert WellFormed(d.st);
    RecordKeepsWellFormed(d.st, eq, producers);
    var st1 := d.st.(equations := st.equations + [eq], producers := producers);
    ConnectKeepsWellFormed(st1, inputs, if |outputs| > 0 then Some(idx) else None, 1);
  }

  /**
   * The producer map of `create_operator_equation` can point a name at an
   * equation that does not define it: an Output given as an output is skipped
   * by the output loop but still recorded against the new equation, whose
   * lefts are then empty.
   */
  lemma OperatorRecordsSkippedOutput()
    ensures var t := Named(Some("int32"));
            var st := State([], [Var("y", t)], [], [], [], map[], []);
            var o := OperatorEquation(st, map["f" := OpSig([], [t])], "f", [], ["y"]);
            && WellFormed(st)
            && o.error.None?
            && o.st.producers == map["y" := 0]
            && o.st.equations == [Equation([], OpCall(Some("f"), []))]
            && !WellFormed(o.st)
  {
    var t := Named(Some("int32"));
    var st := State([], [Var("y", t)], [], [], [], map[], []);
    assert Names(st.outputs) == ["y"];
    assert Resolve(st, "y").kind == OutputKind;
    var d := DeclareOutputs(st, PortOf(Some(OpSig([], [t]))), ["y"], 0, false);
    assert d == Declared(st, [], None, false);
  }

  /**
   * The output loop of an operator equation: an output that was unknown, or
   * an Input, and not repeated before, gets a canvas local typed as the
   * callee's output port at its position.
   */
  lemma OperatorOutputsTyped(st: State, ops: map<string, OpSig>, callee: string, outputs: seq<string>, k: nat)
    requires k < |outputs| && Unclaimed(Current, st, outputs[k])
    requires forall v :: v in st.locals ==> v.name != outputs[k]
    requires forall j :: 0 <= j < k ==> outputs[j] != outputs[k]
    ensures var d := DeclareOutputs(st, PortOf(FindOperator(ops, callee)), outputs, 0, false);
            d.error.None? ==>
              callee in ops && k < |ops[callee].outputs| && Var(outputs[k], ops[callee].outputs[k]) in d.st.locals
  {
    DeclareOutputsTyped(st, PortOf(FindOperator(ops, callee)), outputs, 0, false, k, k);
  }

  // ---------------------------------------------------------------------------
  // create_mapfoldwi_equation
  // ---------------------------------------------------------------------------

  /** `int(accumulators)` for the digit strings the line parser hands over; anything else raises `ValueError`. */
  function AccumulatorCount(accumulators: string): (r: Result<nat, Exc>)
    ensures r.Err? <==> |accumulators| == 0 || !AllDigits(accumulators)
    ensures r.Err? ==> r.error == ValueError(NotAnInteger)
  {
    if |accumulators| > 0 && AllDigits(accumulators) then Ok(DigitsValue(accumulators))
    else Err(ValueError(NotAnInteger))
  }

  /** How many default expressions the iterator gets: `range(count)` is empty for a negative count. */
  function DefaultCount(callee: OpSig, accumulators: nat): (n: nat)
    ensures n + accumulators + 1 >= |callee.outputs|
    ensures n > 0 ==> n + accumulators + 1 == |callee.outputs|
  {
    if |callee.outputs| - accumulators - 1 > 0 then |callee.outputs| - accumulators - 1 else 0
  }

  /** The names of the two locals the `mapfoldwi` equation defines first: the iteration index and the enable flag. */
  const IndexLocal: string := "_L011"
  const EnableLocal: string := "_L022"

  /** `create_local` only appends a canvas local. */
  lemma CreateLocalGrows(st: State, name: string, typeName: string, directory: set<string>)
    ensures var m := CreateLocal(st, name, typeName, directory);
            Grows(st, m.st) && m.st == st.(locals := m.st.locals)
  {
  }

  /**
   * The end of `create_mapfoldwi_equation`: the equation joins the canvas,
   * every output is recorded against it, the condition's producer feeds slot
   * 1 and the operands' producers feed slots 2 onwards. A condition without
   * a producer raises `KeyError` once the equation is recorded.
   */
  function MapfoldRecord(st: State, eq: Equation, outputs: seq<string>, cond: string, inputs: seq<string>): (o: Outcome)
    ensures Grows(st, o.st) && o.st.locals == st.locals
    ensures o.st.equations == st.equations + [eq]
    ensures o.st.producers == MapTo(st.producers, outputs, |st.equations|)
    ensures o.error.Some? ==> o.error.value.KeyError?
    ensures cond !in o.st.producers ==> o.error == Some(KeyError(cond)) && o.st.edges == st.edges
    ensures o.error.None? ==>
              && cond in o.st.producers
              && |o.st.edges| == |st.edges| + 1 + |inputs|
              && o.st.edges[|st.edges|] ==
                   Edge(o.st.producers[cond], if |outputs| > 0 then Some(|st.equations|) else None, 1, 1)
  {
    var idx := |st.equations|;
    var dst := if |outputs| > 0 then Some(idx) else None;
    var st1 := st.(equations := st.equations + [eq], producers := MapTo(st.producers, outputs, idx));
    if cond !in st1.producers then Outcome(st1, Some(KeyError(cond)))
    else
      var st2 := st1.(edges := st.edges + [Edge(st1.producers[cond], dst, 1, 1)]);
      var o := Connect(st2, inputs, dst, 2);
      assert o.error.None? ==> o.st.edges[|st.edges|] == o.st.edges[..|st2.edges|][|st.edges|];
      assert o.st.edges[..|st.edges|] == o.st.edges[..|st2.edges|][..|st.edges|];
      o
  }

  /**
   * `create_mapfoldwi_equation(expr)`: an iterated call of `sub`. In order:
   * an unknown `sub` raises `AttributeError`; port counts other than one more
   * than the line's inputs and outputs end the call; `int(accumulators)` may
   * raise; the condition must be a Local (an Input or Output ends the call,
   * an unknown one raises); every operand must be a Local likewise. Then the
   * index and enable locals are declared and every output must be new, typed
   * by the callee's port, promoted past the accumulators; a taken output ends
   * the call and keeps the locals declared so far. Finally the equation is
   * recorded by `MapfoldRecord`.
   */
  function MapfoldEquation(st: State, ops: map<string, OpSig>, directory: set<string>, sub: string,
                           accumulators: string, size: string, cond: string,
                           inputs: seq<string>, outputs: seq<string>): (o: Outcome)
    ensures Grows(st, o.st)
    ensures o.error.Some? ==>
              o.error == Some(AttributeError) || o.error == Some(ValueError(NotAnInteger)) || o.error.value.KeyError?
    ensures sub !in ops ==> o == Outcome(st, Some(AttributeError))
    ensures sub in ops && (|ops[sub].inputs| != |inputs| + 1 || |ops[sub].outputs| != |outputs| + 1) ==>
              o == Outcome(st, None)
    ensures sub in ops && |ops[sub].inputs| == |inputs| + 1 && |ops[sub].outputs| == |outputs| + 1 ==>
              && (AccumulatorCount(accumulators).Err? ==> o == Outcome(st, Some(ValueError(NotAnInteger))))
              && (AccumulatorCount(accumulators).Ok? && Resolve(st, cond).kind == NotFound ==>
                    o == Outcome(st, Some(AttributeError)))
              && (AccumulatorCount(accumulators).Ok? && Resolve(st, cond).kind in {InputKind, OutputKind} ==>
                    o == Outcome(st, None))
    ensures var r := ReadOperands(Lookups(Current, st, inputs), true);
            sub in ops && |ops[sub].inputs| == |inputs| + 1 && |ops[sub].outputs| == |outputs| + 1 &&
            AccumulatorCount(accumulators).Ok? && Resolve(st, cond).kind == LocalKind ==>
              && (r.error.Some? ==> o == Outcome(st, r.error))
              && (r.error.None? && r.stopped ==> o == Outcome(st, None))
    ensures |o.st.equations| > |st.equations| ==>
              && sub in ops && AccumulatorCount(accumulators).Ok?
              && Resolve(st, cond).kind == LocalKind
              && o.st.equations == st.equations +
                   [Equation([IndexLocal, EnableLocal] + outputs,
                             Iter(sub, accumulators, size, DefaultCount(ops[sub], AccumulatorCount(accumulators).value), cond,
                                  Names(ReadOperands(Lookups(Current, st, inputs), true).vars)))]
              && o.st.producers == MapTo(st.producers, outputs, |st.equations|)
  {
    if sub !in ops then Outcome(st, Some(AttributeError))
    else
      var sig := ops[sub];
      if |sig.inputs| != |inputs| + 1 || |sig.outputs| != |outputs| + 1 then Outcome(st, None)
      else
        match AccumulatorCount(accumulators)
        case Err(e) => Outcome(st, Some(e))
        case Ok(acc) =>
          var kind := Resolve(st, cond).kind;
          if kind == NotFound then Outcome(st, Some(AttributeError))
          else if kind != LocalKind then Outcome(st, None)
          else
            var r := ReadOperands(Lookups(Current, st, inputs), true);
            if r.error.Some? then Outcome(st, r.error)
            else if r.stopped then Outcome(st, None)
            else
              var m1 := CreateLocal(st, IndexLocal, "int32", directory);
              var m2 := CreateLocal(m1.st, EnableLocal, "bool", directory);
              var d := DeclareOutputs(m2.st, Iterated(sig, acc, size, directory), outputs, 0, true);
              assert Grows(st, d.st) by {
                CreateLocalGrows(st, IndexLocal, "int32", directory);
                CreateLocalGrows(m1.st, EnableLocal, "bool", directory);
                GrowsTransitive(st, m1.st, m2.st);
                GrowsTransitive(st, m2.st, d.st);
              }
              if d.error.Some? then Outcome(d.st, d.error)
              else if d.stopped then Outcome(d.st, None)
              else
                var eq := Equation([IndexLocal, EnableLocal] + d.lefts,
                                   Iter(sub, accumulators, size, DefaultCount(sig, acc), cond, Names(r.vars)));
                var o := MapfoldRecord(d.st, eq, outputs, cond, inputs);
                GrowsTransitive(st, d.st, o.st);
                o
  }

  /** `create_local` either finds the name on the canvas or appends the local it returns. */
  lemma CreateLocalShape(st: State, name: string, typeName: string, directory: set<string>)
    ensures var m := CreateLocal(st, name, typeName, directory);
            m.v.name == name && (m.st == st || m.st == st.(locals := st.locals + [m.v]))
  {
    var v := Var(name, TypeFromString(typeName, directory));
    if name !in Names(st.locals) {
      assert Declare(st.locals, v) == (st.locals + [v], v);
    }
  }

  /** The two locals `create_mapfoldwi_equation` declares first leave every other new name new. */
  lemma MapfoldLocalsKeepFresh(st: State, directory: set<string>, name: string)
    requires Unclaimed(Current, st, name) && forall v :: v in st.locals ==> v.name != name
    requires name != IndexLocal && name != EnableLocal
    ensures var m1 := CreateLocal(st, IndexLocal, "int32", directory);
            var m2 := CreateLocal(m1.st, EnableLocal, "bool", directory);
            Unclaimed(Current, m2.st, name) && forall v :: v in m2.st.locals ==> v.name != name
  {
    var m1 := CreateLocal(st, IndexLocal, "int32", directory);
    CreateLocalShape(st, IndexLocal, "int32", directory);
    StillFresh(st, m1, name);
    CreateLocalShape(m1.st, EnableLocal, "bool", directory);
    StillFresh(m1.st, CreateLocal(m1.st, EnableLocal, "bool", directory), name);
  }

  /**
   * The output types of a recorded `mapfoldwi` equation: an output that was
   * new, and not repeated before, is a canvas local typed as the callee's
   * output port at its position; past the accumulators that port type must
   * name a declaration and gains `^size`.
   */
  lemma MapfoldOutputsTyped(st: State, ops: map<string, OpSig>, directory: set<string>, sub: string,
                            accumulators: string, size: string, cond: string,
                            inputs: seq<string>, outputs: seq<string>, k: nat)
    requires k < |outputs| && Unclaimed(Current, st, outputs[k])
    requires forall v :: v in st.locals ==> v.name != outputs[k]
    requires outputs[k] != IndexLocal && outputs[k] != EnableLocal
    requires forall j :: 0 <= j < k ==> outputs[j] != outputs[k]
    requires var o := MapfoldEquation(st, ops, directory, sub, accumulators, size, cond, inputs, outputs);
             |o.st.equations| > |st.equations|
    ensures var o := MapfoldEquation(st, ops, directory, sub, accumulators, size, cond, inputs, outputs);
            && sub in ops && AccumulatorCount(accumulators).Ok? && k + 1 < |ops[sub].outputs|
            && var t := ops[sub].outputs[k];
               if k < AccumulatorCount(accumulators).value then Var(outputs[k], t) in o.st.locals
               else t.Named? && t.base.Some?
                    && Var(outputs[k], TypeFromString(t.base.value + "^" + size, directory)) in o.st.locals
  {
    var sig := ops[sub];
    var acc := AccumulatorCount(accumulators).value;
    var m1 := CreateLocal(st, IndexLocal, "int32", directory);
    var m2 := CreateLocal(m1.st, EnableLocal, "bool", directory);
    var rule := Iterated(sig, acc, size, directory);
    var d := DeclareOutputs(m2.st, rule, outputs, 0, true);
    MapfoldLocalsKeepFresh(st, directory, outputs[k]);
    DeclareOutputsTyped(m2.st, rule, outputs, 0, true, k, k);
    RuleTypeIterated(sig, acc, size, directory, k);
    assert MapfoldEquation(st, ops, directory, sub, accumulators, size, cond, inputs, outputs).st.locals == d.st.locals;
  }

  /** Recording a `mapfoldwi` equation among whose lefts every output appears keeps the state well formed. */
  lemma MapfoldRecordKeepsWellFormed(st: State, eq: Equation, outputs: seq<string>, cond: string, inputs: seq<string>)
    requires WellFormed(st)
    requires forall n :: n in outputs ==> n in eq.lefts
    requires MapfoldRecord(st, eq, outputs, cond, inputs).error.None?
    ensures WellFormed(MapfoldRecord(st, eq, outputs, cond, inputs).st)
  {
    var idx := |st.equations|;
    var dst := if |outputs| > 0 then Some(idx) else None;
    var producers := MapTo(st.producers, outputs, idx);
    RecordKeepsWellFormed(st, eq, producers);
    var st1 := st.(equations := st.equations + [eq], producers := producers);
    var st2 := st1.(edges := st.edges + [Edge(st1.producers[cond], dst, 1, 1)]);
    assert WellFormed(st2);
    ConnectKeepsWellFormed(st2, inputs, dst, 2);
  }

  /** A `mapfoldwi` equation that raised nothing leaves the state well formed. */
  lemma MapfoldKeepsWellFormed(st: State, ops: map<string, OpSig>, directory: set<string>, sub: string,
                               accumulators: string, size: string, cond: string,
                               inputs: seq<string>, outputs: seq<string>)
    requires WellFormed(st)
    requires MapfoldEquation(st, ops, directory, sub, accumulators, size, cond, inputs, outputs).error.None?
    ensures WellFormed(MapfoldEquation(st, ops, directory, sub, accumulators, size, cond, inputs, outputs).st)
  {
    var o := MapfoldEquation(st, ops, directory, sub, accumulators, size, cond, inputs, outputs);
    if sub in ops && AccumulatorCount(accumulators).Ok? {
      var sig := ops[sub];
      var acc := AccumulatorCount(accumulators).value;
      var r := ReadOperands(Lookups(Current, st, inputs), true);
      var m1 := CreateLocal(st, IndexLocal, "int32", directory);
      var m2 := CreateLocal(m1.st, EnableLocal, "bool", directory);
      var d := DeclareOutputs(m2.st, Iterated(sig, acc, size, directory), outputs, 0, true);
      assert WellFormed(d.st);
      if && |sig.inputs| == |inputs| + 1 && |sig.outputs| == |outputs| + 1
         && Resolve(st, cond).kind == LocalKind && r.error.None? && !r.stopped
         && d.error.None? && !d.stopped {
        var eq := Equation([IndexLocal, EnableLocal] + d.lefts,
                           Iter(sub, accumulators, size, DefaultCount(sig, acc), cond, Names(r.vars)));
        assert forall n :: n in outputs ==> n in eq.lefts;
        MapfoldRecordKeepsWellFormed(d.st, eq, outputs, cond, inputs);
      }
    }
  }
}

=== FILE: builders_v4.dfy ===
/**
 * The equation builders of the older script (`Example1_V4.py`). Its lookup has
 * no canvas: locals are the operator's (`locals` of the state, `ResolveV4`).
 * `create_local_E` there refuses a Table type, the output builder records the
 * output's producer before it looks the input's up, and the built-in builder
 * writes one equation per output, all sharing one right-hand side.
 */
module BuildersV4 {
  import opened Wrappers
  import opened Exceptions
  import opened Types
  import opened Symbols
  import opened Equations
  import opened Builders

  // ---------------------------------------------------------------------------
  // create_input_equation
  // ---------------------------------------------------------------------------

  /**
   * `create_input_equation` of the older script: as the current one, but a
   * new local copies the input's type through `create_local_E`, which raises
   * for a Table-typed input.
   */
  function InputEquationV4(st: State, input: string, output: string): (o: Outcome)
    ensures Grows(st, o.st)
    ensures o.error == Some(AttributeError) <==> ResolveV4(st, input).kind == NotFound
    ensures o.error == Some(ForeignError) <==>
              && ResolveV4(st, input).kind == InputKind && ResolveV4(st, output).kind != LocalKind
              && output !in Names(st.locals) && ResolveV4(st, input).v.value.ty.Table?
    ensures ResolveV4(st, input).kind != InputKind || o.error.Some? ==> o.st == st
    ensures ResolveV4(st, input).kind == InputKind && o.error.None? ==>
              && o.st.equations == st.equations + [Equation([output], Id(Some(input)))]
              && o.st.producers == st.producers[output := |st.equations|]
              && o.st.edges == st.edges
  {
    var ri := ResolveV4(st, input);
    if ri.kind == InputKind then
      var ro := ResolveV4(st, output);
      var made := if ro.kind == LocalKind then Ok(Made(st, ro.v.value)) else CreateLocalEV4(st, Some(ri.v.value.ty), output);
      match made
      case Err(e) => Outcome(st, Some(e))
      case Ok(m) =>
        var idx := |m.st.equations|;
        Outcome(m.st.(equations := m.st.equations + [Equation([output], Id(Some(input)))],
                      producers := m.st.producers[output := idx]), None)
    else if ri.kind == NotFound then Outcome(st, Some(AttributeError))
    else Outcome(st, None)
  }

  /** The older input builder keeps the state well formed. */
  lemma InputEquationV4KeepsWellFormed(st: State, input: string, output: string)
    requires WellFormed(st)
    ensures WellFormed(InputEquationV4(st, input, output).st)
  {
    var o := InputEquationV4(st, input, output);
    if o.st != st {
      var st1 := o.st.(equations := st.equations, producers := st.producers);
      assert WellFormed(st1);
      RecordKeepsWellFormed(st1, Equation([output], Id(Some(input))), st.producers[output := |st.equations|]);
    }
  }

  /**
   * Without canvas locals, and for an input whose type is not a Table, the
   * two scripts' input builders agree.
   */
  lemma InputEquationVersionsAgree(st: State, input: string, output: string)
    requires st.opLocals == []
    requires ResolveV4(st, input).kind == InputKind ==> ResolveV4(st, input).v.value.ty.Named?
    ensures InputEquationV4(st, input, output) == InputEquation(st, input, output)
  {
    ResolveVersionsAgree(st, input);
    ResolveVersionsAgree(st, output);
  }

  // ---------------------------------------------------------------------------
  // create_output_equation
  // ---------------------------------------------------------------------------

  /**
   * `create_output_equation` of the older script: as the current one, except
   * that the output is recorded against the new equation before the input's
   * producer is looked up, so a missing producer raises `KeyError` with the
   * record already made.
   */
  function OutputEquationV4(st: State, input: string, output: string): (o: Outcome)
    ensures Grows(st, o.st)
    ensures o.error == Some(AttributeError) <==>
              ResolveV4(st, input).kind == NotFound || ResolveV4(st, output).kind == NotFound
    ensures o.error.Some? && o.error != Some(AttributeError) ==>
              o.error == Some(KeyError(input)) && ResolveV4(st, output).kind == OutputKind
    ensures o.error == Some(AttributeError) || ResolveV4(st, output).kind != OutputKind ==> o.st == st
    ensures o.error != Some(AttributeError) && ResolveV4(st, output).kind == OutputKind ==>
              && o.st.equations == st.equations +
                   [Equation([output], Id(if ResolveV4(st, input).kind == LocalKind then Some(input) else None))]
              && o.st.producers == st.producers[output := |st.equations|]
    ensures o.error.None? && ResolveV4(st, output).kind == OutputKind ==>
              var producers := st.producers[output := |st.equations|];
              input in producers && o.st.edges == st.edges + [Edge(producers[input], Some(|st.equations|), 1, 1)]
  {
    var ri := ResolveV4(st, input);
    if ri.kind == NotFound then Outcome(st, Some(AttributeError))
    else
      var ro := ResolveV4(st, output);
      if ro.kind == OutputKind then
        var idx := |st.equations|;
        var path := if ri.kind == LocalKind then Some(input) else None;
        var st1 := st.(equations := st.equations + [Equation([output], Id(path))],
                       producers := st.producers[output := idx]);
        if input !in st1.producers then Outcome(st1, Some(KeyError(input)))
        else Outcome(st1.(edges := st.edges + [Edge(st1.producers[input], Some(idx), 1, 1)]), None)
      else if ro.kind == NotFound then Outcome(st, Some(AttributeError))
      else Outcome(st, None)
  }

  /** The older output builder keeps the state well formed, whether or not it raised. */
  lemma OutputEquationV4KeepsWellFormed(st: State, input: string, output: string)
    requires WellFormed(st)
    ensures WellFormed(OutputEquationV4(st, input, output).st)
  {
    var o := OutputEquationV4(st, input, output);
    if o.st != st {
      var eq := o.st.equations[|st.equations|];
      assert o.st.equations == st.equations + [eq];
      RecordKeepsWellFormed(st, eq, o.st.producers);
      forall e | e in o.st.edges
        ensures e.src < |o.st.equations| && (e.dst.Some? ==> e.dst.value < |o.st.equations|)
      {
        if e !in st.edges {
          assert e == Edge(o.st.producers[input], Some(|st.equations|), 1, 1);
        }
      }
    }
  }

  /**
   * The two output builders differ exactly in the order of the record and the
   * lookup: with the same lookups they agree unless the input has no
   * producer, and then only the older one has recorded the output. An output
   * that is its own input is the exception: the older builder finds the
   * producer it has just recorded.
   */
  lemma OutputEquationVersions(st: State, input: string, output: string)
    requires st.opLocals == []
    ensures var o4 := OutputEquationV4(st, input, output);
            var o := OutputEquation(st, input, output);
            && (input != output ==> o4.error == o.error)
            && (input in st.producers && input != output ==> o4 == o)
            && (input != output && o.error.Some? && o.error.value.KeyError? ==>
                  o4.st == o.st.(producers := st.producers[output := |st.equations|]))
            && (input == output && ResolveV4(st, output).kind == OutputKind ==>
                  o4.error.None? && o4.st.edges == st.edges + [Edge(|st.equations|, Some(|st.equations|), 1, 1)])
  {
    ResolveVersionsAgree(st, input);
    ResolveVersionsAgree(st, output);
  }

  // ---------------------------------------------------------------------------
  // create_buildInOperator_equation
  // ---------------------------------------------------------------------------

  /** Where the older output loop got to: the state, the equation written last, and the exception that ended it. */
  datatype Chain = Chain(st: State, last: Option<nat>, error: Option<Exc>)

  /**
   * The older output loop: every output that is neither Output nor Local gets
   * a local of type `t` and an equation of its own, `output = op(operands)`,
   * which it is recorded against; `last` is the last such equation.
   * `create_local_E` raises for a missing or Table type, and the loop ends
   * there with the equations written before kept.
   */
  function BuiltInOutputsV4(st: State, op: string, operands: seq<string>, t: Option<Ty>,
                            outputs: seq<string>, last: Option<nat>): (c: Chain)
    ensures Grows(st, c.st) && c.st.edges == st.edges
    ensures c.error.Some? ==> c.error == Some(AttributeError) || c.error == Some(ForeignError)
    decreases |outputs|
  {
    if |outputs| == 0 then Chain(st, last, None)
    else
      var name := outputs[0];
      if !Unclaimed(Older, st, name) then BuiltInOutputsV4(st, op, operands, t, outputs[1..], last)
      else
        match CreateLocalEV4(st, t, name)
        case Err(e) => Chain(st, last, Some(e))
        case Ok(m) =>
          var idx := |st.equations|;
          var st1 := m.st.(equations := st.equations + [Equation([name], BuiltIn(op, Some(NAry), operands))],
                           producers := st.producers[name := idx]);
          var c := BuiltInOutputsV4(st1, op, operands, t, outputs[1..], Some(idx));
          assert c.st.locals[..|st.locals|] == c.st.locals[..|st1.locals|][..|st.locals|];
          assert c.st.equations[..|st.equations|] == c.st.equations[..|st1.equations|][..|st.equations|];
          c
  }

  /**
   * What every run of the older output loop leaves behind: each equation it
   * writes reads `op(operands)` and has exactly one left, and `last` names the
   * newest of them, staying put when it writes none.
   */
  predicate WritesChain(st: State, c: Chain, op: string, operands: seq<string>, last: Option<nat>)
  {
    && |st.equations| <= |c.st.equations|
    && (if |c.st.equations| == |st.equations| then c.last == last else c.last == Some(|c.st.equations| - 1))
    && (forall i :: |st.equations| <= i < |c.st.equations| ==>
          c.st.equations[i].right == BuiltIn(op, Some(NAry), operands) && |c.st.equations[i].lefts| == 1)
  }

  lemma {:induction false} BuiltInOutputsV4Shape(st: State, op: string, operands: seq<string>, t: Option<Ty>,
                                                 outputs: seq<string>, last: Option<nat>)
    ensures WritesChain(st, BuiltInOutputsV4(st, op, operands, t, outputs, last), op, operands, last)
    decreases |outputs|
  {
    if |outputs| > 0 {
      var name := outputs[0];
      if !Unclaimed(Older, st, name) {
        BuiltInOutputsV4Shape(st, op, operands, t, outputs[1..], last);
      } else if CreateLocalEV4(st, t, name).Ok? {
        var m := CreateLocalEV4(st, t, name).value;
        var idx := |st.equations|;
        var st1 := m.st.(equations := st.equations + [Equation([name], BuiltIn(op, Some(NAry), operands))],
                         producers := st.producers[name := idx]);
        BuiltInOutputsV4Shape(st1, op, operands, t, outputs[1..], Some(idx));
        var c := BuiltInOutputsV4(st1, op, operands, t, outputs[1..], Some(idx));
        assert c == BuiltInOutputsV4(st, op, operands, t, outputs, last);
        assert c.st.equations[idx] == c.st.equations[..|st1.equations|][idx];
      }
    }
  }

  /** `n` is produced by an equation written after `st`, whose only left is `n`. */
  ghost predicate ProducedByNew(st: State, st': State, n: string) {
    n in st'.producers && |st.equations| <= st'.producers[n] < |st'.equations|
    && st'.equations[st'.producers[n]].lefts == [n]
  }

  /**
   * Every producer entry the older output loop leaves is either untouched or
   * names one of its new equations whose only left is that name.
   */
  lemma {:induction false} BuiltInOutputsV4Records(st: State, op: string, operands: seq<string>, t: Option<Ty>,
                                                   outputs: seq<string>, last: Option<nat>)
    ensures var c := BuiltInOutputsV4(st, op, operands, t, outputs, last);
            forall n :: n in c.st.producers ==>
              || (n in st.producers && c.st.producers[n] == st.producers[n])
              || (|st.equations| <= c.st.producers[n] < |c.st.equations| && c.st.equations[c.st.producers[n]].lefts == [n])
    decreases |outputs|
  {
    if |outputs| > 0 {
      var name := outputs[0];
      if !Unclaimed(Older, st, name) {
        BuiltInOutputsV4Records(st, op, operands, t, outputs[1..], last);
      } else if CreateLocalEV4(st, t, name).Ok? {
        var m := CreateLocalEV4(st, t, name).value;
        var idx := |st.equations|;
        var st1 := m.st.(equations := st.equations + [Equation([name], BuiltIn(op, Some(NAry), operands))],
                         producers := st.producers[name := idx]);
        BuiltInOutputsV4Records(st1, op, operands, t, outputs[1..], Some(idx));
        var c := BuiltInOutputsV4(st1, op, operands, t, outputs[1..], Some(idx));
        assert c == BuiltInOutputsV4(st, op, operands, t, outputs, last);
        assert c.st.equations[idx] == c.st.equations[..|st1.equations|][idx];
      }
    }
  }

  /** The older output loop only adds and overwrites producer entries; it never drops one. */
  lemma {:induction false} BuiltInOutputsV4KeepsKeys(st: State, op: string, operands: seq<string>, t: Option<Ty>,
                                                     outputs: seq<string>, last: Option<nat>)
    ensures st.producers.Keys <= BuiltInOutputsV4(st, op, operands, t, outputs, last).st.producers.Keys
    decreases |outputs|
  {
    if |outputs| > 0 {
      var name := outputs[0];
      if !Unclaimed(Older, st, name) {
        BuiltInOutputsV4KeepsKeys(st, op, operands, t, outputs[1..], last);
      } else if CreateLocalEV4(st, t, name).Ok? {
        var m := CreateLocalEV4(st, t, name).value;
        var idx := |st.equations|;
        var st1 := m.st.(equations := st.equations + [Equation([name], BuiltIn(op, Some(NAry), operands))],
                         producers := st.producers[name := idx]);
        BuiltInOutputsV4KeepsKeys(st1, op, operands, t, outputs[1..], Some(idx));
        assert BuiltInOutputsV4(st1, op, operands, t, outputs[1..], Some(idx)) == BuiltInOutputsV4(st, op, operands, t, outputs, last);
      }
    }
  }

  /** The older output loop keeps a well-formed state well formed, whether or not it raises. */
  lemma BuiltInOutputsV4KeepsWellFormed(st: State, op: string, operands: seq<string>, t: Option<Ty>,
                                        outputs: seq<string>, last: Option<nat>)
    requires WellFormed(st)
    ensures WellFormed(BuiltInOutputsV4(st, op, operands, t, outputs, last).st)
  {
    var c := BuiltInOutputsV4(st, op, operands, t, outputs, last);
    BuiltInOutputsV4Records(st, op, operands, t, outputs, last);
    forall n | n in c.st.producers
      ensures c.st.producers[n] < |c.st.equations| && n in c.st.equations[c.st.producers[n]].lefts
    {
      if n in st.producers && c.st.producers[n] == st.producers[n] {
        assert c.st.equations[st.producers[n]] == c.st.equations[..|st.equations|][st.producers[n]];
      }
    }
  }

  /**
   * Once the older output loop has run without raising, every output that was
   * neither Output nor Local is produced by one of its new equations, whose
   * only left is that output.
   */
  lemma {:induction false} BuiltInOutputsV4Complete(st: State, op: string, operands: seq<string>, t: Option<Ty>,
                                                    outputs: seq<string>, last: Option<nat>)
    requires BuiltInOutputsV4(st, op, operands, t, outputs, last).error.None?
    ensures forall n :: n in outputs && Unclaimed(Older, st, n) ==>
              ProducedByNew(st, BuiltInOutputsV4(st, op, operands, t, outputs, last).st, n)
    decreases |outputs|
  {
    if |outputs| > 0 {
      var name := outputs[0];
      var c := BuiltInOutputsV4(st, op, operands, t, outputs, last);
      if !Unclaimed(Older, st, name) {
        BuiltInOutputsV4Complete(st, op, operands, t, outputs[1..], last);
        assert c == BuiltInOutputsV4(st, op, operands, t, outputs[1..], last);
        forall n | n in outputs && Unclaimed(Older, st, n)
          ensures ProducedByNew(st, c.st, n)
        {
          assert n in outputs[1..];
        }
      } else {
        var m := CreateLocalEV4(st, t, name).value;
        var idx := |st.equations|;
        var st1 := m.st.(equations := st.equations + [Equation([name], BuiltIn(op, Some(NAry), operands))],
                         producers := st.producers[name := idx]);
        assert c == BuiltInOutputsV4(st1, op, operands, t, outputs[1..], Some(idx));
        BuiltInOutputsV4Complete(st1, op, operands, t, outputs[1..], Some(idx));
        forall n | n in outputs && Unclaimed(Older, st, n)
          ensures ProducedByNew(st, c.st, n)
        {
          if n != name {
            assert n in outputs[1..];
            if m.st != st {
              ResolveV4AfterLocal(st, m.v, n);
            }
            assert Unclaimed(Older, st1, n);
            assert ProducedByNew(st1, c.st, n);
          } else if n in outputs[1..] && Unclaimed(Older, st1, n) {
            assert ProducedByNew(st1, c.st, n);
          } else {
            BuiltInOutputsV4Records(st1, op, operands, t, outputs[1..], Some(idx));
            BuiltInOutputsV4KeepsKeys(st1, op, operands, t, outputs[1..], Some(idx));
            assert c.st.equations[idx] == c.st.equations[..|st1.equations|][idx];
          }
        }
      }
    }
  }

  /**
   * `create_buildInOperator_equation` of the older script: always an n-ary
   * operator, so no operand raises for want of an operator object; the
   * output loop writes one equation per new output, and the edges run into
   * the last of them (nowhere when there is none).
   */
  function BuiltInEquationV4(st: State, op: string, inputs: seq<string>, outputs: seq<string>): (o: Outcome)
    ensures Grows(st, o.st)
    ensures o.error.Some? ==>
              o.error == Some(AttributeError) || o.error == Some(ForeignError) || o.error.value.KeyError?
    ensures ReadOperands(Lookups(Older, st, inputs), false).error.Some? ==> o == Outcome(st, Some(AttributeError))
    ensures var operands := Names(ReadOperands(Lookups(Older, st, inputs), false).vars);
            forall i :: |st.equations| <= i < |o.st.equations| ==>
              o.st.equations[i].right == BuiltIn(op, Some(NAry), operands) && |o.st.equations[i].lefts| == 1
  {
    var rs := Lookups(Older, st, inputs);
    var r := ReadOperands(rs, false);
    if r.error.Some? then Outcome(st, Some(AttributeError))
    else
      var c := BuiltInOutputsV4(st, op, Names(r.vars), LastLocalType(rs), outputs, None);
      BuiltInOutputsV4Shape(st, op, Names(r.vars), LastLocalType(rs), outputs, None);
      if c.error.Some? then Outcome(c.st, c.error)
      else
        var o := Connect(c.st, inputs, c.last, 1);
        assert o.st.locals == c.st.locals && o.st.equations == c.st.equations;
        o
  }

  /** An older built-in equation that raised nothing leaves the state well formed. */
  lemma BuiltInV4KeepsWellFormed(st: State, op: string, inputs: seq<string>, outputs: seq<string>)
    requires WellFormed(st)
    requires BuiltInEquationV4(st, op, inputs, outputs).error.None?
    ensures WellFormed(BuiltInEquationV4(st, op, inputs, outputs).st)
  {
    var rs := Lookups(Older, st, inputs);
    var operands := Names(ReadOperands(rs, false).vars);
    var c := BuiltInOutputsV4(st, op, operands, LastLocalType(rs), outputs, None);
    BuiltInOutputsV4KeepsWellFormed(st, op, operands, LastLocalType(rs), outputs, None);
    BuiltInOutputsV4Shape(st, op, operands, LastLocalType(rs), outputs, None);
    ConnectKeepsWellFormed(c.st, inputs, c.last, 1);
  }

  /**
   * An older built-in equation that raised nothing gives every output that
   * was neither Output nor Local an equation of its own, `output = op(...)`,
   * and records the output against it.
   */
  lemma BuiltInV4DefinesOutputs(st: State, op: string, inputs: seq<string>, outputs: seq<string>)
    requires BuiltInEquationV4(st, op, inputs, outputs).error.None?
    ensures var o := BuiltInEquationV4(st, op, inputs, outputs);
            var operands := Names(ReadOperands(Lookups(Older, st, inputs), false).vars);
            forall n :: n in outputs && Unclaimed(Older, st, n) ==>
              && ProducedByNew(st, o.st, n)
              && o.st.equations[o.st.producers[n]] == Equation([n], BuiltIn(op, Some(NAry), operands))
  {
    var rs := Lookups(Older, st, inputs);
    var operands := Names(ReadOperands(rs, false).vars);
    BuiltInOutputsV4Complete(st, op, operands, LastLocalType(rs), outputs, None);
    BuiltInOutputsV4Shape(st, op, operands, LastLocalType(rs), outputs, None);
  }
}

=== FILE: dispatch.dfy ===
/**
 * `SCADE_Builder.parse_text_block`: every parsed line is handed to the builder
 * its shape selects, in order, and the first exception ends the whole run.
 * The older script's main loop hands every parsed line to its built-in
 * builder instead.
 */
module Dispatch {
  import opened Wrappers
  import opened Exceptions
  import opened Types
  import opened Symbols
  import opened Equations
  import opened ExprLine
  import opened TextBlock
  import opened Builders
  import opened BuildersV4

  /**
   * What the builders consult besides the state: the operators
   * `find_operator` can reach, by name, and the type names `find_type`
   * can resolve.
   */
  datatype Context = Context(ops: map<string, OpSig>, directory: set<string>)

  /**
   * One parsed line. A `mapfoldwi` dictionary goes to the mapfoldwi builder;
   * a call dictionary named `mapfoldwi` would go there too and miss its
   * `subOperator` key. Any other non-empty operator is a user operator call.
   * An assignment becomes an input equation when its value is an Input,
   * otherwise an output equation when its target is an Output, and is only
   * reported otherwise. A call with an empty operator takes the assignment
   * branch with lists for names, which name no variable.
   */
  function Dispatch(st: State, ctx: Context, d: Descriptor): (o: Outcome)
    ensures Grows(st, o.st)
    ensures o.error.Some? ==>
              || o.error == Some(AttributeError) || o.error == Some(ValueError(NotAnInteger))
              || o.error.value.KeyError?
    ensures d.Assign? && Resolve(st, d.input).kind != InputKind && Resolve(st, d.output).kind != OutputKind ==>
              o == Outcome(st, None)
    ensures d.Call? && d.operator == "" ==> o == Outcome(st, None)
    ensures d.Call? && d.operator == "mapfoldwi" ==> o == Outcome(st, Some(KeyError("subOperator")))
  {
    match d
    case Iterate(outputs, sub, accumulators, size, cond, inputs) =>
      MapfoldEquation(st, ctx.ops, ctx.directory, sub, accumulators, size, cond, inputs, outputs)
    case Call(outputs, op, inputs) =>
      if op == "mapfoldwi" then Outcome(st, Some(KeyError("subOperator")))
      else if op != "" then OperatorEquation(st, ctx.ops, op, inputs, outputs)
      else Outcome(st, None)
    case Assign(output, input) =>
      if Resolve(st, input).kind == InputKind then InputEquation(st, input, output)
      else if Resolve(st, output).kind == OutputKind then OutputEquation(st, input, output)
      else Outcome(st, None)
  }

  /**
   * The one shape of line whose builder can leave a producer entry behind for
   * an output it did not give to its equation: an operator call one of whose
   * outputs is already an Output or a Local.
   */
  ghost predicate ClaimsNothing(st: State, d: Descriptor) {
    d.Call? && d.operator != "" && d.operator != "mapfoldwi" ==>
      forall k :: 0 <= k < |d.outputs| ==> Unclaimed(Current, st, d.outputs[k])
  }

  /** A line that raised nothing keeps a well-formed state well formed, unless it claims a taken output. */
  lemma DispatchKeepsWellFormed(st: State, ctx: Context, d: Descriptor)
    requires WellFormed(st)
    requires ClaimsNothing(st, d)
    requires Dispatch(st, ctx, d).error.None?
    ensures WellFormed(Dispatch(st, ctx, d).st)
  {
    match d
    case Iterate(outputs, sub, accumulators, size, cond, inputs) =>
      MapfoldKeepsWellFormed(st, ctx.ops, ctx.directory, sub, accumulators, size, cond, inputs, outputs);
    case Call(outputs, op, inputs) =>
      if op != "mapfoldwi" && op != "" {
        OperatorKeepsWellFormed(st, ctx.ops, op, inputs, outputs);
      }
    case Assign(output, input) =>
      InputEquationKeepsWellFormed(st, input, output);
      OutputEquationKeepsWellFormed(st, input, output);
  }

  /** The lines in order; the first exception ends the run, keeping what was built before it. */
  function DispatchAll(st: State, ctx: Context, ds: seq<Descriptor>): (o: Outcome)
    ensures Grows(st, o.st)
    ensures o.error.Some? ==>
              || o.error == Some(AttributeError) || o.error == Some(ValueError(NotAnInteger))
              || o.error.value.KeyError?
    ensures |ds| == 0 ==> o == Outcome(st, None)
    decreases |ds|
  {
    if |ds| == 0 then Outcome(st, None)
    else
      var o1 := Dispatch(st, ctx, ds[0]);
      if o1.error.Some? then o1
      else
        var o := DispatchAll(o1.st, ctx, ds[1..]);
        GrowsTransitive(st, o1.st, o.st);
        o
  }

  /**
   * Running two blocks of lines one after the other is running them joined:
   * the second starts from where the first stopped, unless the first raised.
   */
  lemma {:induction false} DispatchAllAppend(st: State, ctx: Context, ds1: seq<Descriptor>, ds2: seq<Descriptor>)
    ensures var o1 := DispatchAll(st, ctx, ds1);
            DispatchAll(st, ctx, ds1 + ds2) == if o1.error.Some? then o1 else DispatchAll(o1.st, ctx, ds2)
    decreases |ds1|
  {
    if |ds1| == 0 {
      assert ds1 + ds2 == ds2;
    } else {
      assert (ds1 + ds2)[0] == ds1[0];
      assert (ds1 + ds2)[1..] == ds1[1..] + ds2;
      var o := Dispatch(st, ctx, ds1[0]);
      if o.error.None? {
        DispatchAllAppend(o.st, ctx, ds1[1..], ds2);
      }
    }
  }

  lemma PrefixCons<T>(s: seq<T>, k: nat)
    requires k < |s|
    ensures s[..k + 1] == [s[0]] + s[1..][..k]
  {
  }

  /**
   * A run that raised was stopped by one line: the lines before it ran
   * cleanly and the run's outcome is that line's outcome.
   */
  lemma {:induction false} DispatchAllStops(st: State, ctx: Context, ds: seq<Descriptor>)
    requires DispatchAll(st, ctx, ds).error.Some?
    ensures exists k :: 0 <= k < |ds| && DispatchAll(st, ctx, ds[..k]).error.None?
              && DispatchAll(st, ctx, ds) == Dispatch(DispatchAll(st, ctx, ds[..k]).st, ctx, ds[k])
    decreases |ds|
  {
    var o1 := Dispatch(st, ctx, ds[0]);
    assert ds[..0] == [];
    if o1.error.None? {
      DispatchAllStops(o1.st, ctx, ds[1..]);
      var k :| 0 <= k < |ds[1..]| && DispatchAll(o1.st, ctx, ds[1..][..k]).error.None?
                 && DispatchAll(o1.st, ctx, ds[1..]) == Dispatch(DispatchAll(o1.st, ctx, ds[1..][..k]).st, ctx, ds[1..][k]);
      PrefixCons(ds, k);
      DispatchAllAppend(st, ctx, [ds[0]], ds[1..][..k]);
      assert DispatchAll(st, ctx, [ds[0]]) == o1 by {
        assert [ds[0]][1..] == [];
      }
      assert DispatchAll(st, ctx, ds[..k + 1]) == DispatchAll(o1.st, ctx, ds[1..][..k]);
    }
  }

  /** Every line of the run, from the state it meets, claims no taken output. */
  ghost predicate RunClaimsNothing(st: State, ctx: Context, ds: seq<Descriptor>)
    decreases |ds|
  {
    |ds| == 0
    || (&& ClaimsNothing(st, ds[0])
        && (Dispatch(st, ctx, ds[0]).error.None? ==> RunClaimsNothing(Dispatch(st, ctx, ds[0]).st, ctx, ds[1..])))
  }

  /** A run that raised nothing and claimed no taken output keeps a well-formed state well formed. */
  lemma {:induction false} DispatchAllKeepsWellFormed(st: State, ctx: Context, ds: seq<Descriptor>)
    requires WellFormed(st)
    requires RunClaimsNothing(st, ctx, ds)
    requires DispatchAll(st, ctx, ds).error.None?
    ensures WellFormed(DispatchAll(st, ctx, ds).st)
    decreases |ds|
  {
    if |ds| > 0 {
      DispatchKeepsWellFormed(st, ctx, ds[0]);
      DispatchAllKeepsWellFormed(Dispatch(st, ctx, ds[0]).st, ctx, ds[1..]);
    }
  }

  /**
   * `parse_text_block`: a line the mapfoldwi parser rejects raises before any
   * line is built, and the state is left alone; otherwise the parsed lines run.
   */
  function BuildFromText(st: State, ctx: Context, text: string): (o: Outcome)
    ensures Grows(st, o.st)
    ensures ParseTextBlock(text).Err? ==> o == Outcome(st, Some(ParseTextBlock(text).error))
    ensures ParseTextBlock(text).Ok? ==> o == DispatchAll(st, ctx, ParseTextBlock(text).value)
  {
    match ParseTextBlock(text)
    case Err(e) => Outcome(st, Some(e))
    case Ok(ds) => DispatchAll(st, ctx, ds)
  }

  /**
   * The main loop of the older script: every parsed line, which is always a
   * call dictionary, goes to its built-in builder; the first exception ends
   * the loop.
   */
  function BuiltInAllV4(st: State, ds: seq<Descriptor>): (o: Outcome)
    requires forall d :: d in ds ==> d.Call?
    ensures Grows(st, o.st)
    ensures o.error.Some? ==>
              o.error == Some(AttributeError) || o.error == Some(ForeignError) || o.error.value.KeyError?
    ensures |ds| == 0 ==> o == Outcome(st, None)
    decreases |ds|
  {
    if |ds| == 0 then Outcome(st, None)
    else
      var o1 := BuiltInEquationV4(st, ds[0].operator, ds[0].inputs, ds[0].outputs);
      if o1.error.Some? then o1
      else
        var o := BuiltInAllV4(o1.st, ds[1..]);
        GrowsTransitive(st, o1.st, o.st);
        o
  }

  /** The older loop keeps a well-formed state well formed whenever it raises nothing. */
  lemma {:induction false} BuiltInAllV4KeepsWellFormed(st: State, ds: seq<Descriptor>)
    requires forall d :: d in ds ==> d.Call?
    requires WellFormed(st)
    requires BuiltInAllV4(st, ds).error.None?
    ensures WellFormed(BuiltInAllV4(st, ds).st)
    decreases |ds|
  {
    if |ds| > 0 {
      var d := ds[0];
      BuiltInV4KeepsWellFormed(st, d.operator, d.inputs, d.outputs);
      BuiltInAllV4KeepsWellFormed(BuiltInEquationV4(st, d.operator, d.inputs, d.outputs).st, ds[1..]);
    }
  }

  /** The older script end to end: parse the block, then run its loop over the lines. */
  function BuildFromTextV4(st: State, text: string): (o: Outcome)
    ensures Grows(st, o.st)
    ensures WellFormed(st) && o.error.None? ==> WellFormed(o.st)
  {
    var ds := ParseTextBlockV4(text);
    var o := BuiltInAllV4(st, ds);
    assert WellFormed(st) && o.error.None? ==> WellFormed(o.st) by {
      if WellFormed(st) && o.error.None? {
        BuiltInAllV4KeepsWellFormed(st, ds);
      }
    }
    o
  }
}

=== FILE: equations.dfy ===
/**
 * The equation builders of `SCADE_Builder`: each reads a parsed line's names,
 * resolves them, declares the missing locals, appends one equation and records
 * producers and edges. A Python exception ends the call but keeps every change
 * made before it, so a builder returns the state together with the exception.
 */
module Equations {
  import opened Wrappers
  import opened Text
  import opened Exceptions
  import opened Types
  import opened Symbols

  /** The state after a builder call and the exception it raised, if any. */
  datatype Outcome = Outcome(st: State, error: Option<Exc>)

  /** Which script's `determine_var_kind` a loop uses. */
  datatype Version = Current | Older

  function Lookup(ver: Version, st: State, name: string): Resolution {
    if ver == Current then Resolve(st, name) else ResolveV4(st, name)
  }

  /** A name the output loops declare as a new local: neither an Output nor a Local yet. */
  predicate Unclaimed(ver: Version, st: State, name: string) {
    var k := Lookup(ver, st, name).kind;
    k == InputKind || k == NotFound
  }

  /**
   * What a builder may change: inputs, outputs and operator locals stay, and
   * canvas locals, equations and edges only grow at the end. The producer map
   * may be overwritten.
   */
  ghost predicate Grows(st: State, st': State) {
    && st'.inputs == st.inputs && st'.outputs == st.outputs && st'.opLocals == st.opLocals
    && |st.locals| <= |st'.locals| && st'.locals[..|st.locals|] == st.locals
    && |st.equations| <= |st'.equations| && st'.equations[..|st.equations|] == st.equations
    && |st.edges| <= |st'.edges| && st'.edges[..|st.edges|] == st.edges
  }

  lemma GrowsTransitive(a: State, b: State, c: State)
    requires Grows(a, b) && Grows(b, c)
    ensures Grows(a, c)
  {
    assert c.locals[..|a.locals|] == c.locals[..|b.locals|][..|a.locals|];
    assert c.equations[..|a.equations|] == c.equations[..|b.equations|][..|a.equations|];
    assert c.edges[..|a.edges|] == c.edges[..|b.edges|][..|a.edges|];
  }

  /**
   * Every producer entry names an existing equation that has the name among
   * its left-hand sides, and every edge joins existing equations.
   */
  ghost predicate WellFormed(st: State) {
    && (forall n :: n in st.producers ==>
          st.producers[n] < |st.equations| && n in st.equations[st.producers[n]].lefts)
    && (forall e :: e in st.edges ==>
          e.src < |st.equations| && (e.dst.Some? ==> e.dst.value < |st.equations|))
  }

  // ---------------------------------------------------------------------------
  // Producer entries and edges
  // ---------------------------------------------------------------------------

  /** `lx_to_ge[dir][name] = GE` for each name, all for one equation. */
  function MapTo(m: map<string, nat>, names: seq<string>, idx: nat): (r: map<string, nat>)
    ensures forall n :: n in r <==> n in m || n in names
    ensures forall n :: n in names ==> r[n] == idx
    ensures forall n :: n in m && n !in names ==> r[n] == m[n]
    decreases |names|
  {
    if |names| == 0 then m else MapTo(m[names[0] := idx], names[1..], idx)
  }

  /**
   * The edge loops: for each operand, an edge from the equation producing it
   * to `dst`, right-expression slots counted from `slot`. The first operand
   * without a producer raises `KeyError`; the edges drawn before it stay.
   */
  function Connect(st: State, names: seq<string>, dst: Option<nat>, slot: nat): (o: Outcome)
    ensures o.st == st.(edges := o.st.edges)
    ensures |st.edges| <= |o.st.edges| && o.st.edges[..|st.edges|] == st.edges
    ensures o.error.None? <==> forall k :: 0 <= k < |names| ==> names[k] in st.producers
    ensures o.error.Some? ==> exists k :: 0 <= k < |names| && o.error == Some(KeyError(names[k]))
                                          && names[k] !in st.producers
                                          && forall j :: 0 <= j < k ==> names[j] in st.producers
    ensures o.error.None? ==> |o.st.edges| == |st.edges| + |names|
    ensures o.error.None? ==> forall k :: 0 <= k < |names| ==>
              o.st.edges[|st.edges| + k] == Edge(st.producers[names[k]], dst, 1, slot + k)
    decreases |names|
  {
    if |names| == 0 then Outcome(st, None)
    else if names[0] !in st.producers then Outcome(st, Some(KeyError(names[0])))
    else
      var st1 := st.(edges := st.edges + [Edge(st.producers[names[0]], dst, 1, slot)]);
      var o := Connect(st1, names[1..], dst, slot + 1);
      assert o.st.edges[..|st.edges|] == o.st.edges[..|st1.edges|][..|st.edges|];
      assert forall k :: 0 < k < |names| ==> names[k] == names[1..][k - 1];
      assert o.error.Some? ==> exists k :: 0 <= k < |names| && o.error == Some(KeyError(names[k]))
                                          && names[k] !in st.producers
                                          && forall j :: 0 <= j < k ==> names[j] in st.producers by {
        if o.error.Some? {
          var k :| 0 <= k < |names[1..]| && o.error == Some(KeyError(names[1..][k]))
                   && names[1..][k] !in st1.producers
                   && forall j :: 0 <= j < k ==> names[1..][j] in st1.producers;
          assert names[k + 1] == names[1..][k];
        }
      }
      assert o.error.None? ==> o.st.edges[|st.edges|] == o.st.edges[..|st1.edges|][|st.edges|];
      o
  }

  /** Edges whose ends are producer entries of a well-formed state are well formed. */
  lemma ConnectKeepsWellFormed(st: State, names: seq<string>, dst: Option<nat>, slot: nat)
    requires WellFormed(st)
    requires dst.Some? ==> dst.value < |st.equations|
    requires Connect(st, names, dst, slot).error.None?
    ensures WellFormed(Connect(st, names, dst, slot).st)
  {
    var o := Connect(st, names, dst, slot);
    forall e | e in o.st.edges
      ensures e.src < |st.equations| && (e.dst.Some? ==> e.dst.value < |st.equations|)
    {
      var i :| 0 <= i < |o.st.edges| && o.st.edges[i] == e;
      if i < |st.edges| {
        assert e == o.st.edges[..|st.edges|][i];
      } else {
        var k := i - |st.edges|;
        assert e == Edge(st.producers[names[k]], dst, 1, slot + k);
      }
    }
  }

  // ---------------------------------------------------------------------------
  // Operand loops
  // ---------------------------------------------------------------------------

  /** The resolution of each name of a list, against one state. */
  function Lookups(ver: Version, st: State, names: seq<string>): (rs: seq<Resolution>)
    ensures |rs| == |names|
    ensures forall k :: 0 <= k < |names| ==> rs[k] == Lookup(ver, st, names[k])
  {
    seq(|names|, k requires 0 <= k < |names| => Lookup(ver, st, names[k]))
  }

  /** How an operand loop ended: the Local variables read in order, or why it ended early. */
  datatype Reading = Reading(vars: seq<Var>, error: Option<Exc>, stopped: bool)

  /**
   * The `for input in expr['inputs']` loops, over the operands' resolutions
   * (the loops change nothing, so every name resolves against one state): a
   * Local becomes an operand; an unknown name raises `AttributeError` (its
   * warning reads `None.getName()`); an Input or Output is skipped, or ends the
   * builder when `stopOnOther`.
   */
  function ReadOperands(rs: seq<Resolution>, stopOnOther: bool): (r: Reading)
    ensures r.error.Some? ==> r.error == Some(AttributeError) && !r.stopped
    ensures r.stopped ==> stopOnOther
    ensures |r.vars| <= |rs|
    ensures forall v :: v in r.vars ==> Resolution(LocalKind, Some(v)) in rs
    decreases |rs|
  {
    if |rs| == 0 then Reading([], None, false)
    else if rs[0].kind == NotFound then Reading([], Some(AttributeError), false)
    else if rs[0].kind != LocalKind && stopOnOther then Reading([], None, true)
    else
      var rest := ReadOperands(rs[1..], stopOnOther);
      if rs[0].kind == LocalKind && rs[0].v.Some? then Reading([rs[0].v.value] + rest.vars, rest.error, rest.stopped)
      else rest
  }

  /** The loop raises exactly when some operand is unknown, unless it stopped at an Input or Output first. */
  lemma {:induction false} ReadOperandsFails(rs: seq<Resolution>, stopOnOther: bool)
    ensures var r := ReadOperands(rs, stopOnOther);
            !stopOnOther ==> (r.error.None? <==> forall k :: 0 <= k < |rs| ==> rs[k].kind != NotFound)
    ensures var r := ReadOperands(rs, stopOnOther);
            stopOnOther ==> (r.error.None? && !r.stopped <==> forall k :: 0 <= k < |rs| ==> rs[k].kind == LocalKind)
    decreases |rs|
  {
    if |rs| > 0 {
      ReadOperandsFails(rs[1..], stopOnOther);
      assert forall k :: 0 < k < |rs| ==> rs[k] == rs[1..][k - 1];
    }
  }

  /** A loop that ran to the end read every Local operand. */
  lemma {:induction false} ReadOperandsComplete(rs: seq<Resolution>, stopOnOther: bool)
    requires forall k :: 0 <= k < |rs| ==> (rs[k].kind == LocalKind ==> rs[k].v.Some?)
    ensures var r := ReadOperands(rs, stopOnOther);
            r.error.None? && !r.stopped ==>
              forall k :: 0 <= k < |rs| && rs[k].kind == LocalKind ==> rs[k].v.value in r.vars
    decreases |rs|
  {
    if |rs| > 0 {
      ReadOperandsComplete(rs[1..], stopOnOther);
      assert forall k :: 0 < k < |rs| ==> rs[k] == rs[1..][k - 1];
    }
  }

  /** When every operand must be a Local, a loop that ran to the end read them all, in order. */
  lemma {:induction false} ReadOperandsAll(rs: seq<Resolution>)
    requires forall k :: 0 <= k < |rs| ==> (rs[k].kind == LocalKind ==> rs[k].v.Some?)
    ensures var r := ReadOperands(rs, true);
            r.error.None? && !r.stopped ==>
              |r.vars| == |rs| && forall k :: 0 <= k < |rs| ==> rs[k] == Resolution(LocalKind, Some(r.vars[k]))
    decreases |rs|
  {
    var r := ReadOperands(rs, true);
    if |rs| > 0 && rs[0].kind == LocalKind {
      var rest := ReadOperands(rs[1..], true);
      ReadOperandsAll(rs[1..]);
      if r.error.None? && !r.stopped {
        assert r.vars == [rs[0].v.value] + rest.vars;
        forall k | 0 < k < |rs|
          ensures rs[k] == Resolution(LocalKind, Some(r.vars[k]))
        {
          assert rs[k] == rs[1..][k - 1] && r.vars[k] == rest.vars[k - 1];
        }
      }
    }
  }

  /** A Local operand with its variable: the operands the loops keep. */
  predicate IsLocalOperand(r: Resolution) {
    r.kind == LocalKind && r.v.Some?
  }

  /** The operands `vs` are the Local resolutions of `rs` at the increasing positions `idx`, and no others. */
  ghost predicate OperandsAt(rs: seq<Resolution>, vs: seq<Var>, idx: seq<nat>) {
    && |idx| == |vs| && Increasing(idx)
    && (forall i :: 0 <= i < |idx| ==> idx[i] < |rs| && rs[idx[i]] == Resolution(LocalKind, Some(vs[i])))
    && (forall k :: 0 <= k < |rs| ==> (k in idx <==> IsLocalOperand(rs[k])))
  }

  /**
   * Operand `i` of a loop that skips Inputs and Outputs and ran to the end is
   * the resolution at position `idx[i]`; the positions increase, and a position
   * is kept exactly when it holds a Local, so the operands are the Local
   * inputs in textual order, repeats included.
   */
  lemma {:induction false} ReadOperandsInOrder(rs: seq<Resolution>) returns (idx: seq<nat>)
    requires ReadOperands(rs, false).error.None?
    ensures OperandsAt(rs, ReadOperands(rs, false).vars, idx)
    decreases |rs|
  {
    if |rs| == 0 {
      idx := [];
    } else {
      var tail := rs[1..];
      ReadOperandsHead(rs);
      var tidx := ReadOperandsInOrder(tail);
      if IsLocalOperand(rs[0]) {
        OperandsWithHead(rs, ReadOperands(tail, false).vars, tidx);
        idx := [0] + Shift(tidx);
      } else {
        OperandsWithoutHead(rs, ReadOperands(tail, false).vars, tidx);
        idx := Shift(tidx);
      }
    }
  }

  /**
   * The operand names a built-in or operator call passes on, read by the loop
   * that skips Inputs and Outputs: name `i` is input `idx[i]`, the positions
   * increase, and an input is passed exactly when it resolves to a Local.
   */
  lemma OperandNamesInOrder(ver: Version, st: State, inputs: seq<string>) returns (idx: seq<nat>)
    requires ReadOperands(Lookups(ver, st, inputs), false).error.None?
    ensures var ns := Names(ReadOperands(Lookups(ver, st, inputs), false).vars);
            && |idx| == |ns| && Increasing(idx)
            && (forall i :: 0 <= i < |idx| ==> idx[i] < |inputs| && ns[i] == inputs[idx[i]])
            && (forall k :: 0 <= k < |inputs| ==> (k in idx <==> Lookup(ver, st, inputs[k]).kind == LocalKind))
  {
    var rs := Lookups(ver, st, inputs);
    var vs := ReadOperands(rs, false).vars;
    idx := ReadOperandsInOrder(rs);
    forall i | 0 <= i < |idx|
      ensures Names(vs)[i] == inputs[idx[i]]
    {
      assert rs[idx[i]] == Lookup(ver, st, inputs[idx[i]]);
    }
  }

  /** One pass of the loop that skips Inputs and Outputs. */
  lemma ReadOperandsHead(rs: seq<Resolution>)
    requires |rs| > 0 && ReadOperands(rs, false).error.None?
    ensures ReadOperands(rs[1..], false).error.None?
    ensures ReadOperands(rs, false).vars ==
              if IsLocalOperand(rs[0]) then [rs[0].v.value] + ReadOperands(rs[1..], false).vars
              else ReadOperands(rs[1..], false).vars
  {
  }

  lemma OperandsWithHead(rs: seq<Resolution>, tvs: seq<Var>, tidx: seq<nat>)
    requires |rs| > 0 && IsLocalOperand(rs[0])
    requires OperandsAt(rs[1..], tvs, tidx)
    ensures OperandsAt(rs, [rs[0].v.value] + tvs, [0] + Shift(tidx))
  {
    var vs, idx := [rs[0].v.value] + tvs, [0] + Shift(tidx);
    ShiftCons(tidx);
    forall i | 1 <= i < |idx|
      ensures idx[i] < |rs| && rs[idx[i]] == Resolution(LocalKind, Some(vs[i]))
    {
      assert idx[i] == tidx[i - 1] + 1 && vs[i] == tvs[i - 1];
      assert rs[1..][tidx[i - 1]] == rs[idx[i]];
    }
    forall k | 1 <= k < |rs|
      ensures k in idx <==> IsLocalOperand(rs[k])
    {
      ShiftMembers(tidx, k);
      assert rs[1..][k - 1] == rs[k];
    }
  }

  lemma OperandsWithoutHead(rs: seq<Resolution>, tvs: seq<Var>, tidx: seq<nat>)
    requires |rs| > 0 && !IsLocalOperand(rs[0])
    requires OperandsAt(rs[1..], tvs, tidx)
    ensures OperandsAt(rs, tvs, Shift(tidx))
  {
    var idx := Shift(tidx);
    forall i | 0 <= i < |idx|
      ensures idx[i] < |rs| && rs[idx[i]] == Resolution(LocalKind, Some(tvs[i]))
    {
      assert rs[1..][tidx[i]] == rs[idx[i]];
    }
    forall k | 1 <= k < |rs|
      ensures k in idx <==> IsLocalOperand(rs[k])
    {
      ShiftMembers(tidx, k);
      assert rs[1..][k - 1] == rs[k];
    }
    assert 0 !in idx;
  }

  /**
   * The type of the last Local operand, read from the end: the value
   * `outType` holds after the operand loop, which reassigns it on every Local.
   */
  function LastLocalType(rs: seq<Resolution>): Option<Ty>
    decreases |rs|
  {
    if |rs| == 0 then None
    else if rs[|rs| - 1].kind == LocalKind && rs[|rs| - 1].v.Some? then Some(rs[|rs| - 1].v.value.ty)
    else LastLocalType(rs[..|rs| - 1])
  }

  /** The type of the last operand read is the last Local's type, scanning from either end. */
  lemma {:induction false} LastOperandType(rs: seq<Resolution>)
    requires ReadOperands(rs, false).error.None?
    ensures var vs := ReadOperands(rs, false).vars;
            LastLocalType(rs) == if |vs| == 0 then None else Some(vs[|vs| - 1].ty)
    decreases |rs|
  {
    if |rs| > 0 {
      LastOperandType(rs[1..]);
      if |rs| > 1 {
        LastLocalTypeCons(rs);
      }
    }
  }

  /** Scanning from the end past the head: the head decides only when no later operand is a Local. */
  lemma {:induction false} LastLocalTypeCons(rs: seq<Resolution>)
    requires |rs| >= 2
    ensures var tail := LastLocalType(rs[1..]);
            LastLocalType(rs) ==
              if tail.Some? then tail
              else if rs[0].kind == LocalKind && rs[0].v.Some? then Some(rs[0].v.value.ty)
              else None
    decreases |rs|
  {
    var init := rs[..|rs| - 1];
    assert rs[1..][..|rs[1..]| - 1] == init[1..];
    assert rs[1..][|rs[1..]| - 1] == rs[|rs| - 1];
    if |rs| > 2 {
      LastLocalTypeCons(init);
    } else {
      assert init == [rs[0]];
      assert init[..0] == [];
    }
  }

  // ---------------------------------------------------------------------------
  // Output loops
  // ---------------------------------------------------------------------------

  /** Where the output loops take the type of a new local from. */
  datatype TypeRule =
    | Fixed(t: Option<Ty>)        // the built-in operator's `outType`
    | PortOf(op: Option<OpSig>)   // the called operator's output at the same position
    | Iterated(callee: OpSig, accumulators: nat, size: string, directory: set<string>)
                                  // mapfoldwi: the port type, promoted by `^size` past the accumulators

  /**
   * The type an output loop hands to `create_local_E` for output `index`:
   * `None` when there is none; a missing operator, or a missing or unnamed
   * port type that must be promoted, raises `AttributeError`.
   */
  function RuleType(rule: TypeRule, index: nat): (r: Result<Option<Ty>, Exc>)
    ensures r.Err? ==> r.error == AttributeError
    ensures rule.Fixed? ==> r == Ok(rule.t)
    ensures rule.PortOf? ==> r == OutputPortType(rule.op, index)
  {
    match rule
    case Fixed(t) => Ok(t)
    case PortOf(op) => OutputPortType(op, index)
    case Iterated(callee, acc, size, directory) =>
      match OutputPortType(Some(callee), index)
      case Err(e) => Err(e)
      case Ok(t) =>
        if index < acc then Ok(t)
        else if t.None? then Err(AttributeError)
        else
          match PromotedType(t.value, size, directory)
          case Err(e) => Err(e)
          case Ok(p) => Ok(Some(p))
  }

  /**
   * mapfoldwi output types: an accumulator output keeps the callee's port
   * type; a later one needs a port type naming a declaration, whose name gets
   * `^size` appended.
   */
  lemma RuleTypeIterated(callee: OpSig, accumulators: nat, size: string, directory: set<string>, index: nat)
    requires index < |callee.outputs|
    ensures var r := RuleType(Iterated(callee, accumulators, size, directory), index);
            index < accumulators ==> r == Ok(Some(callee.outputs[index]))
    ensures var r := RuleType(Iterated(callee, accumulators, size, directory), index);
            var t := callee.outputs[index];
            index >= accumulators ==>
              (r.Ok? <==> t.Named? && t.base.Some?)
              && (r.Ok? ==> r.value == Some(TypeFromString(t.base.value + "^" + size, directory)))
  {
  }

  /** One pass of an output loop: the name is taken, the pass raised, or a local was declared. */
  datatype Step = Taken | Failed(e: Exc) | Added(m: Made)

  /**
   * One pass of the current script's output loops for output `index`: an
   * Output or Local name is taken; otherwise `create_local_E` gets the rule's
   * type, and either of them may raise.
   */
  function DeclareOne(st: State, rule: TypeRule, name: string, index: nat): (s: Step)
    ensures s.Taken? <==> !Unclaimed(Current, st, name)
    ensures s.Failed? ==> s.e == AttributeError
    ensures s.Added? ==> s.m.v.name == name
    ensures s.Added? ==> s.m.st == st || s.m.st == st.(locals := st.locals + [s.m.v])
    ensures s.Added? && (forall v :: v in st.locals ==> v.name != name) ==>
              s.m.st == st.(locals := st.locals + [s.m.v]) && RuleType(rule, index) == Ok(Some(s.m.v.ty))
  {
    var kind := Resolve(st, name).kind;
    if kind == OutputKind || kind == LocalKind then Taken
    else
      match RuleType(rule, index)
      case Err(e) => Failed(e)
      case Ok(t) =>
        match CreateLocalE(st, t, name)
        case Err(e) => Failed(e)
        case Ok(m) => Added(m)
  }

  /** How an output loop ended: the state, the names added to the equation's lefts, and why it ended early. */
  datatype Declared = Declared(st: State, lefts: seq<string>, error: Option<Exc>, stopped: bool)

  /**
   * The `for index, output in enumerate(expr['outputs'])` loops of the
   * current script. An Output or Local name is skipped, or ends the builder
   * when `stopOnTaken`; any other name (unknown, or shadowed by an Input) gets
   * a canvas local typed by `rule`, which joins the lefts. An exception keeps
   * the locals declared before it.
   */
  function DeclareOutputs(st: State, rule: TypeRule, outputs: seq<string>, index: nat, stopOnTaken: bool): (d: Declared)
    ensures d.st == st.(locals := d.st.locals)
    ensures |st.locals| <= |d.st.locals| && d.st.locals[..|st.locals|] == st.locals
    ensures forall i :: |st.locals| <= i < |d.st.locals| ==> d.st.locals[i].name in d.lefts
    ensures |d.lefts| <= |outputs|
    ensures d.error.Some? ==> d.error == Some(AttributeError) && !d.stopped
    ensures d.stopped ==> stopOnTaken
    ensures stopOnTaken && d.error.None? && !d.stopped ==> d.lefts == outputs
    decreases |outputs|
  {
    if |outputs| == 0 then Declared(st, [], None, false)
    else
      match DeclareOne(st, rule, outputs[0], index)
      case Taken =>
        if stopOnTaken then Declared(st, [], None, true)
        else DeclareOutputs(st, rule, outputs[1..], index + 1, stopOnTaken)
      case Failed(e) => Declared(st, [], Some(e), false)
      case Added(m) =>
        var rest := DeclareOutputs(m.st, rule, outputs[1..], index + 1, stopOnTaken);
        DeclareStep(st, m, outputs[0], rest.st, rest.lefts);

        Declared(rest.st, [outputs[0]] + rest.lefts, rest.error, rest.stopped)
  }

  /** One declared output followed by the rest of the loop keeps the loop's contract. */
  lemma DeclareStep(st: State, m: Made, name: string, st2: State, lefts: seq<string>)
    requires Unclaimed(Current, st, name) && m.v.name == name
    requires m.st == st || m.st == st.(locals := st.locals + [m.v])
    requires st2 == m.st.(locals := st2.locals)
    requires |m.st.locals| <= |st2.locals| && st2.locals[..|m.st.locals|] == m.st.locals
    requires forall i :: |m.st.locals| <= i < |st2.locals| ==> st2.locals[i].name in lefts
    ensures st2 == st.(locals := st2.locals)
    ensures |st.locals| <= |st2.locals| && st2.locals[..|st.locals|] == st.locals
    ensures forall i :: |st.locals| <= i < |st2.locals| ==> st2.locals[i].name in [name] + lefts
  {
    if m.st != st {
      assert st2.locals[..|st.locals|] == st2.locals[..|m.st.locals|][..|st.locals|];
      assert st2.locals[|st.locals|] == st2.locals[..|m.st.locals|][|st.locals|] == m.v;
    }
  }

  /** Only names that were neither Output nor Local when the loop began reach the lefts. */
  lemma {:induction false} DeclareLeftsUnclaimed(st: State, rule: TypeRule, outputs: seq<string>, index: nat, stopOnTaken: bool)
    ensures var d := DeclareOutputs(st, rule, outputs, index, stopOnTaken);
            forall i :: 0 <= i < |d.lefts| ==> Unclaimed(Current, st, d.lefts[i])
    decreases |outputs|
  {
    if |outputs| > 0 {
      var step := DeclareOne(st, rule, outputs[0], index);
      if step.Taken? {
        DeclareHeadTaken(st, rule, outputs, index, stopOnTaken);
        DeclareLeftsUnclaimed(st, rule, outputs[1..], index + 1, stopOnTaken);
      } else if step.Added? {
        var m := step.m;
        DeclareHeadAdded(st, rule, outputs, index, stopOnTaken);
        DeclareLeftsUnclaimed(m.st, rule, outputs[1..], index + 1, stopOnTaken);
        LeftsUnclaimedBefore(st, m, outputs[0], DeclareOutputs(m.st, rule, outputs[1..], index + 1, stopOnTaken).lefts);
      }
    }
  }

  /** Names unclaimed after one declared output were unclaimed before it, as was the output itself. */
  lemma LeftsUnclaimedBefore(st: State, m: Made, name: string, lefts: seq<string>)
    requires Unclaimed(Current, st, name)
    requires m.st == st || m.st == st.(locals := st.locals + [m.v])
    requires forall i :: 0 <= i < |lefts| ==> Unclaimed(Current, m.st, lefts[i])
    ensures forall i :: 0 <= i < |[name] + lefts| ==> Unclaimed(Current, st, ([name] + lefts)[i])
  {
    forall i | 0 <= i < |[name] + lefts|
      ensures Unclaimed(Current, st, ([name] + lefts)[i])
    {
      if i > 0 {
        assert ([name] + lefts)[i] == lefts[i - 1];
        if m.st != st {
          UnclaimedBefore(st, m.v, lefts[i - 1]);
        }
      }
    }
  }

  /** A name unclaimed after a canvas local was appended was unclaimed before. */
  lemma UnclaimedBefore(st: State, v: Var, n: string)
    requires Unclaimed(Current, st.(locals := st.locals + [v]), n)
    ensures Unclaimed(Current, st, n)
  {
    ResolveAfterLocal(st, v, n);
  }

  /** The lefts are drawn from the outputs, each at most as often as it occurs there. */
  lemma {:induction false} DeclareLeftsFromOutputs(st: State, rule: TypeRule, outputs: seq<string>, index: nat, stopOnTaken: bool)
    ensures multiset(DeclareOutputs(st, rule, outputs, index, stopOnTaken).lefts) <= multiset(outputs)
    decreases |outputs|
  {
    if |outputs| > 0 {
      var step := DeclareOne(st, rule, outputs[0], index);
      var tail := outputs[1..];
      assert multiset(outputs) == multiset{outputs[0]} + multiset(tail) by {
        assert outputs == [outputs[0]] + tail;
      }
      if step.Taken? {
        DeclareHeadTaken(st, rule, outputs, index, stopOnTaken);
        DeclareLeftsFromOutputs(st, rule, tail, index + 1, stopOnTaken);
      } else if step.Added? {
        DeclareHeadAdded(st, rule, outputs, index, stopOnTaken);
        DeclareLeftsFromOutputs(step.m.st, rule, tail, index + 1, stopOnTaken);
      }
    }
  }

  /** A loop that ran to the end put every output that was neither Output nor Local into the lefts. */
  lemma {:induction false} DeclareOutputsComplete(st: State, rule: TypeRule, outputs: seq<string>, index: nat, stopOnTaken: bool)
    ensures var d := DeclareOutputs(st, rule, outputs, index, stopOnTaken);
            d.error.None? && !d.stopped ==>
              forall n :: n in outputs && Unclaimed(Current, st, n) ==> n in d.lefts
    decreases |outputs|
  {
    var d := DeclareOutputs(st, rule, outputs, index, stopOnTaken);
    if |outputs| > 0 && d.error.None? && !d.stopped {
      var name := outputs[0];
      var step := DeclareOne(st, rule, name, index);
      if step.Taken? {
        DeclareOutputsComplete(st, rule, outputs[1..], index + 1, stopOnTaken);
      } else {
        var m := step.m;
        DeclareOutputsComplete(m.st, rule, outputs[1..], index + 1, stopOnTaken);
        forall n | n in outputs && Unclaimed(Current, st, n)
          ensures n in d.lefts
        {
          if n != name {
            if m.st != st {
              ResolveAfterLocal(st, m.v, n);
            }
            assert n in outputs[1..];
          }
        }
      }
    }
  }

  /**
   * Whether the loop that skips taken names adds output `k` to the lefts: it
   * must be neither Output nor Local when the loop begins, and an unknown name
   * joins only at its first occurrence, since its new canvas local claims the
   * repeats; a name shadowed by an Input stays unclaimed and joins every time.
   */
  predicate JoinsLefts(st: State, outputs: seq<string>, k: nat)
    requires k < |outputs|
  {
    && Unclaimed(Current, st, outputs[k])
    && (Lookup(Current, st, outputs[k]).kind == InputKind || outputs[k] !in outputs[..k])
  }

  /** The lefts are the outputs at the increasing positions `idx`, which are exactly those that join. */
  ghost predicate LeftsAt(st: State, outputs: seq<string>, lefts: seq<string>, idx: seq<nat>) {
    && |idx| == |lefts| && Increasing(idx)
    && (forall i :: 0 <= i < |idx| ==> idx[i] < |outputs| && lefts[i] == outputs[idx[i]])
    && (forall k :: 0 <= k < |outputs| ==> (k in idx <==> JoinsLefts(st, outputs, k)))
  }

  /**
   * The output loop of built-in and operator calls, run to the end, adds the
   * lefts in output order: left `i` is output `idx[i]`, the positions increase,
   * and a position is there exactly when that output joins the lefts.
   */
  lemma {:induction false} DeclareOutputsInOrder(st: State, rule: TypeRule, outputs: seq<string>, index: nat)
    returns (idx: seq<nat>)
    requires DeclareOutputs(st, rule, outputs, index, false).error.None?
    ensures LeftsAt(st, outputs, DeclareOutputs(st, rule, outputs, index, false).lefts, idx)
    decreases |outputs|
  {
    if |outputs| == 0 {
      idx := [];
    } else {
      var step := DeclareOne(st, rule, outputs[0], index);
      if step.Taken? {
        DeclareHeadTaken(st, rule, outputs, index, false);
        var tidx := DeclareOutputsInOrder(st, rule, outputs[1..], index + 1);
        JoinsAfterTaken(st, outputs);
        LeftsWithoutHead(st, st, outputs, DeclareOutputs(st, rule, outputs[1..], index + 1, false).lefts, tidx);
        idx := Shift(tidx);
      } else {
        assert step.Added? by {
          if step.Failed? {
            DeclareHeadFailed(st, rule, outputs, index, false);
          }
        }
        var m := step.m;
        DeclareHeadAdded(st, rule, outputs, index, false);
        var tidx := DeclareOutputsInOrder(m.st, rule, outputs[1..], index + 1);
        AddedAppends(st, rule, outputs[0], index);
        JoinsAfterAdded(st, m, outputs);
        LeftsWithHead(st, m.st, outputs, DeclareOutputs(m.st, rule, outputs[1..], index + 1, false).lefts, tidx);
        idx := [0] + Shift(tidx);
      }
    }
  }

  /** A declared name that was unknown gets a new canvas local. */
  lemma AddedAppends(st: State, rule: TypeRule, name: string, index: nat)
    requires DeclareOne(st, rule, name, index).Added?
    ensures var m := DeclareOne(st, rule, name, index).m;
            Lookup(Current, st, name).kind == NotFound ==> m.st == st.(locals := st.locals + [m.v])
  {
    forall v | v in st.locals && Lookup(Current, st, name).kind == NotFound
      ensures v.name != name
    {
      var k :| 0 <= k < |st.locals| && st.locals[k] == v;
      assert Names(st.locals)[k] == v.name;
    }
  }

  /** After a taken first output, the later outputs join exactly as they join the rest of the loop. */
  lemma JoinsAfterTaken(st: State, outputs: seq<string>)
    requires |outputs| > 0 && !Unclaimed(Current, st, outputs[0])
    ensures forall k :: 1 <= k < |outputs| ==> (JoinsLefts(st, outputs, k) <==> JoinsLefts(st, outputs[1..], k - 1))
  {
    forall k | 1 <= k < |outputs|
      ensures JoinsLefts(st, outputs, k) <==> JoinsLefts(st, outputs[1..], k - 1)
    {
      assert outputs[..k] == [outputs[0]] + outputs[1..][..k - 1];
      assert outputs[1..][k - 1] == outputs[k];
    }
  }

  /** After a declared first output, the later outputs join exactly as they join the rest of the loop. */
  lemma JoinsAfterAdded(st: State, m: Made, outputs: seq<string>)
    requires |outputs| > 0 && Unclaimed(Current, st, outputs[0]) && m.v.name == outputs[0]
    requires m.st == st || m.st == st.(locals := st.locals + [m.v])
    requires Lookup(Current, st, outputs[0]).kind == NotFound ==> m.st == st.(locals := st.locals + [m.v])
    ensures forall k :: 1 <= k < |outputs| ==> (JoinsLefts(st, outputs, k) <==> JoinsLefts(m.st, outputs[1..], k - 1))
  {
    forall k | 1 <= k < |outputs|
      ensures JoinsLefts(st, outputs, k) <==> JoinsLefts(m.st, outputs[1..], k - 1)
    {
      var x := outputs[k];
      assert outputs[..k] == [outputs[0]] + outputs[1..][..k - 1];
      assert outputs[1..][k - 1] == x;
      if m.st != st {
        ResolveAfterLocal(st, m.v, x);
      }
    }
  }

  lemma LeftsWithHead(st: State, st2: State, outputs: seq<string>, tlefts: seq<string>, tidx: seq<nat>)
    requires |outputs| > 0 && JoinsLefts(st, outputs, 0)
    requires LeftsAt(st2, outputs[1..], tlefts, tidx)
    requires forall k :: 1 <= k < |outputs| ==> (JoinsLefts(st, outputs, k) <==> JoinsLefts(st2, outputs[1..], k - 1))
    ensures LeftsAt(st, outputs, [outputs[0]] + tlefts, [0] + Shift(tidx))
  {
    var lefts, idx := [outputs[0]] + tlefts, [0] + Shift(tidx);
    ShiftCons(tidx);
    forall i | 1 <= i < |idx|
      ensures idx[i] < |outputs| && lefts[i] == outputs[idx[i]]
    {
      assert idx[i] == tidx[i - 1] + 1 && lefts[i] == tlefts[i - 1];
      assert outputs[1..][tidx[i - 1]] == outputs[idx[i]];
    }
    forall k | 1 <= k < |outputs|
      ensures k in idx <==> JoinsLefts(st, outputs, k)
    {
      ShiftMembers(tidx, k);
    }
  }

  lemma LeftsWithoutHead(st: State, st2: State, outputs: seq<string>, tlefts: seq<string>, tidx: seq<nat>)
    requires |outputs| > 0 && !JoinsLefts(st, outputs, 0)
    requires LeftsAt(st2, outputs[1..], tlefts, tidx)
    requires forall k :: 1 <= k < |outputs| ==> (JoinsLefts(st, outputs, k) <==> JoinsLefts(st2, outputs[1..], k - 1))
    ensures LeftsAt(st, outputs, tlefts, Shift(tidx))
  {
    var idx := Shift(tidx);
    forall i | 0 <= i < |idx|
      ensures idx[i] < |outputs| && tlefts[i] == outputs[idx[i]]
    {
      assert outputs[1..][tidx[i]] == outputs[idx[i]];
    }
    forall k | 1 <= k < |outputs|
      ensures k in idx <==> JoinsLefts(st, outputs, k)
    {
      ShiftMembers(tidx, k);
    }
    assert 0 !in idx;
  }

  /**
   * In a loop that ran to the end, the first occurrence of an output that was
   * unclaimed and not yet a canvas local got a new canvas local whose type is
   * the rule's type for its position.
   */
  lemma {:induction false} DeclareOutputsTyped(st: State, rule: TypeRule, outputs: seq<string>, index: nat, stopOnTaken: bool, k: nat, at: nat)
    requires k < |outputs| && at == index + k
    requires Unclaimed(Current, st, outputs[k]) && forall v :: v in st.locals ==> v.name != outputs[k]
    requires forall j :: 0 <= j < k ==> outputs[j] != outputs[k]
    ensures var d := DeclareOutputs(st, rule, outputs, index, stopOnTaken);
            d.error.None? && !d.stopped ==>
              var r := RuleType(rule, at);
              r.Ok? && r.value.Some? && Var(outputs[k], r.value.value) in d.st.locals
    decreases |outputs|, 2
  {
    if k == 0 {
      DeclareTypedHead(st, rule, outputs, index, stopOnTaken, at);
    } else {
      DeclareTypedTail(st, rule, outputs, index, stopOnTaken, k, at);
    }
  }

  /** The first output, when unclaimed and new, is declared with the rule's type. */
  lemma DeclareTypedHead(st: State, rule: TypeRule, outputs: seq<string>, index: nat, stopOnTaken: bool, at: nat)
    requires 0 < |outputs| && at == index
    requires Unclaimed(Current, st, outputs[0]) && forall v :: v in st.locals ==> v.name != outputs[0]
    ensures var d := DeclareOutputs(st, rule, outputs, index, stopOnTaken);
            d.error.None? && !d.stopped ==>
              var r := RuleType(rule, at);
              r.Ok? && r.value.Some? && Var(outputs[0], r.value.value) in d.st.locals
  {
    var step := DeclareOne(st, rule, outputs[0], index);
    if step.Added? {
      DeclareHeadAdded(st, rule, outputs, index, stopOnTaken);
    }
  }

  /** A later output is typed by the rest of the loop, which starts one position on. */
  lemma {:induction false} DeclareTypedTail(st: State, rule: TypeRule, outputs: seq<string>, index: nat, stopOnTaken: bool, k: nat, at: nat)
    requires 0 < k < |outputs| && at == index + k
    requires Unclaimed(Current, st, outputs[k]) && forall v :: v in st.locals ==> v.name != outputs[k]
    requires forall j :: 0 <= j < k ==> outputs[j] != outputs[k]
    ensures var d := DeclareOutputs(st, rule, outputs, index, stopOnTaken);
            d.error.None? && !d.stopped ==>
              var r := RuleType(rule, at);
              r.Ok? && r.value.Some? && Var(outputs[k], r.value.value) in d.st.locals
    decreases |outputs|, 1
  {
    var name := outputs[k];
    var tail := outputs[1..];
    assert tail[k - 1] == name;
    assert forall j :: 0 <= j < k - 1 ==> tail[j] != name by {
      forall j | 0 <= j < k - 1 ensures tail[j] != name { assert tail[j] == outputs[j + 1]; }
    }
    assert outputs[0] != name;
    match DeclareOne(st, rule, outputs[0], index)
    case Taken =>
      DeclareHeadTaken(st, rule, outputs, index, stopOnTaken);
      if !stopOnTaken {
        DeclareTypedTaken(st, rule, outputs, index, stopOnTaken, k, at);
      }
    case Failed(_) =>
      DeclareHeadFailed(st, rule, outputs, index, stopOnTaken);
    case Added(m) =>
      DeclareTypedAdded(st, rule, outputs, index, stopOnTaken, k, at, m);
  }

  /** The step of `DeclareTypedTail` where the first output was taken and the loop goes on. */
  lemma {:induction false} DeclareTypedTaken(st: State, rule: TypeRule, outputs: seq<string>, index: nat, stopOnTaken: bool, k: nat, at: nat)
    requires 0 < k < |outputs| && at == index + k
    requires DeclareOutputs(st, rule, outputs, index, stopOnTaken) == DeclareOutputs(st, rule, outputs[1..], index + 1, stopOnTaken)
    requires Unclaimed(Current, st, outputs[k]) && forall v :: v in st.locals ==> v.name != outputs[k]
    requires forall j :: 0 <= j < k - 1 ==> outputs[1..][j] != outputs[k]
    ensures var d := DeclareOutputs(st, rule, outputs, index, stopOnTaken);
            d.error.None? && !d.stopped ==>
              var r := RuleType(rule, at);
              r.Ok? && r.value.Some? && Var(outputs[k], r.value.value) in d.st.locals
    decreases |outputs|, 0
  {
    var tail := outputs[1..];
    var j: nat := k - 1;
    assert tail[j] == outputs[k];
    DeclareOutputsTyped(st, rule, tail, index + 1, stopOnTaken, j, at);
  }

  /** A first output whose declaration raised ends the loop with that error. */
  lemma DeclareHeadFailed(st: State, rule: TypeRule, outputs: seq<string>, index: nat, stopOnTaken: bool)
    requires 0 < |outputs| && DeclareOne(st, rule, outputs[0], index).Failed?
    ensures DeclareOutputs(st, rule, outputs, index, stopOnTaken).error.Some?
  {
  }

  /** The step of `DeclareTypedTail` where the first output was declared. */
  lemma {:induction false} DeclareTypedAdded(st: State, rule: TypeRule, outputs: seq<string>, index: nat, stopOnTaken: bool, k: nat, at: nat, m: Made)
    requires 0 < k < |outputs| && at == index + k && DeclareOne(st, rule, outputs[0], index) == Added(m)
    requires outputs[0] != outputs[k]
    requires Unclaimed(Current, st, outputs[k]) && forall v :: v in st.locals ==> v.name != outputs[k]
    requires forall j :: 0 <= j < k - 1 ==> outputs[1..][j] != outputs[k]
    ensures var d := DeclareOutputs(st, rule, outputs, index, stopOnTaken);
            d.error.None? && !d.stopped ==>
              var r := RuleType(rule, at);
              r.Ok? && r.value.Some? && Var(outputs[k], r.value.value) in d.st.locals
    decreases |outputs|, 0
  {
    DeclareHeadAdded(st, rule, outputs, index, stopOnTaken);
    StillFresh(st, m, outputs[k]);
    assert outputs[1..][k - 1] == outputs[k];
    DeclareOutputsTyped(m.st, rule, outputs[1..], index + 1, stopOnTaken, k - 1, at);
  }

  /** Declaring a local under another name leaves a fresh name fresh. */
  lemma StillFresh(st: State, m: Made, name: string)
    requires Unclaimed(Current, st, name) && forall v :: v in st.locals ==> v.name != name
    requires m.v.name != name
    requires m.st == st || m.st == st.(locals := st.locals + [m.v])
    ensures Unclaimed(Current, m.st, name) && forall v :: v in m.st.locals ==> v.name != name
  {
    if m.st != st {
      ResolveAfterLocal(st, m.v, name);
    }
  }

  /** A taken first output that does not stop the loop leaves the rest of the loop to decide. */
  lemma DeclareHeadTaken(st: State, rule: TypeRule, outputs: seq<string>, index: nat, stopOnTaken: bool)
    requires 0 < |outputs| && DeclareOne(st, rule, outputs[0], index).Taken?
    ensures var d := DeclareOutputs(st, rule, outputs, index, stopOnTaken);
            (stopOnTaken ==> d == Declared(st, [], None, true))
            && (!stopOnTaken ==> d == DeclareOutputs(st, rule, outputs[1..], index + 1, stopOnTaken))
  {
  }

  /** A declared first output is among the final locals, and the rest of the loop decides the outcome. */
  lemma DeclareHeadAdded(st: State, rule: TypeRule, outputs: seq<string>, index: nat, stopOnTaken: bool)
    requires 0 < |outputs| && DeclareOne(st, rule, outputs[0], index).Added?
    ensures var m := DeclareOne(st, rule, outputs[0], index).m;
            var rest := DeclareOutputs(m.st, rule, outputs[1..], index + 1, stopOnTaken);
            var d := DeclareOutputs(st, rule, outputs, index, stopOnTaken);
            && d == Declared(rest.st, [outputs[0]] + rest.lefts, rest.error, rest.stopped)
            && m.v in d.st.locals
  {
    var m := DeclareOne(st, rule, outputs[0], index).m;
    var rest := DeclareOutputs(m.st, rule, outputs[1..], index + 1, stopOnTaken);
    InPrefix(m.st.locals, rest.st.locals, m.v);
  }

  lemma InPrefix(xs: seq<Var>, ys: seq<Var>, x: Var)
    requires x in xs && |xs| <= |ys| && ys[..|xs|] == xs
    ensures x in ys
  {
    var i :| 0 <= i < |xs| && xs[i] == x;
    assert ys[i] == ys[..|xs|][i];
  }

  /** With a fixed type every local the loop declares has that type. */
  lemma {:induction false} DeclareOutputsFixed(st: State, t: Option<Ty>, outputs: seq<string>, index: nat, stopOnTaken: bool)
    ensures var d := DeclareOutputs(st, Fixed(t), outputs, index, stopOnTaken);
            forall i :: |st.locals| <= i < |d.st.locals| ==> Some(d.st.locals[i].ty) == t
    decreases |outputs|
  {
    if |outputs| > 0 {
      var step := DeclareOne(st, Fixed(t), outputs[0], index);
      if step.Taken? {
        DeclareHeadTaken(st, Fixed(t), outputs, index, stopOnTaken);
        DeclareOutputsFixed(st, t, outputs[1..], index + 1, stopOnTaken);
      } else if step.Added? {
        var m := step.m;
        DeclareHeadAdded(st, Fixed(t), outputs, index, stopOnTaken);
        DeclareOutputsFixed(m.st, t, outputs[1..], index + 1, stopOnTaken);
        var locals := DeclareOutputs(m.st, Fixed(t), outputs[1..], index + 1, stopOnTaken).st.locals;
        forall i | |st.locals| <= i < |locals|
          ensures Some(locals[i].ty) == t
        {
          if i < |m.st.locals| {
            assert locals[i] == locals[..|m.st.locals|][i] == m.v;
          }
        }
      }
    }
  }
}

=== FILE: exceptions.dfy ===
/** The Python exceptions the compiler can raise. None of them is caught inside the core. */
module Exceptions {

  /** Why a `ValueError` was raised. */
  datatype ValueProblem =
    | NotOneEquals           // the mapfoldwi line does not split into exactly two parts on `=`
    | OperatorPartUnmatched  // no `(mapfoldwi A Op <<S>> if c)` group in the right-hand side
    | InputsPartUnmatched    // no `)(...)` argument list in the right-hand side
    | NotAnInteger           // `int()` of text that is not a digit string

  datatype Exc =
    | AttributeError           // a method was called on Python's `None`
    | KeyError(key: string)    // a name missing from the producer map
    | ValueError(problem: ValueProblem)
    | ForeignError             // the external object model rejected a call
}

=== FILE: expr_line.dfy ===
/**
 * `parse_expression_line`: one textual equation line becomes a descriptor.
 * The two regular expressions of the source are modelled as character scans
 * together with a declarative description of every way the pattern can match:
 *
 *   call form    `([\w,\s]+)=\s*([^\s(]+)\s*\((.*)\)`
 *   simple form  `([\w,\s]+)=\s*(\S+)`
 *
 * Both are tried with `re.match`, so they are anchored at the start of the
 * stripped line but not at its end.
 */
module ExprLine {
  import opened Wrappers
  import opened Text

  /**
   * A parsed line, one constructor per dictionary shape the parsers return:
   * `{"outputs", "operator", "inputs"}`, the older `{"outputs": str, "inputs": str}`
   * and the mapfoldwi dictionary, whose `operator` key is always `"mapfoldwi"`.
   */
  datatype Descriptor =
    | Call(outputs: seq<string>, operator: string, inputs: seq<string>)
    | Assign(output: string, input: string)
    | Iterate(outputs: seq<string>, subOperator: string, accumulators: string,
              size: string, condition: string, inputs: seq<string>)

  /** `[\w,\s]`, with `\w` read as ASCII. */
  predicate IsLhsChar(c: char) {
    IsWordChar(c) || c == ',' || IsSpace(c)
  }

  /** `[^\s(]` */
  predicate IsCalleeChar(c: char) {
    !IsSpace(c) && c != '('
  }

  /** `\S` */
  predicate IsNonSpace(c: char) {
    !IsSpace(c)
  }

  /** `.`: any character but a newline. */
  predicate IsNotNewline(c: char) {
    c != '\n'
  }

  /** The last position in `[lo, hi)` holding `c`. */
  function LastIndexIn(s: string, c: char, lo: nat, hi: nat): (r: Option<nat>)
    requires lo <= hi <= |s|
    ensures r.Some? ==> lo <= r.value < hi && s[r.value] == c
    ensures r.Some? ==> forall t :: r.value < t < hi ==> s[t] != c
    ensures r.None? ==> forall t :: lo <= t < hi ==> s[t] != c
    decreases hi - lo
  {
    if lo == hi then None
    else if s[hi - 1] == c then Some(hi - 1)
    else LastIndexIn(s, c, lo, hi - 1)
  }

  // ---------------------------------------------------------------------------
  // The call form
  // ---------------------------------------------------------------------------

  /**
   * Positions of one match of the call pattern: the `=`, the callee token
   * `[calleeStart, calleeEnd)`, the `(` and the `)` closing group 3.
   */
  datatype CallSpan = CallSpan(eq: nat, calleeStart: nat, calleeEnd: nat, open: nat, close: nat)

  /** `m` is a way for the call pattern to match at the start of `s`. */
  predicate CallAt(s: string, m: CallSpan) {
    && 0 < m.eq < m.calleeStart < m.calleeEnd <= m.open < m.close < |s|
    && AllOf(s[..m.eq], IsLhsChar) && s[m.eq] == '='
    && AllOf(s[m.eq + 1..m.calleeStart], IsSpace)
    && AllOf(s[m.calleeStart..m.calleeEnd], IsCalleeChar)
    && AllOf(s[m.calleeEnd..m.open], IsSpace)
    && s[m.open] == '(' && s[m.close] == ')'
    && AllOf(s[m.open + 1..m.close], IsNotNewline)
  }

  /** The match `re.match` reports: every group is as long as it can be. */
  function MatchCall(s: string): (r: Option<CallSpan>)
    ensures r.Some? ==> CallAt(s, r.value)
  {
    var eq := RunEnd(s, 0, IsLhsChar);
    if eq == 0 || eq == |s| || s[eq] != '=' then None
    else MatchCallAfterEquals(s, eq)
  }

  /** The rest of the call pattern once group 1 and the `=` have matched. */
  function MatchCallAfterEquals(s: string, eq: nat): (r: Option<CallSpan>)
    requires 0 < eq < |s| && AllOf(s[..eq], IsLhsChar) && s[eq] == '='
    ensures r.Some? ==> CallAt(s, r.value) && r.value.eq == eq
  {
    var calleeStart := RunEnd(s, eq + 1, IsSpace);
    var calleeEnd := RunEnd(s, calleeStart, IsCalleeChar);
    if calleeEnd == calleeStart then None
    else
      var open := RunEnd(s, calleeEnd, IsSpace);
      if open == |s| || s[open] != '(' then None
      else
        match GroupThreeClose(s, open)
        case None => None
        case Some(close) => Some(CallSpan(eq, calleeStart, calleeEnd, open, close))
  }

  /** Group 3 after the `(` at `open`: it ends at the last `)` before the end of the line. */
  function GroupThreeClose(s: string, open: nat): (r: Option<nat>)
    requires open < |s|
    ensures r.Some? ==> open < r.value < |s| && s[r.value] == ')'
    ensures r.Some? ==> AllOf(s[open + 1..r.value], IsNotNewline)
  {
    var lineEnd := RunEnd(s, open + 1, IsNotNewline);
    match LastIndexIn(s, ')', open + 1, lineEnd)
    case None => None
    case Some(close) =>
      AllOfInner(s, open + 1, lineEnd, open + 1, close, IsNotNewline);
      Some(close)
  }

  /**
   * Whenever the call pattern can match, `MatchCall` finds a match; groups 1
   * and 2 can only match one way, and group 3 is the longest possible.
   */
  lemma MatchCallComplete(s: string, m: CallSpan)
    requires CallAt(s, m)
    ensures MatchCall(s).Some?
    ensures MatchCall(s).value.eq == m.eq
    ensures MatchCall(s).value.calleeStart == m.calleeStart
    ensures MatchCall(s).value.calleeEnd == m.calleeEnd
    ensures MatchCall(s).value.open == m.open
    ensures m.close <= MatchCall(s).value.close
  {
    assert s[..m.eq] == s[0..m.eq];
    RunEndIs(s, 0, IsLhsChar, m.eq);
    AfterEqualsComplete(s, m);
  }

  lemma AfterEqualsComplete(s: string, m: CallSpan)
    requires CallAt(s, m)
    ensures var r := MatchCallAfterEquals(s, m.eq);
      && r.Some? && r.value.calleeStart == m.calleeStart && r.value.calleeEnd == m.calleeEnd
      && r.value.open == m.open && m.close <= r.value.close
  {
    RunEndIs(s, m.eq + 1, IsSpace, m.calleeStart);
    RunEndIs(s, m.calleeStart, IsCalleeChar, m.calleeEnd);
    RunEndIs(s, m.calleeEnd, IsSpace, m.open);
    GroupThreeFound(s, m.open, m.close);
  }

  /** The last `)` before the end of the line exists and is at or after `close`. */
  lemma GroupThreeFound(s: string, open: nat, close: nat)
    requires open < close < |s| && s[close] == ')'
    requires AllOf(s[open + 1..close], IsNotNewline)
    ensures GroupThreeClose(s, open).Some? && close <= GroupThreeClose(s, open).value
  {
    CloseBeforeLineEnd(s, open, close);
  }

  /** The `)` closing group 3 lies before the end of the line. */
  lemma CloseBeforeLineEnd(s: string, open: nat, close: nat)
    requires open < close < |s| && s[close] == ')'
    requires AllOf(s[open + 1..close], IsNotNewline)
    ensures close < RunEnd(s, open + 1, IsNotNewline)
  {
    forall t | open < t <= close
      ensures s[t] != '\n'
    {
      if t < close {
        assert s[t] == s[open + 1..close][t - open - 1];
      }
    }
  }

  // ---------------------------------------------------------------------------
  // The simple form
  // ---------------------------------------------------------------------------

  /** Positions of one match of the simple pattern: the `=` and the value token. */
  datatype SimpleSpan = SimpleSpan(eq: nat, valueStart: nat, valueEnd: nat)

  predicate SimpleAt(s: string, m: SimpleSpan) {
    && 0 < m.eq < m.valueStart < m.valueEnd <= |s|
    && AllOf(s[..m.eq], IsLhsChar) && s[m.eq] == '='
    && AllOf(s[m.eq + 1..m.valueStart], IsSpace)
    && AllOf(s[m.valueStart..m.valueEnd], IsNonSpace)
  }

  function MatchSimple(s: string): (r: Option<SimpleSpan>)
    ensures r.Some? ==> SimpleAt(s, r.value)
  {
    var eq := RunEnd(s, 0, IsLhsChar);
    if eq == 0 || eq == |s| || s[eq] != '=' then None
    else
      var valueStart := RunEnd(s, eq + 1, IsSpace);
      var valueEnd := RunEnd(s, valueStart, IsNonSpace);
      if valueEnd == valueStart then None
      else Some(SimpleSpan(eq, valueStart, valueEnd))
  }

  /** Whenever the simple pattern can match, `MatchSimple` finds it, with the longest value. */
  lemma MatchSimpleComplete(s: string, m: SimpleSpan)
    requires SimpleAt(s, m)
    ensures MatchSimple(s).Some?
    ensures MatchSimple(s).value.eq == m.eq
    ensures MatchSimple(s).value.valueStart == m.valueStart
    ensures m.valueEnd <= MatchSimple(s).value.valueEnd
  {
    assert s[..m.eq] == s[0..m.eq];
    RunEndIs(s, 0, IsLhsChar, m.eq);
    RunEndIs(s, m.eq + 1, IsSpace, m.valueStart);
  }


  // ---------------------------------------------------------------------------
  // The two line parsers
  // ---------------------------------------------------------------------------

  /** What every descriptor of a call line or a simple line looks like. */
  predicate WellShaped(d: Descriptor) {
    match d
    case Call(outs, op, ins) =>
      && |outs| >= 1 && |ins| >= 1
      && |op| > 0 && AllOf(op, IsCalleeChar)
      && (forall k :: 0 <= k < |outs| ==> Trimmed(outs[k]))
      && (forall k :: 0 <= k < |ins| ==> Trimmed(ins[k]))
    case Assign(out, v) =>
      Trimmed(out) && |v| > 0 && AllOf(v, IsNonSpace)
    case Iterate(_, _, _, _, _, _) => false
  }

  /** Groups of a call match: outputs and inputs split on `,` and stripped. */
  function CallOf(s: string, m: CallSpan): (d: Descriptor)
    requires CallAt(s, m)
    ensures WellShaped(d)
  {
    Call(StripEach(Split(s[..m.eq], ",")), s[m.calleeStart..m.calleeEnd],
         StripEach(Split(s[m.open + 1..m.close], ",")))
  }

  /** The left-hand names of a simple match, split on `,` and stripped. */
  function SimpleOutputs(s: string, m: SimpleSpan): (outs: seq<string>)
    requires SimpleAt(s, m)
    ensures |outs| >= 1
    ensures forall k :: 0 <= k < |outs| ==> Trimmed(outs[k])
  {
    StripEach(Split(s[..m.eq], ","))
  }

  /**
   * `SCADE_Builder.parse_expression_line`. The simple form keeps only the
   * first left-hand name and the value, and carries no operator.
   */
  function ParseExpressionLine(line: string): (r: Option<Descriptor>)
    ensures r.Some? ==> WellShaped(r.value)
  {
    var s := Strip(line);
    match MatchCall(s)
    case Some(m) => Some(CallOf(s, m))
    case None =>
      match MatchSimple(s)
      case Some(m) => Some(Assign(SimpleOutputs(s, m)[0], s[m.valueStart..m.valueEnd]))
      case None => None
  }

  /**
   * The module-level `parse_expression_line` of the older script: identical on
   * call lines; a simple line keeps the whole output list, gets the operator
   * `"assign"` and a one-element input list.
   */
  function ParseExpressionLineV4(line: string): (r: Option<Descriptor>)
    ensures r.None? <==> ParseExpressionLine(line).None?
    ensures ParseExpressionLine(line).Some? && ParseExpressionLine(line).value.Call? ==>
              r == ParseExpressionLine(line)
    ensures ParseExpressionLine(line).Some? && ParseExpressionLine(line).value.Assign? ==>
              && r.Some? && r.value.Call? && r.value.operator == "assign"
              && |r.value.outputs| >= 1 && r.value.outputs[0] == ParseExpressionLine(line).value.output
              && r.value.inputs == [ParseExpressionLine(line).value.input]
  {
    var s := Strip(line);
    match MatchCall(s)
    case Some(m) => Some(CallOf(s, m))
    case None =>
      match MatchSimple(s)
      case Some(m) => Some(Call(SimpleOutputs(s, m), "assign", [s[m.valueStart..m.valueEnd]]))
      case None => None
  }

  /**
   * A parsed call line comes from the call match `re.match` reports on the
   * stripped line (the one with the longest group 3): its outputs and inputs
   * are groups 1 and 3 split on `,` and stripped, its operator is group 2. A
   * parsed simple line has no call match and comes from the simple match with
   * the longest value: its output is the first stripped piece of group 1 and
   * its input is group 2.
   */
  lemma ParseLineSound(line: string)
    ensures var s, r := Strip(line), ParseExpressionLine(line);
      r.Some? && r.value.Call? ==>
        exists m :: CallAt(s, m)
          && (forall m' :: CallAt(s, m') ==> m'.close <= m.close)
          && r.value.outputs == StripEach(Split(s[..m.eq], ","))
          && r.value.operator == s[m.calleeStart..m.calleeEnd]
          && r.value.inputs == StripEach(Split(s[m.open + 1..m.close], ","))
    ensures var s, r := Strip(line), ParseExpressionLine(line);
      r.Some? && r.value.Assign? ==>
        && (forall m :: !CallAt(s, m))
        && (exists m :: SimpleAt(s, m)
              && (forall m' :: SimpleAt(s, m') ==> m'.valueEnd <= m.valueEnd)
              && r.value.output == StripEach(Split(s[..m.eq], ","))[0]
              && r.value.input == s[m.valueStart..m.valueEnd])
  {
    var s := Strip(line);
    if MatchCall(s).Some? {
      var m := MatchCall(s).value;
      forall m' | CallAt(s, m')
        ensures m'.close <= m.close
      {
        MatchCallComplete(s, m');
      }
      assert CallAt(s, m);
    } else if MatchSimple(s).Some? {
      var m := MatchSimple(s).value;
      forall m' | CallAt(s, m')
        ensures false
      {
        MatchCallComplete(s, m');
      }
      forall m' | SimpleAt(s, m')
        ensures m'.valueEnd <= m.valueEnd
      {
        MatchSimpleComplete(s, m');
      }
      assert SimpleAt(s, m);
    }
  }

  /** A line on which the call pattern can match parses as a call. */
  lemma CallLineParses(line: string, m: CallSpan)
    requires CallAt(Strip(line), m)
    ensures ParseExpressionLine(line).Some? && ParseExpressionLine(line).value.Call?
  {
    MatchCallComplete(Strip(line), m);
  }

  /** A line on which only the simple pattern can match parses as an assignment. */
  lemma SimpleLineParses(line: string, m: SimpleSpan)
    requires SimpleAt(Strip(line), m)
    requires MatchCall(Strip(line)).None?
    ensures ParseExpressionLine(line).Some? && ParseExpressionLine(line).value.Assign?
  {
    MatchSimpleComplete(Strip(line), m);
  }

  /** Each scan succeeds exactly when its pattern can match. */
  lemma MatchersDecide(s: string)
    ensures MatchCall(s).Some? <==> exists m :: CallAt(s, m)
    ensures MatchSimple(s).Some? <==> exists m :: SimpleAt(s, m)
  {
    if m :| CallAt(s, m) {
      MatchCallComplete(s, m);
    }
    if m :| SimpleAt(s, m) {
      MatchSimpleComplete(s, m);
    }
  }

  /** Without an `=` neither pattern can match. */
  lemma NoEqualsNoMatch(s: string)
    requires '=' !in s
    ensures MatchCall(s) == None && MatchSimple(s) == None
  {
    var eq := RunEnd(s, 0, IsLhsChar);
    assert eq < |s| ==> s[eq] != '=';
  }

  /** A line without `=` never parses. */
  lemma NoEqualsRejected(line: string)
    requires '=' !in line
    ensures ParseExpressionLine(line) == None
  {
    StripOmits(line, '=');
    NoEqualsNoMatch(Strip(line));
  }

  /** A stripped line that starts with `=` has an empty left side and never parses. */
  lemma EmptyLeftSideRejected(line: string)
    requires |Strip(line)| > 0 && Strip(line)[0] == '='
    ensures ParseExpressionLine(line) == None
  {
  }

  // ---------------------------------------------------------------------------
  // Lines laid out as the patterns describe
  // ---------------------------------------------------------------------------

  /** A left-hand piece between commas: word characters and whitespace. */
  predicate IsLhsPieceChar(c: char) {
    IsWordChar(c) || IsSpace(c)
  }

  /** An argument piece between commas: anything but a comma or a newline. */
  predicate IsArgPieceChar(c: char) {
    c != ',' && c != '\n'
  }

  lemma JoinedLhs(lhs: seq<string>)
    requires forall k :: 0 <= k < |lhs| ==> AllOf(lhs[k], IsLhsPieceChar)
    ensures AllOf(Join(lhs, ","), IsLhsChar)
    ensures forall k :: 0 <= k < |lhs| ==> ',' !in lhs[k]
  {
    forall k | 0 <= k < |lhs|
      ensures AllOf(lhs[k], IsLhsChar) && ',' !in lhs[k]
    {
      assert forall t :: 0 <= t < |lhs[k]| ==> IsLhsPieceChar(lhs[k][t]);
    }
    JoinAllOf(lhs, ",", IsLhsChar);
  }

  lemma JoinedArgs(args: seq<string>)
    requires forall k :: 0 <= k < |args| ==> AllOf(args[k], IsArgPieceChar)
    ensures AllOf(Join(args, ","), IsNotNewline)
    ensures forall k :: 0 <= k < |args| ==> ',' !in args[k]
  {
    forall k | 0 <= k < |args|
      ensures AllOf(args[k], IsNotNewline) && ',' !in args[k]
    {
      assert forall t :: 0 <= t < |args[k]| ==> IsArgPieceChar(args[k][t]);
    }
    JoinAllOf(args, ",", IsNotNewline);
  }

  /** A call match that closes at the last character is the one `re.match` reports. */
  lemma MatchCallAtEnd(s: string, m: CallSpan)
    requires CallAt(s, m) && m.close == |s| - 1
    ensures MatchCall(s) == Some(m)
  {
    MatchCallComplete(s, m);
    assert CallAt(s, MatchCall(s).value);
  }

  /** A simple match whose value runs to the end is the one `re.match` reports. */
  lemma MatchSimpleAtEnd(s: string, m: SimpleSpan)
    requires SimpleAt(s, m) && m.valueEnd == |s|
    ensures MatchSimple(s) == Some(m)
  {
    MatchSimpleComplete(s, m);
    assert SimpleAt(s, MatchSimple(s).value);
  }

  /** Where the pieces of a laid-out call line sit. */
  lemma CallLayoutAt(left: string, sp1: string, callee: string, sp2: string, right: string)
    returns (s: string, m: CallSpan)
    requires |left| > 0 && AllOf(left, IsLhsChar) && !IsSpace(left[0])
    requires AllOf(sp1, IsSpace) && AllOf(sp2, IsSpace)
    requires |callee| > 0 && AllOf(callee, IsCalleeChar)
    requires AllOf(right, IsNotNewline)
    ensures s == left + "=" + sp1 + callee + sp2 + "(" + right + ")"
    ensures CallAt(s, m) && Trimmed(s) && m.close == |s| - 1
    ensures s[..m.eq] == left && s[m.calleeStart..m.calleeEnd] == callee && s[m.open + 1..m.close] == right
  {
    s := left + "=" + sp1 + callee + sp2 + "(" + right + ")";
    var eq := |left|;
    var cs := eq + 1 + |sp1|;
    var ce := cs + |callee|;
    var open := ce + |sp2|;
    var close := |s| - 1;
    assert s[..eq] == left;
    assert s[eq + 1..cs] == sp1;
    assert s[cs..ce] == callee;
    assert s[ce..open] == sp2;
    assert s[open + 1..close] == right;
    m := CallSpan(eq, cs, ce, open, close);
    assert CallAt(s, m);
  }

  /** Where the pieces of a laid-out simple line sit. */
  lemma AssignLayoutAt(left: string, sp: string, value: string)
    returns (s: string, m: SimpleSpan)
    requires |left| > 0 && AllOf(left, IsLhsChar) && !IsSpace(left[0])
    requires AllOf(sp, IsSpace)
    requires |value| > 0 && AllOf(value, IsNonSpace) && '(' !in value
    ensures s == left + "=" + sp + value
    ensures SimpleAt(s, m) && '(' !in s && Trimmed(s) && m.valueEnd == |s|
    ensures s[..m.eq] == left && s[m.valueStart..m.valueEnd] == value
  {
    s := left + "=" + sp + value;
    var eq := |left|;
    var vs := eq + 1 + |sp|;
    assert s[..eq] == left;
    assert s[eq + 1..vs] == sp;
    assert s[vs..] == value;
    forall t | 0 <= t < |s|
      ensures s[t] != '('
    {
      if t < eq {
        assert s[t] == left[t];
      } else if vs <= t {
        assert s[t] == value[t - vs];
      }
    }
    m := SimpleSpan(eq, vs, |s|);
    assert SimpleAt(s, m);
  }

  /** Without a `(` the call pattern cannot match. */
  lemma NoParenNoCall(s: string)
    requires '(' !in s
    ensures MatchCall(s) == None
  {
    var eq := RunEnd(s, 0, IsLhsChar);
    if 0 < eq < |s| && s[eq] == '=' {
      var cs := RunEnd(s, eq + 1, IsSpace);
      var ce := RunEnd(s, cs, IsCalleeChar);
      var open := RunEnd(s, ce, IsSpace);
      assert open < |s| ==> s[open] != '(';
    }
  }

  /** Splitting comma-joined pieces that hold no comma gives the pieces back. */
  lemma SplitJoinedOnComma(x: string, parts: seq<string>)
    requires |parts| >= 1 && forall k :: 0 <= k < |parts| ==> ',' !in parts[k]
    requires x == Join(parts, ",")
    ensures Split(x, ",") == parts
  {
    JoinThenSplit(parts, ',');
  }

  /** A trimmed line whose call match spans to the end parses to the stripped groups. */
  lemma ParseOfCallAtEnd(s: string, m: CallSpan, lhs: seq<string>, args: seq<string>)
    requires Trimmed(s) && CallAt(s, m) && m.close == |s| - 1
    requires Split(s[..m.eq], ",") == lhs && Split(s[m.open + 1..m.close], ",") == args
    ensures ParseExpressionLine(s) == Some(Call(StripEach(lhs), s[m.calleeStart..m.calleeEnd], StripEach(args)))
  {
    StripTrimmed(s);
    MatchCallAtEnd(s, m);
  }

  /**
   * Any line of the form `lhs = callee (args)`, with whitespace allowed where
   * the pattern allows it, parses to the stripped left and argument pieces
   * and the callee token.
   */
  lemma ParseCallLayout(lhs: seq<string>, sp1: string, callee: string, sp2: string, args: seq<string>)
    requires |lhs| >= 1 && |lhs[0]| > 0 && !IsSpace(lhs[0][0])
    requires forall k :: 0 <= k < |lhs| ==> AllOf(lhs[k], IsLhsPieceChar)
    requires AllOf(sp1, IsSpace) && AllOf(sp2, IsSpace)
    requires |callee| > 0 && AllOf(callee, IsCalleeChar)
    requires |args| >= 1 && forall k :: 0 <= k < |args| ==> AllOf(args[k], IsArgPieceChar)
    ensures ParseExpressionLine(Join(lhs, ",") + "=" + sp1 + callee + sp2 + "(" + Join(args, ",") + ")")
            == Some(Call(StripEach(lhs), callee, StripEach(args)))
  {
    var left, right := Join(lhs, ","), Join(args, ",");
    JoinedLhs(lhs);
    JoinedArgs(args);
    JoinStartsWithHead(lhs, ",");
    assert left[0] == lhs[0][0];
    var line, m := CallLayoutAt(left, sp1, callee, sp2, right);
    SplitJoinedOnComma(line[..m.eq], lhs);
    SplitJoinedOnComma(line[m.open + 1..m.close], args);
    ParseOfCallAtEnd(line, m, lhs, args);
  }

  /** An example line from the script's own sample input. */
  lemma ParseSampleCall()
    ensures ParseExpressionLine("_L4 = + (_L1, _L2, _L3)") == Some(Call(["_L4"], "+", ["_L1", "_L2", "_L3"]))
  {
    var lhs := ["_L4 "];
    var args := ["_L1", " _L2", " _L3"];
    SampleLayout();
    SampleStrips();
    ParseCallLayout(lhs, " ", "+", " ", args);
  }

  lemma SampleLayout()
    ensures Join(["_L4 "], ",") + "=" + " " + "+" + " " + "(" + Join(["_L1", " _L2", " _L3"], ",") + ")"
            == "_L4 = + (_L1, _L2, _L3)"
    ensures AllOf("_L4 ", IsLhsPieceChar)
    ensures AllOf("_L1", IsArgPieceChar) && AllOf(" _L2", IsArgPieceChar) && AllOf(" _L3", IsArgPieceChar)
  {
    assert Join(["_L1", " _L2", " _L3"], ",") == "_L1, _L2, _L3";
  }

  lemma SampleStrips()
    ensures StripEach(["_L4 "]) == ["_L4"]
    ensures StripEach(["_L1", " _L2", " _L3"]) == ["_L1", "_L2", "_L3"]
  {
    StripTrailing("_L4");
    assert "_L4" + " " == "_L4 ";
    StripLeading("_L2");
    assert " " + "_L2" == " _L2";
    StripLeading("_L3");
    assert " " + "_L3" == " _L3";
    StripTrimmed("_L1");
  }

  lemma StripTrailing(x: string)
    requires Trimmed(x)
    ensures Strip(x + " ") == x
  {
    assert "" + x + " " == x + " ";
    StripOfPadded("", x, " ");
  }

  lemma StripLeading(x: string)
    requires Trimmed(x)
    ensures Strip(" " + x) == x
  {
    assert " " + x + "" == " " + x;
    StripOfPadded(" ", x, "");
  }

  /** A trimmed line with no `(` whose simple match runs to the end parses as an assignment. */
  lemma ParseOfSimpleAtEnd(s: string, m: SimpleSpan, lhs: seq<string>)
    requires Trimmed(s) && '(' !in s && SimpleAt(s, m) && m.valueEnd == |s|
    requires Split(s[..m.eq], ",") == lhs
    ensures ParseExpressionLine(s) == Some(Assign(Strip(lhs[0]), s[m.valueStart..m.valueEnd]))
    ensures ParseExpressionLineV4(s) == Some(Call(StripEach(lhs), "assign", [s[m.valueStart..m.valueEnd]]))
  {
    StripTrimmed(s);
    NoParenNoCall(s);
    MatchSimpleAtEnd(s, m);
  }

  /**
   * A line `lhs = value` whose value token has no `(` is a simple assignment:
   * only the first stripped left-hand piece is kept.
   */
  lemma ParseAssignLayout(lhs: seq<string>, sp: string, value: string)
    requires |lhs| >= 1 && |lhs[0]| > 0 && !IsSpace(lhs[0][0])
    requires forall k :: 0 <= k < |lhs| ==> AllOf(lhs[k], IsLhsPieceChar)
    requires AllOf(sp, IsSpace)
    requires |value| > 0 && AllOf(value, IsNonSpace) && '(' !in value
    ensures ParseExpressionLine(Join(lhs, ",") + "=" + sp + value) == Some(Assign(Strip(lhs[0]), value))
    ensures ParseExpressionLineV4(Join(lhs, ",") + "=" + sp + value) == Some(Call(StripEach(lhs), "assign", [value]))
  {
    var left := Join(lhs, ",");
    JoinedLhs(lhs);
    JoinStartsWithHead(lhs, ",");
    assert left[0] == lhs[0][0];
    var line, m := AssignLayoutAt(left, sp, value);
    SplitJoinedOnComma(line[..m.eq], lhs);
    ParseOfSimpleAtEnd(line, m, lhs);
  }
}

=== FILE: json.dfy ===
/**
 * Python's `json.loads(s)` with its default decoder (strict strings, the C
 * scanner): the value tree it returns, or the `JSONDecodeError` it raises.
 * Python strings may hold lone UTF-16 surrogates, which a Dafny `char`
 * cannot; a text that decodes to such a string is reported as such instead.
 */
module Json {
  import opened Wrappers
  import opened Text

  /** A decoded Python value; a float is kept as the text `float()` would read. */
  datatype Json =
    | JNull
    | JBool(b: bool)
    | JInt(i: int)
    | JFloat(raw: string)
    | JStr(s: string)
    | JArr(items: seq<Json>)
    | JObj(entries: seq<Member>)

  /** One key and its value in an object. */
  datatype Member = Member(key: string, value: Json)

  /** One scanning step: the value read, where reading stopped, and whether a lone surrogate was read. */
  datatype Step<T> = Read(value: T, end: nat, lone: bool) | Fail

  /**
   * One member as read, with whether its key holds a lone surrogate; the
   * step's own flag is about the value, which a later repeated key may drop.
   */
  datatype Keyed = Keyed(member: Member, keyLone: bool)

  /** What `json.loads` gives: a value, a `JSONDecodeError`, or a string Dafny cannot hold. */
  datatype Loaded = Loaded(value: Json) | DecodeError | LoneSurrogate

  // ---------------------------------------------------------------------------
  // Characters
  // ---------------------------------------------------------------------------

  /** The four characters JSON skips between tokens. */
  predicate IsJsonSpace(c: char) {
    c == ' ' || c == '\t' || c == '\n' || c == '\r'
  }

  predicate IsHexDigit(c: char) {
    IsDigit(c) || ('a' <= c <= 'f') || ('A' <= c <= 'F')
  }

  function HexValue(c: char): (v: nat)
    requires IsHexDigit(c)
    ensures v < 16
  {
    if IsDigit(c) then c as nat - '0' as nat
    else if 'a' <= c <= 'f' then c as nat - 'a' as nat + 10
    else c as nat - 'A' as nat + 10
  }

  /** The value of the four hex digits at `k`, or nothing when one of them is not a hex digit. */
  function Hex4(s: string, k: nat): (r: Option<nat>)
    requires k + 4 <= |s|
    ensures r.Some? ==> r.value < 0x1_0000
  {
    if IsHexDigit(s[k]) && IsHexDigit(s[k + 1]) && IsHexDigit(s[k + 2]) && IsHexDigit(s[k + 3]) then
      Some(((HexValue(s[k]) * 16 + HexValue(s[k + 1])) * 16 + HexValue(s[k + 2])) * 16 + HexValue(s[k + 3]))
    else None
  }

  predicate IsHighSurrogate(u: nat) {
    0xD800 <= u <= 0xDBFF
  }

  predicate IsLowSurrogate(u: nat) {
    0xDC00 <= u <= 0xDFFF
  }

  /** The character a `\uXXXX` escape names that is not a surrogate. */
  function CharOf(u: nat): (c: char)
    requires u < 0x1_0000 && !IsHighSurrogate(u) && !IsLowSurrogate(u)
    ensures c as nat == u
  {
    u as char
  }

  /** The character a high and a low surrogate escape name together. */
  function JoinSurrogates(hi: nat, lo: nat): (c: char)
    requires IsHighSurrogate(hi) && IsLowSurrogate(lo)
    ensures 0x1_0000 <= c as nat <= 0x10_FFFF
  {
    (0x1_0000 + (hi - 0xD800) * 0x400 + (lo - 0xDC00)) as char
  }

  /** The character a one-letter escape stands for, if the letter is one. */
  function ShortEscape(c: char): (r: Option<char>)
    ensures r.Some? <==> c in "\"\\/bfnrt"
  {
    if c == '"' then Some('"')
    else if c == '\\' then Some('\\')
    else if c == '/' then Some('/')
    else if c == 'b' then Some('\U{8}')
    else if c == 'f' then Some('\U{C}')
    else if c == 'n' then Some('\n')
    else if c == 'r' then Some('\r')
    else if c == 't' then Some('\t')
    else None
  }

  /** Where the whitespace starting at `i` ends. */
  function SkipSpace(s: string, i: nat): (r: nat)
    requires i <= |s|
    ensures i <= r <= |s|
    ensures r < |s| ==> !IsJsonSpace(s[r])
    decreases |s| - i
  {
    if i < |s| && IsJsonSpace(s[i]) then SkipSpace(s, i + 1) else i
  }

  /** The literal `lit` is spelled at `i`, compared one character at a time. */
  predicate SpelledAt(s: string, i: nat, lit: string)
    decreases |lit|
  {
    if |lit| == 0 then i <= |s| else i < |s| && s[i] == lit[0] && SpelledAt(s, i + 1, lit[1..])
  }

  /** Spelling a literal character by character is finding it as a slice. */
  lemma {:induction false} SpelledIsOccurs(s: string, i: nat, lit: string)
    ensures SpelledAt(s, i, lit) <==> OccursAt(s, lit, i)
    decreases |lit|
  {
    if |lit| > 0 {
      SpelledIsOccurs(s, i + 1, lit[1..]);
      if i + |lit| <= |s| {
        var a := s[i..i + |lit|];
        assert a[0] == s[i] && a[1..] == s[i + 1..i + 1 + |lit[1..]|];
        assert a == [a[0]] + a[1..] && lit == [lit[0]] + lit[1..];
      }
    }
  }

  // ---------------------------------------------------------------------------
  // Numbers: -?(0|[1-9][0-9]*)(\.[0-9]+)?([eE][-+]?[0-9]+)?
  // ---------------------------------------------------------------------------

  /** Where an exponent starting at `k` ends, or `k` when no exponent with a digit starts there. */
  function ExponentEnd(s: string, k: nat): (r: nat)
    requires k <= |s|
    ensures k <= r <= |s|
    ensures r > k ==> IsDigit(s[r - 1]) && (s[k] == 'e' || s[k] == 'E')
  {
    if k < |s| && (s[k] == 'e' || s[k] == 'E') then
      var m := if k + 1 < |s| && (s[k + 1] == '-' || s[k + 1] == '+') then k + 2 else k + 1;
      var d := RunEnd(s, m, IsDigit);
      if d > m then
        assert s[d - 1] == s[m..d][d - 1 - m];
        d
      else k
    else k
  }

  /** Where a fraction starting at `k` ends, or `k` when no `.` followed by a digit starts there. */
  function FractionEnd(s: string, k: nat): (r: nat)
    requires k <= |s|
    ensures k <= r <= |s|
    ensures r > k ==> r >= k + 2 && s[k] == '.'
  {
    if k + 1 < |s| && s[k] == '.' && IsDigit(s[k + 1]) then RunEnd(s, k + 1, IsDigit) else k
  }

  /** Where the integer part starting with the digit at `j` ends: after a lone `0`, or after all its digits. */
  function IntegerEnd(s: string, j: nat): (r: nat)
    requires j < |s| && IsDigit(s[j])
    ensures j < r <= |s| && AllDigits(s[j..r])
  {
    if s[j] == '0' then
      assert s[j..j + 1] == [s[j]];
      j + 1
    else
      var r := RunEnd(s, j, IsDigit);
      assert AllOf(s[j..r], IsDigit);
      r
  }

  /**
   * A number at `i`: an integer when it has neither fraction nor exponent,
   * otherwise a float spelled by the text read. A fraction or exponent
   * without digits is not read, so the number ends before it.
   */
  function ParseNumber(s: string, i: nat): (r: Step<Json>)
    requires i <= |s|
    ensures r.Read? ==> i < r.end <= |s| && !r.lone
    ensures r.Read? ==> r.value.JInt? || r.value.JFloat?
  {
    var j := if i < |s| && s[i] == '-' then i + 1 else i;
    if j >= |s| || !IsDigit(s[j]) then Fail
    else
      var intEnd := IntegerEnd(s, j);
      var fracEnd := FractionEnd(s, intEnd);
      var expEnd := ExponentEnd(s, fracEnd);
      if expEnd == intEnd then
        var n: int := DigitsValue(s[j..intEnd]);
        Read(JInt(if j > i then -n else n), intEnd, false)
      else Read(JFloat(s[i..expEnd]), expEnd, false)
  }

  // ---------------------------------------------------------------------------
  // Strings
  // ---------------------------------------------------------------------------

  /** What one backslash escape stands for: a character, where the escape ends, and whether it is a lone surrogate. */
  datatype Escaped = Escaped(c: char, next: nat, lone: bool)

  /**
   * The escape whose backslash is at `i`: a one-letter escape, or `\uXXXX`.
   * A high surrogate escape directly followed by a low one names one
   * character; any other surrogate escape is a lone surrogate, read as a
   * placeholder and flagged. A `\u` that four hex digits and one more
   * character do not follow fails, and so does a bad second half of a pair.
   */
  function Unescape(s: string, i: nat): (r: Option<Escaped>)
    requires i < |s| && s[i] == '\\'
    ensures r.Some? ==> i + 2 <= r.value.next <= |s|
  {
    if i + 1 >= |s| then None
    else if s[i + 1] != 'u' then
      match ShortEscape(s[i + 1])
      case None => None
      case Some(c) => Some(Escaped(c, i + 2, false))
    else if i + 6 >= |s| then None
    else
      match Hex4(s, i + 2)
      case None => None
      case Some(u) =>
        if IsHighSurrogate(u) && i + 12 < |s| && s[i + 6] == '\\' && s[i + 7] == 'u' then
          match Hex4(s, i + 8)
          case None => None
          case Some(u2) =>
            if IsLowSurrogate(u2) then Some(Escaped(JoinSurrogates(u, u2), i + 12, false))
            else Some(Escaped('\U{FFFD}', i + 6, true))
        else if IsHighSurrogate(u) || IsLowSurrogate(u) then Some(Escaped('\U{FFFD}', i + 6, true))
        else Some(Escaped(CharOf(u), i + 6, false))
  }

  /**
   * The rest of a string whose opening quote is before `i`, up to and
   * including the closing quote. A control character, a bad escape or a
   * missing closing quote fails.
   */
  function ParseString(s: string, i: nat): (r: Step<string>)
    requires i <= |s|
    ensures r.Read? ==> i < r.end <= |s| && |r.value| < r.end - i
    decreases |s| - i
  {
    if i >= |s| then Fail
    else if s[i] == '"' then Read("", i + 1, false)
    else if s[i] == '\\' then
      match Unescape(s, i)
      case None => Fail
      case Some(x) => Prepend(x.c, x.lone, ParseString(s, x.next))
    else if s[i] < ' ' then Fail
    else Prepend(s[i], false, ParseString(s, i + 1))
  }

  /** One more character in front of what the rest of the scan read. */
  function Prepend(c: char, lone: bool, rest: Step<string>): (r: Step<string>)
    ensures r.Read? <==> rest.Read?
    ensures r.Read? ==> r.value == [c] + rest.value && r.end == rest.end && r.lone == (lone || rest.lone)
  {
    match rest
    case Fail => Fail
    case Read(t, e, l) => Read([c] + t, e, lone || l)
  }

  // ---------------------------------------------------------------------------
  // Objects keep the last value given for a key, at the key's first position
  // ---------------------------------------------------------------------------

  predicate DistinctKeys(entries: seq<Member>) {
    forall a, b :: 0 <= a < b < |entries| ==> entries[a].key != entries[b].key
  }

  /** `d[key] = value` on a Python dict. */
  function Put(entries: seq<Member>, key: string, value: Json): (r: seq<Member>)
    ensures |r| == |entries| || |r| == |entries| + 1
    ensures forall k :: 0 <= k < |r| ==> r[k] in entries || r[k] == Member(key, value)
    decreases |entries|
  {
    if |entries| == 0 then [Member(key, value)]
    else if entries[0].key == key then [Member(key, value)] + entries[1..]
    else [entries[0]] + Put(entries[1..], key, value)
  }

  /** `dict(pairs)`. */
  function DictOf(pairs: seq<Member>): (r: seq<Member>)
    ensures |r| <= |pairs|
    ensures forall k :: 0 <= k < |r| ==> r[k] in pairs
    decreases |pairs|
  {
    if |pairs| == 0 then []
    else
      var last := pairs[|pairs| - 1];
      var r := Put(DictOf(pairs[..|pairs| - 1]), last.key, last.value);
      assert forall k :: 0 <= k < |pairs| - 1 ==> pairs[..|pairs| - 1][k] == pairs[k];
      r
  }

  // ---------------------------------------------------------------------------
  // The longest string inside a value, which bounds how deep re-decoding goes
  // ---------------------------------------------------------------------------

  function Max(a: nat, b: nat): nat {
    if a < b then b else a
  }

  /** The length of the longest string among the values of `v`; object keys aside. */
  function MaxStr(v: Json): nat {
    match v
    case JStr(t) => |t|
    case JArr(items) => MaxOfItems(items)
    case JObj(entries) => MaxOfEntries(entries)
    case _ => 0
  }

  function MaxOfItems(items: seq<Json>): nat {
    if |items| == 0 then 0 else Max(MaxStr(items[0]), MaxOfItems(items[1..]))
  }

  function MaxOfEntries(entries: seq<Member>): nat {
    if |entries| == 0 then 0
    else
      Max(MaxStr(entries[0].value), MaxOfEntries(entries[1..]))
  }

  lemma {:induction false} MaxOfItemsBounds(items: seq<Json>, k: nat)
    requires k < |items|
    ensures MaxStr(items[k]) <= MaxOfItems(items)
    decreases k
  {
    if k > 0 {
      MaxOfItemsBounds(items[1..], k - 1);
    }
  }

  lemma {:induction false} MaxOfEntriesBounds(entries: seq<Member>, k: nat)
    requires k < |entries|
    ensures MaxStr(entries[k].value) <= MaxOfEntries(entries)
    decreases k
  {
    if k > 0 {
      MaxOfEntriesBounds(entries[1..], k - 1);
    }
  }

  /** Entries all taken from `pairs` hold no longer string than `pairs` do. */
  lemma {:induction false} MaxOfEntriesSubset(entries: seq<Member>, pairs: seq<Member>)
    requires forall k :: 0 <= k < |entries| ==> entries[k] in pairs
    ensures MaxOfEntries(entries) <= MaxOfEntries(pairs)
    decreases |entries|
  {
    if |entries| > 0 {
      var m :| 0 <= m < |pairs| && pairs[m] == entries[0];
      MaxOfEntriesBounds(pairs, m);
      assert forall k :: 0 <= k < |entries| - 1 ==> entries[1..][k] == entries[k + 1];
      MaxOfEntriesSubset(entries[1..], pairs);
    }
  }

  lemma ConsItems(v: Json, rest: seq<Json>)
    ensures MaxOfItems([v] + rest) == Max(MaxStr(v), MaxOfItems(rest))
  {
    assert ([v] + rest)[1..] == rest;
  }

  lemma ConsEntries(e: Member, rest: seq<Member>)
    ensures MaxOfEntries([e] + rest) == Max(MaxStr(e.value), MaxOfEntries(rest))
  {
    assert ([e] + rest)[1..] == rest;
  }

  // ---------------------------------------------------------------------------
  // Values, arrays and objects
  // ---------------------------------------------------------------------------

  /** A named constant at `i`: it is `lit` spelled out, or nothing is read. */
  function Constant(s: string, i: nat, lit: string, v: Json): (r: Step<Json>)
    requires |lit| > 0
    ensures r.Read? ==> r == Read(v, i + |lit|, false) && i + |lit| <= |s|
  {
    SpelledIsOccurs(s, i, lit);
    if SpelledAt(s, i, lit) then Read(v, i + |lit|, false) else Fail
  }

  /**
   * The value at `i`, chosen by its first character as the C scanner does:
   * a string, an object, an array, `null`, `true`, `false`, `NaN`,
   * `Infinity`, `-Infinity`, or else a number. Every string the value holds
   * is shorter than the text read.
   */
  function ParseValue(s: string, i: nat): (r: Step<Json>)
    requires i <= |s|
    ensures r.Read? ==> i < r.end <= |s| && MaxStr(r.value) < r.end - i
    decreases |s| - i, 0
  {
    if i >= |s| then Fail
    else
      var c := s[i];
      if c == '"' then
        match ParseString(s, i + 1)
        case Fail => Fail
        case Read(t, e, l) => Read(JStr(t), e, l)
      else if c == '{' then ParseObject(s, i + 1)
      else if c == '[' then ParseArray(s, i + 1)
      else if c == 'n' then Constant(s, i, "null", JNull)
      else if c == 't' then Constant(s, i, "true", JBool(true))
      else if c == 'f' then Constant(s, i, "false", JBool(false))
      else if c == 'N' then Constant(s, i, "NaN", JFloat("NaN"))
      else if c == 'I' then Constant(s, i, "Infinity", JFloat("Infinity"))
      else if c == '-' && SpelledAt(s, i, "-Infinity") then Read(JFloat("-Infinity"), i + 9, false)
      else ParseNumber(s, i)
  }

  /** An array whose `[` is before `i`: `]` after optional whitespace, or its items. */
  function ParseArray(s: string, i: nat): (r: Step<Json>)
    requires i <= |s|
    ensures r.Read? ==> i < r.end <= |s| && MaxStr(r.value) < r.end - i
    decreases |s| - i, 2
  {
    var j := SkipSpace(s, i);
    if j < |s| && s[j] == ']' then Read(JArr([]), j + 1, false)
    else
      match ParseItems(s, j)
      case Fail => Fail
      case Read(items, e, l) => Read(JArr(items), e, l)
  }

  /** Items from `j` on, separated by `,` and whitespace, up to and including the closing `]`. */
  function ParseItems(s: string, j: nat): (r: Step<seq<Json>>)
    requires j <= |s|
    ensures r.Read? ==> j < r.end <= |s| && MaxOfItems(r.value) < r.end - j
    decreases |s| - j, 1
  {
    match ParseValue(s, j)
    case Fail => Fail
    case Read(v, e, l) =>
      var k := SkipSpace(s, e);
      if k < |s| && s[k] == ']' then
        ConsItems(v, []);
        Read([v], k + 1, l)
      else if k < |s| && s[k] == ',' then
        match ParseItems(s, SkipSpace(s, k + 1))
        case Fail => Fail
        case Read(rest, e2, l2) =>
          ConsItems(v, rest);
          Read([v] + rest, e2, l || l2)
      else Fail
  }

  /** An object whose `{` is before `i`: `}` after optional whitespace, or its members. */
  function ParseObject(s: string, i: nat): (r: Step<Json>)
    requires i <= |s|
    ensures r.Read? ==> i < r.end <= |s| && MaxStr(r.value) < r.end - i
    decreases |s| - i, 2
  {
    var j := SkipSpace(s, i);
    if j < |s| && s[j] == '}' then Read(JObj([]), j + 1, false)
    else
      match ParseMembers(s, j)
      case Fail => Fail
      case Read(pairs, e, l) =>
        MaxOfEntriesSubset(DictOf(pairs), pairs);
        Read(JObj(DictOf(pairs)), e, l)
  }

  /** One member at `j`: a quoted key, `:` and a value, with whitespace allowed around the `:`. */
  function ParseMember(s: string, j: nat): (r: Step<Keyed>)
    requires j <= |s|
    ensures r.Read? ==> j < r.end <= |s| && MaxStr(r.value.member.value) < r.end - j
    decreases |s| - j, 0
  {
    if j >= |s| || s[j] != '"' then Fail
    else
      match ParseString(s, j + 1)
      case Fail => Fail
      case Read(key, ke, kl) =>
        var c := SkipSpace(s, ke);
        if c >= |s| || s[c] != ':' then Fail
        else
          match ParseValue(s, SkipSpace(s, c + 1))
          case Fail => Fail
          case Read(v, e, l) => Read(Keyed(Member(key, v), kl), e, l)
  }

  /** Whether some member of `entries` has the key `key`. */
  predicate HasKey(entries: seq<Member>, key: string) {
    exists k :: 0 <= k < |entries| && entries[k].key == key
  }

  /**
   * Members from `j` on, separated by `,` and whitespace, up to and
   * including the closing `}`. The flag counts every key, but a value only
   * when no later member repeats its key, since `dict` then drops it.
   */
  function ParseMembers(s: string, j: nat): (r: Step<seq<Member>>)
    requires j <= |s|
    ensures r.Read? ==> j < r.end <= |s| && MaxOfEntries(r.value) < r.end - j
    decreases |s| - j, 1
  {
    match ParseMember(s, j)
    case Fail => Fail
    case Read(Keyed(m, kl), e, l) =>
      var k := SkipSpace(s, e);
      if k < |s| && s[k] == '}' then
        ConsEntries(m, []);
        Read([m], k + 1, kl || l)
      else if k < |s| && s[k] == ',' then
        match ParseMembers(s, SkipSpace(s, k + 1))
        case Fail => Fail
        case Read(rest, e2, l2) =>
          ConsEntries(m, rest);
          Read([m] + rest, e2, kl || (l && !HasKey(rest, m.key)) || l2)
      else Fail
  }

  /**
   * `json.loads(s)`: a leading byte-order mark is refused, whitespace may
   * surround the one value, and anything else after it is "Extra data".
   */
  function Loads(s: string): (r: Loaded)
    ensures r.Loaded? ==> MaxStr(r.value) < |s|
  {
    if |s| > 0 && s[0] == '\U{FEFF}' then DecodeError
    else
      match ParseValue(s, SkipSpace(s, 0))
      case Fail => DecodeError
      case Read(v, e, l) =>
        if SkipSpace(s, e) != |s| then DecodeError
        else if l then LoneSurrogate
        else Loaded(v)
  }
}

=== FILE: json_roundtrip.dfy ===
/**
 * A JSON writer for decoded values, and the proof that `json.loads` reads
 * back what it writes: the partner of the decoder. Strings escape `"`, `\`
 * and control characters; everything else is written as it is.
 */
module JsonRoundTrip {
  import opened Wrappers
  import opened Text
  import opened Json

  // ---------------------------------------------------------------------------
  // Writing
  // ---------------------------------------------------------------------------

  function HexDigitChar(d: nat): (c: char)
    requires d < 16
    ensures IsHexDigit(c) && HexValue(c) == d
  {
    if d < 10 then ('0' as nat + d) as char else ('a' as nat + d - 10) as char
  }

  /** One character of a string's body: `\"`, `\\`, `\u00XX` for a control character, or itself. */
  function EscapeChar(c: char): string {
    if c == '"' then "\\\""
    else if c == '\\' then "\\\\"
    else if c < ' ' then "\\u00" + [HexDigitChar(c as nat / 16), HexDigitChar(c as nat % 16)]
    else [c]
  }

  function Escape(t: string): string {
    if |t| == 0 then "" else EscapeChar(t[0]) + Escape(t[1..])
  }

  function Quote(t: string): string {
    "\"" + Escape(t) + "\""
  }

  function Encode(v: Json): string {
    match v
    case JNull => "null"
    case JBool(b) => if b then "true" else "false"
    case JInt(i) => IntToString(i)
    case JFloat(raw) => raw
    case JStr(t) => Quote(t)
    case JArr(items) => "[" + EncodeItems(items) + "]"
    case JObj(entries) => "{" + EncodeMembers(entries) + "}"
  }

  function EncodeItems(items: seq<Json>): string {
    if |items| == 0 then ""
    else if |items| == 1 then Encode(items[0])
    else Encode(items[0]) + "," + EncodeItems(items[1..])
  }

  function EncodeMember(m: Member): string {
    Quote(m.key) + ":" + Encode(m.value)
  }

  function EncodeMembers(entries: seq<Member>): string {
    if |entries| == 0 then ""
    else if |entries| == 1 then EncodeMember(entries[0])
    else EncodeMember(entries[0]) + "," + EncodeMembers(entries[1..])
  }

  /** Values the writer can spell so that reading gives them back: no floats, and no key twice in an object. */
  predicate Encodable(v: Json) {
    match v
    case JFloat(_) => false
    case JArr(items) => forall k :: 0 <= k < |items| ==> Encodable(items[k])
    case JObj(entries) => DistinctKeys(entries) && forall k :: 0 <= k < |entries| ==> Encodable(entries[k].value)
    case _ => true
  }

  // ---------------------------------------------------------------------------
  // Text facts
  // ---------------------------------------------------------------------------

  lemma OccursSplit(s: string, a: string, b: string, i: nat)
    requires OccursAt(s, a + b, i)
    ensures OccursAt(s, a, i) && OccursAt(s, b, i + |a|) && i + |a| + |b| <= |s|
  {
    assert s[i..i + |a|] == s[i..i + |a| + |b|][..|a|];
    assert s[i + |a|..i + |a| + |b|] == s[i..i + |a| + |b|][|a|..];
  }

  lemma OccursChar(s: string, t: string, i: nat, k: nat)
    requires OccursAt(s, t, i) && k < |t|
    ensures s[i + k] == t[k]
  {
    assert s[i + k] == s[i..i + |t|][k];
  }

  lemma Regroup(a: string, c: char, b: string, d: char)
    ensures a + [c] + b + [d] == a + ([c] + (b + [d]))
  {
  }

  /** `w`, then the character `c`, then `tail`, at `j`. */
  lemma SepLayout(s: string, w: string, c: char, tail: string, j: nat)
    requires OccursAt(s, w + ([c] + tail), j)
    ensures OccursAt(s, w, j) && j + |w| < |s| && s[j + |w|] == c && OccursAt(s, tail, j + |w| + 1)
  {
    OccursSplit(s, w, [c] + tail, j);
    OccursSplit(s, [c], tail, j + |w|);
    OccursChar(s, [c], j + |w|, 0);
  }

  /** `w`, then the character `c`, at `j`. */
  lemma EndLayout(s: string, w: string, c: char, j: nat)
    requires OccursAt(s, w + [c], j)
    ensures OccursAt(s, w, j) && j + |w| < |s| && s[j + |w|] == c
  {
    OccursSplit(s, w, [c], j);
    OccursChar(s, [c], j + |w|, 0);
  }

  /** The character `c`, then `w`, at `j`. */
  lemma StartLayout(s: string, c: char, w: string, j: nat)
    requires OccursAt(s, [c] + w, j)
    ensures j < |s| && s[j] == c && OccursAt(s, w, j + 1)
  {
    OccursSplit(s, [c], w, j);
    OccursChar(s, [c], j, 0);
  }

  /** After a value only `,`, `]`, `}` or the end of the text may follow. */
  predicate Delimited(s: string, k: nat) {
    k == |s| || (k < |s| && (s[k] == ',' || s[k] == ']' || s[k] == '}'))
  }

  lemma NoSpaceSkipped(s: string, k: nat)
    requires k <= |s| && (k == |s| || !IsJsonSpace(s[k]))
    ensures SkipSpace(s, k) == k
  {
  }

  /** How a written value can begin. */
  predicate Opens(c: char) {
    c == 'n' || c == 't' || c == 'f' || c == '-' || IsDigit(c) || c == '"' || c == '[' || c == '{'
  }

  lemma {:induction false} EncodeOpens(v: Json)
    requires Encodable(v)
    ensures |Encode(v)| > 0 && Opens(Encode(v)[0])
  {
    match v
    case JInt(i) =>
      var d := NatToString(if i < 0 then -i else i);
      assert d[0] == d[0..1][0];
    case _ =>
  }

  lemma EncodeItemsOpens(items: seq<Json>)
    requires |items| > 0 && Encodable(items[0])
    ensures |EncodeItems(items)| > 0 && Opens(EncodeItems(items)[0])
  {
    EncodeOpens(items[0]);
  }

  // ---------------------------------------------------------------------------
  // One step of the scanner at a time
  // ---------------------------------------------------------------------------

  /** The scanners read `v` from `i` on, stopping at `e`, and meet no lone surrogate. */
  predicate ValueReads(s: string, i: nat, v: Json, e: nat) {
    i <= |s| && ParseValue(s, i) == Read(v, e, false)
  }

  predicate StringReads(s: string, i: nat, t: string, e: nat) {
    i <= |s| && ParseString(s, i) == Read(t, e, false)
  }

  predicate ItemsRead(s: string, j: nat, items: seq<Json>, e: nat) {
    j <= |s| && ParseItems(s, j) == Read(items, e, false)
  }

  predicate MemberReads(s: string, j: nat, m: Member, e: nat) {
    j <= |s| && ParseMember(s, j) == Read(Keyed(m, false), e, false)
  }

  predicate MembersRead(s: string, j: nat, entries: seq<Member>, e: nat) {
    j <= |s| && ParseMembers(s, j) == Read(entries, e, false)
  }

  lemma StringEnds(s: string, i: nat)
    requires i < |s| && s[i] == '"'
    ensures StringReads(s, i, "", i + 1)
  {
  }

  lemma StringPlain(s: string, i: nat)
    requires i < |s| && s[i] != '"' && s[i] != '\\' && s[i] >= ' '
    ensures ParseString(s, i) == Prepend(s[i], false, ParseString(s, i + 1))
  {
  }

  lemma StringEscape(s: string, i: nat, x: Escaped)
    requires i < |s| && s[i] == '\\' && Unescape(s, i) == Some(x)
    ensures ParseString(s, i) == Prepend(x.c, x.lone, ParseString(s, x.next))
  {
  }

  lemma ShortEscapeIs(s: string, i: nat, c: char)
    requires i + 1 < |s| && s[i] == '\\' && s[i + 1] != 'u' && ShortEscape(s[i + 1]) == Some(c)
    ensures Unescape(s, i) == Some(Escaped(c, i + 2, false))
  {
  }

  lemma UnicodeEscapeIs(s: string, i: nat, u: nat)
    requires i + 6 < |s| && s[i] == '\\' && s[i + 1] == 'u' && Hex4(s, i + 2) == Some(u)
    requires !IsHighSurrogate(u) && !IsLowSurrogate(u)
    ensures Unescape(s, i) == Some(Escaped(CharOf(u), i + 6, false))
  {
  }

  lemma ItemsLast(s: string, j: nat, v: Json, e: nat)
    requires ValueReads(s, j, v, e)
    requires e < |s| && s[e] == ']'
    ensures ItemsRead(s, j, [v], e + 1)
  {
    NoSpaceSkipped(s, e);
  }

  lemma ItemsMore(s: string, j: nat, v: Json, e: nat, rest: seq<Json>, e2: nat)
    requires ValueReads(s, j, v, e)
    requires e + 1 < |s| && s[e] == ',' && !IsJsonSpace(s[e + 1])
    requires ItemsRead(s, e + 1, rest, e2)
    ensures ItemsRead(s, j, [v] + rest, e2)
  {
    NoSpaceSkipped(s, e);
    NoSpaceSkipped(s, e + 1);
  }

  lemma ArrayEmpty(s: string, i: nat)
    requires i < |s| && s[i] == ']'
    ensures ParseArray(s, i) == Read(JArr([]), i + 1, false)
  {
    NoSpaceSkipped(s, i);
  }

  lemma ArrayItems(s: string, i: nat, items: seq<Json>, e: nat)
    requires i < |s| && s[i] != ']' && !IsJsonSpace(s[i])
    requires ItemsRead(s, i, items, e)
    ensures ParseArray(s, i) == Read(JArr(items), e, false)
  {
    NoSpaceSkipped(s, i);
  }

  lemma MemberStep(s: string, j: nat, key: string, ke: nat, v: Json, e: nat)
    requires j < |s| && s[j] == '"' && StringReads(s, j + 1, key, ke)
    requires ke + 1 < |s| && s[ke] == ':' && !IsJsonSpace(s[ke + 1])
    requires ValueReads(s, ke + 1, v, e)
    ensures MemberReads(s, j, Member(key, v), e)
  {
    NoSpaceSkipped(s, ke);
    NoSpaceSkipped(s, ke + 1);
  }

  lemma MembersLast(s: string, j: nat, m: Member, e: nat)
    requires MemberReads(s, j, m, e)
    requires e < |s| && s[e] == '}'
    ensures MembersRead(s, j, [m], e + 1)
  {
    NoSpaceSkipped(s, e);
  }

  lemma MembersMore(s: string, j: nat, m: Member, e: nat, rest: seq<Member>, e2: nat)
    requires MemberReads(s, j, m, e)
    requires e + 1 < |s| && s[e] == ',' && !IsJsonSpace(s[e + 1])
    requires MembersRead(s, e + 1, rest, e2)
    ensures MembersRead(s, j, [m] + rest, e2)
  {
    NoSpaceSkipped(s, e);
    NoSpaceSkipped(s, e + 1);
  }

  lemma ObjectEmpty(s: string, i: nat)
    requires i < |s| && s[i] == '}'
    ensures ParseObject(s, i) == Read(JObj([]), i + 1, false)
  {
    NoSpaceSkipped(s, i);
  }

  lemma ObjectMembers(s: string, i: nat, pairs: seq<Member>, e: nat)
    requires i < |s| && s[i] != '}' && !IsJsonSpace(s[i])
    requires MembersRead(s, i, pairs, e)
    ensures ParseObject(s, i) == Read(JObj(DictOf(pairs)), e, false)
  {
    NoSpaceSkipped(s, i);
  }

  lemma ValueString(s: string, i: nat, t: string, e: nat)
    requires i < |s| && s[i] == '"' && StringReads(s, i + 1, t, e)
    ensures ValueReads(s, i, JStr(t), e)
  {
  }

  lemma ValueArray(s: string, i: nat)
    requires i < |s| && s[i] == '['
    ensures ParseValue(s, i) == ParseArray(s, i + 1)
  {
  }

  lemma ValueObject(s: string, i: nat)
    requires i < |s| && s[i] == '{'
    ensures ParseValue(s, i) == ParseObject(s, i + 1)
  {
  }

  lemma NotSpelled(s: string, i: nat, lit: string, k: nat)
    requires k < |lit| && i + k < |s| && s[i + k] != lit[k]
    ensures !SpelledAt(s, i, lit)
  {
    SpelledIsOccurs(s, i, lit);
    if i + |lit| <= |s| {
      assert s[i + k] == s[i..i + |lit|][k];
    }
  }

  lemma ValueNumber(s: string, i: nat)
    requires i < |s| && (IsDigit(s[i]) || (s[i] == '-' && i + 1 < |s| && IsDigit(s[i + 1])))
    ensures ParseValue(s, i) == ParseNumber(s, i)
  {
    if s[i] == '-' {
      NotSpelled(s, i, "-Infinity", 1);
    }
  }

  lemma ValueLiteral(s: string, i: nat, lit: string, v: Json)
    requires (lit, v) == ("null", JNull) || (lit, v) == ("true", JBool(true)) || (lit, v) == ("false", JBool(false))
    requires OccursAt(s, lit, i)
    ensures ValueReads(s, i, v, i + |lit|)
  {
    SpelledIsOccurs(s, i, lit);
    assert s[i] == s[i..i + |lit|][0];
  }

  // ---------------------------------------------------------------------------
  // Reading back
  // ---------------------------------------------------------------------------

  /** A written integer reads back as itself, when a delimiter or the end follows. */
  lemma ReadsInt(n: int, s: string, i: nat)
    requires OccursAt(s, IntToString(n), i) && Delimited(s, i + |IntToString(n)|)
    ensures ParseNumber(s, i) == Read(JInt(n), i + |IntToString(n)|, false)
  {
    var m: nat := if n < 0 then -n else n;
    var d := NatToString(m);
    var j := if n < 0 then i + 1 else i;
    var e := i + |IntToString(n)|;
    if n < 0 {
      OccursSplit(s, "-", d, i);
      OccursChar(s, "-", i, 0);
    }
    assert OccursAt(s, d, j);
    assert e == j + |d|;
    OccursChar(s, d, j, 0);
    assert s[j..e] == d;
    assert j == (if i < |s| && s[i] == '-' then i + 1 else i);
    if d[0] == '0' {
      assert IntegerEnd(s, j) == e;
    } else {
      assert AllOf(s[j..e], IsDigit);
      RunEndIs(s, j, IsDigit, e);
      assert IntegerEnd(s, j) == e;
    }
    assert FractionEnd(s, e) == e;
    assert ExponentEnd(s, e) == e;
    NatToStringValue(m);
  }

  /** A written integer is read as a number by the value scanner. */
  lemma ReadsIntValue(n: int, s: string, i: nat)
    requires OccursAt(s, IntToString(n), i) && Delimited(s, i + |IntToString(n)|)
    ensures ValueReads(s, i, JInt(n), i + |IntToString(n)|)
  {
    var d := NatToString(if n < 0 then -n else n);
    assert d[0] == d[0..1][0];
    if n < 0 {
      OccursSplit(s, "-", d, i);
      OccursChar(s, "-", i, 0);
      OccursChar(s, d, i + 1, 0);
    } else {
      OccursChar(s, d, i, 0);
    }
    ValueNumber(s, i);
    ReadsInt(n, s, i);
  }

  /** Where the pieces of a written string body lie: its first character's spelling, then the rest. */
  lemma EscapeLayout(t: string, s: string, i: nat)
    requires |t| > 0 && OccursAt(s, Escape(t) + "\"", i)
    ensures OccursAt(s, EscapeChar(t[0]), i) && i + |EscapeChar(t[0])| < |s|
    ensures OccursAt(s, Escape(t[1..]) + "\"", i + |EscapeChar(t[0])|)
    ensures |Escape(t)| == |EscapeChar(t[0])| + |Escape(t[1..])|
  {
    var w := EscapeChar(t[0]);
    assert Escape(t) + "\"" == w + (Escape(t[1..]) + "\"");
    SplitBeforeQuote(s, w, Escape(t[1..]), i);
  }

  /** `w`, then `r`, then `"`, at `i`. */
  lemma SplitBeforeQuote(s: string, w: string, r: string, i: nat)
    requires OccursAt(s, w + (r + "\""), i)
    ensures OccursAt(s, w, i) && i + |w| < |s| && OccursAt(s, r + "\"", i + |w|)
  {
    OccursSplit(s, w, r + "\"", i);
  }

  lemma PrependStep(s: string, i: nat, k: nat, t: string, e: nat)
    requires |t| > 0 && i <= |s| && k <= |s|
    requires ParseString(s, i) == Prepend(t[0], false, ParseString(s, k))
    requires StringReads(s, k, t[1..], e)
    ensures StringReads(s, i, t, e)
  {
    assert [t[0]] + t[1..] == t;
  }

  /** A written string body followed by `"` reads back as the string, up to just after the `"` at `e`. */
  lemma {:induction false} ReadsEscaped(t: string, s: string, i: nat, e: nat)
    requires OccursAt(s, Escape(t) + "\"", i) && e == i + |Escape(t)| + 1
    ensures StringReads(s, i, t, e)
    decreases |t|
  {
    if |t| == 0 {
      ReadsClosingQuote(t, s, i, e);
    } else {
      EscapeLayout(t, s, i);
      ReadsEscaped(t[1..], s, i + |EscapeChar(t[0])|, e);
      ReadsEscapedCons(t, s, i, e);
    }
  }

  lemma ReadsClosingQuote(t: string, s: string, i: nat, e: nat)
    requires |t| == 0 && OccursAt(s, Escape(t) + "\"", i) && e == i + |Escape(t)| + 1
    ensures StringReads(s, i, t, e)
  {
    OccursChar(s, Escape(t) + "\"", i, 0);
    StringEnds(s, i);
  }

  /** The first character of a string body, read before the rest. */
  lemma ReadsEscapedCons(t: string, s: string, i: nat, e: nat)
    requires |t| > 0 && OccursAt(s, EscapeChar(t[0]), i) && i + |EscapeChar(t[0])| < |s|
    requires StringReads(s, i + |EscapeChar(t[0])|, t[1..], e)
    ensures StringReads(s, i, t, e)
  {
    ReadsEscapedChar(t[0], s, i);
    PrependStep(s, i, i + |EscapeChar(t[0])|, t, e);
  }

  /** One written character of a string body reads back as the character. */
  lemma ReadsEscapedChar(c: char, s: string, i: nat)
    requires OccursAt(s, EscapeChar(c), i) && i + |EscapeChar(c)| < |s|
    ensures ParseString(s, i) == Prepend(c, false, ParseString(s, i + |EscapeChar(c)|))
  {
    var w := EscapeChar(c);
    OccursChar(s, w, i, 0);
    if c == '"' || c == '\\' {
      OccursChar(s, w, i, 1);
      ShortEscapeIs(s, i, c);
      StringEscape(s, i, Escaped(c, i + 2, false));
    } else if c < ' ' {
      ReadsControl(c, s, i);
      UnicodeEscapeIs(s, i, c as nat);
      StringEscape(s, i, Escaped(c, i + 6, false));
    } else {
      StringPlain(s, i);
    }
  }

  /** The `\u00XX` escape of a control character names that character. */
  lemma ReadsControl(c: char, s: string, i: nat)
    requires c < ' ' && OccursAt(s, EscapeChar(c), i) && i + 6 < |s|
    ensures s[i] == '\\' && s[i + 1] == 'u'
    ensures Hex4(s, i + 2) == Some(c as nat)
    ensures CharOf(c as nat) == c
  {
    var w := EscapeChar(c);
    OccursChar(s, w, i, 0);
    OccursChar(s, w, i, 1);
    OccursChar(s, w, i, 2);
    OccursChar(s, w, i, 3);
    OccursChar(s, w, i, 4);
    OccursChar(s, w, i, 5);
    assert HexValue(s[i + 2]) == 0 && HexValue(s[i + 3]) == 0;
    assert HexValue(s[i + 4]) == c as nat / 16;
    assert HexValue(s[i + 5]) == c as nat % 16;
  }

  /**
   * A written value reads back as itself when a delimiter or the end of the
   * text follows it.
   */
  lemma {:induction false} ReadsEncoded(v: Json, s: string, i: nat, e: nat)
    requires Encodable(v) && OccursAt(s, Encode(v), i) && e == i + |Encode(v)| && Delimited(s, e)
    ensures ValueReads(s, i, v, e)
    decreases v, 0
  {
    match v
    case JNull => ValueLiteral(s, i, "null", JNull);
    case JBool(b) => if b { ValueLiteral(s, i, "true", v); } else { ValueLiteral(s, i, "false", v); }
    case JInt(n) => ReadsIntValue(n, s, i);
    case JStr(t) =>
      assert Encode(v) == ['"'] + (Escape(t) + "\"");
      StartLayout(s, '"', Escape(t) + "\"", i);
      ReadsEscaped(t, s, i + 1, e);
      ValueString(s, i, t, e);
    case JArr(items) =>
      assert Encode(v) == "[" + (EncodeItems(items) + "]");
      ReadsArray(items, s, i, e);
    case JObj(entries) =>
      assert Encode(v) == "{" + (EncodeMembers(entries) + "}");
      ReadsObject(entries, s, i, e);
  }

  lemma {:induction false} ReadsArray(items: seq<Json>, s: string, i: nat, e: nat)
    requires forall k :: 0 <= k < |items| ==> Encodable(items[k])
    requires OccursAt(s, "[" + (EncodeItems(items) + "]"), i) && e == i + |EncodeItems(items)| + 2
    ensures ValueReads(s, i, JArr(items), e)
    decreases items, 1
  {
    ArrayLayout(items, s, i);
    ValueArray(s, i);
    if |items| == 0 {
      ArrayEmpty(s, i + 1);
    } else {
      ReadsItems(items, s, i + 1, e);
      ArrayItems(s, i + 1, items, e);
    }
  }

  /** Where the pieces of a written array lie. */
  lemma ArrayLayout(items: seq<Json>, s: string, i: nat)
    requires forall k :: 0 <= k < |items| ==> Encodable(items[k])
    requires OccursAt(s, "[" + (EncodeItems(items) + "]"), i)
    ensures i + 1 < |s| && s[i] == '[' && OccursAt(s, EncodeItems(items) + "]", i + 1)
    ensures |items| == 0 ==> s[i + 1] == ']'
    ensures |items| > 0 ==> Opens(s[i + 1])
  {
    var body := EncodeItems(items) + "]";
    StartLayout(s, '[', body, i);
    OccursChar(s, body, i + 1, 0);
    if |items| > 0 {
      EncodeItemsOpens(items);
    }
  }

  lemma EncodeItemsOne(items: seq<Json>)
    requires |items| == 1
    ensures EncodeItems(items) + "]" == Encode(items[0]) + "]"
  {
  }

  lemma EncodeItemsCons(items: seq<Json>)
    requires |items| > 1
    ensures EncodeItems(items) + "]" == Encode(items[0]) + ("," + (EncodeItems(items[1..]) + "]"))
    ensures |EncodeItems(items)| == |Encode(items[0])| + 1 + |EncodeItems(items[1..])|
  {
    Regroup(Encode(items[0]), ',', EncodeItems(items[1..]), ']');
  }

  lemma {:induction false} ReadsItems(items: seq<Json>, s: string, j: nat, e: nat)
    requires |items| > 0 && forall k :: 0 <= k < |items| ==> Encodable(items[k])
    requires OccursAt(s, EncodeItems(items) + "]", j) && e == j + |EncodeItems(items)| + 1
    ensures ItemsRead(s, j, items, e)
    decreases items, 0
  {
    var x := items[0];
    if |items| == 1 {
      var d := ItemsLastLayout(items, s, j, e);
      ReadsEncoded(x, s, j, d);
      ItemsLast(s, j, x, d);
      assert items == [x];
    } else {
      var rest := items[1..];
      var d := ItemsMoreLayout(items, s, j, e);
      ReadsEncoded(x, s, j, d);
      ReadsItems(rest, s, d + 1, e);
      ItemsMore(s, j, x, d, rest, e);
      assert [x] + rest == items;
    }
  }

  /** Where the only item of a written array body lies: it ends at `d`, just before the `]`. */
  lemma ItemsLastLayout(items: seq<Json>, s: string, j: nat, e: nat) returns (d: nat)
    requires |items| == 1
    requires OccursAt(s, EncodeItems(items) + "]", j) && e == j + |EncodeItems(items)| + 1
    ensures OccursAt(s, Encode(items[0]), j) && d == j + |Encode(items[0])|
    ensures d < |s| && s[d] == ']' && Delimited(s, d) && e == d + 1
  {
    d := j + |Encode(items[0])|;
    EncodeItemsOne(items);
    EndLayout(s, Encode(items[0]), ']', j);
  }

  /** Where the first item of a longer written array body lies: it ends at `d`, at the `,`. */
  lemma ItemsMoreLayout(items: seq<Json>, s: string, j: nat, e: nat) returns (d: nat)
    requires |items| > 1 && forall k :: 0 <= k < |items| ==> Encodable(items[k])
    requires OccursAt(s, EncodeItems(items) + "]", j) && e == j + |EncodeItems(items)| + 1
    ensures OccursAt(s, Encode(items[0]), j) && d == j + |Encode(items[0])|
    ensures d + 1 < |s| && s[d] == ',' && Delimited(s, d) && Opens(s[d + 1])
    ensures OccursAt(s, EncodeItems(items[1..]) + "]", d + 1) && e == d + 1 + |EncodeItems(items[1..])| + 1
  {
    var rest := items[1..];
    d := j + |Encode(items[0])|;
    EncodeItemsCons(items);
    SepLayout(s, Encode(items[0]), ',', EncodeItems(rest) + "]", j);
    EncodeItemsOpens(rest);
    OccursChar(s, EncodeItems(rest) + "]", d + 1, 0);
  }

  lemma {:induction false} ReadsObject(entries: seq<Member>, s: string, i: nat, e: nat)
    requires DistinctKeys(entries) && forall k :: 0 <= k < |entries| ==> Encodable(entries[k].value)
    requires OccursAt(s, "{" + (EncodeMembers(entries) + "}"), i) && e == i + |EncodeMembers(entries)| + 2
    ensures ValueReads(s, i, JObj(entries), e)
    decreases entries, 1
  {
    ObjectLayout(entries, s, i);
    ValueObject(s, i);
    if |entries| == 0 {
      ObjectEmpty(s, i + 1);
    } else {
      ReadsMembers(entries, s, i + 1, e);
      ObjectMembers(s, i + 1, entries, e);
      DictOfDistinct(entries);
    }
  }

  /** Where the pieces of a written object lie. */
  lemma ObjectLayout(entries: seq<Member>, s: string, i: nat)
    requires OccursAt(s, "{" + (EncodeMembers(entries) + "}"), i)
    ensures i + 1 < |s| && s[i] == '{' && OccursAt(s, EncodeMembers(entries) + "}", i + 1)
    ensures |entries| == 0 ==> s[i + 1] == '}'
    ensures |entries| > 0 ==> s[i + 1] == '"'
  {
    var body := EncodeMembers(entries) + "}";
    StartLayout(s, '{', body, i);
    OccursChar(s, body, i + 1, 0);
    if |entries| > 0 {
      MembersOpen(entries);
    }
  }

  lemma MembersOpen(entries: seq<Member>)
    requires |entries| > 0
    ensures |EncodeMembers(entries)| > 0 && EncodeMembers(entries)[0] == '"'
  {
    assert EncodeMember(entries[0])[0] == '"';
  }

  lemma EncodeMembersOne(entries: seq<Member>)
    requires |entries| == 1
    ensures EncodeMembers(entries) + "}" == EncodeMember(entries[0]) + "}"
  {
  }

  lemma EncodeMembersCons(entries: seq<Member>)
    requires |entries| > 1
    ensures EncodeMembers(entries) + "}" == EncodeMember(entries[0]) + ("," + (EncodeMembers(entries[1..]) + "}"))
    ensures |EncodeMembers(entries)| == |EncodeMember(entries[0])| + 1 + |EncodeMembers(entries[1..])|
  {
    Regroup(EncodeMember(entries[0]), ',', EncodeMembers(entries[1..]), '}');
  }

  lemma {:induction false} ReadsMembers(entries: seq<Member>, s: string, j: nat, e: nat)
    requires |entries| > 0 && forall k :: 0 <= k < |entries| ==> Encodable(entries[k].value)
    requires OccursAt(s, EncodeMembers(entries) + "}", j) && e == j + |EncodeMembers(entries)| + 1
    ensures MembersRead(s, j, entries, e)
    decreases entries, 0
  {
    var m := entries[0];
    if |entries| == 1 {
      var d := MembersLastLayout(entries, s, j, e);
      ReadsMember(m, s, j, d);
      MembersLast(s, j, m, d);
      assert entries == [m];
    } else {
      var rest := entries[1..];
      var d := MembersMoreLayout(entries, s, j, e);
      ReadsMember(m, s, j, d);
      ReadsMembers(rest, s, d + 1, e);
      MembersMore(s, j, m, d, rest, e);
      assert [m] + rest == entries;
    }
  }

  /** Where the only member of a written object body lies: it ends at `d`, just before the `}`. */
  lemma MembersLastLayout(entries: seq<Member>, s: string, j: nat, e: nat) returns (d: nat)
    requires |entries| == 1
    requires OccursAt(s, EncodeMembers(entries) + "}", j) && e == j + |EncodeMembers(entries)| + 1
    ensures OccursAt(s, EncodeMember(entries[0]), j) && d == j + |EncodeMember(entries[0])|
    ensures d < |s| && s[d] == '}' && e == d + 1
  {
    d := j + |EncodeMember(entries[0])|;
    EncodeMembersOne(entries);
    EndLayout(s, EncodeMember(entries[0]), '}', j);
  }

  /** Where the first member of a longer written object body lies: it ends at `d`, at the `,`. */
  lemma MembersMoreLayout(entries: seq<Member>, s: string, j: nat, e: nat) returns (d: nat)
    requires |entries| > 1
    requires OccursAt(s, EncodeMembers(entries) + "}", j) && e == j + |EncodeMembers(entries)| + 1
    ensures OccursAt(s, EncodeMember(entries[0]), j) && d == j + |EncodeMember(entries[0])|
    ensures d + 1 < |s| && s[d] == ',' && s[d + 1] == '"'
    ensures OccursAt(s, EncodeMembers(entries[1..]) + "}", d + 1) && e == d + 1 + |EncodeMembers(entries[1..])| + 1
  {
    var rest := entries[1..];
    d := j + |EncodeMember(entries[0])|;
    EncodeMembersCons(entries);
    SepLayout(s, EncodeMember(entries[0]), ',', EncodeMembers(rest) + "}", j);
    MembersOpen(rest);
    OccursChar(s, EncodeMembers(rest) + "}", d + 1, 0);
  }

  lemma EncodeMemberIs(m: Member)
    ensures EncodeMember(m) == ['"'] + (Escape(m.key) + "\"") + ([':'] + Encode(m.value))
    ensures |Quote(m.key)| == |Escape(m.key)| + 2
  {
  }

  /** Where the quoted key of a written member lies, and where the `:` and the value start. */
  lemma MemberKeyLayout(m: Member, s: string, j: nat) returns (c: nat)
    requires OccursAt(s, EncodeMember(m), j)
    ensures j < |s| && s[j] == '"' && OccursAt(s, Escape(m.key) + "\"", j + 1)
    ensures c == j + 1 + |Escape(m.key)| + 1
    ensures OccursAt(s, [':'] + Encode(m.value), c) && j + |EncodeMember(m)| == c + 1 + |Encode(m.value)|
  {
    var q := Escape(m.key) + "\"";
    c := j + |Quote(m.key)|;
    EncodeMemberIs(m);
    OccursSplit(s, ['"'] + q, [':'] + Encode(m.value), j);
    StartLayout(s, '"', q, j);
  }

  /** The `:` at `c`, then the written value, which ends at the delimiter `e`. */
  lemma MemberValueLayout(v: Json, s: string, c: nat, e: nat)
    requires Encodable(v) && OccursAt(s, [':'] + Encode(v), c) && e == c + 1 + |Encode(v)|
    requires e < |s| && (s[e] == ',' || s[e] == '}')
    ensures c + 1 < |s| && s[c] == ':' && !IsJsonSpace(s[c + 1]) && OccursAt(s, Encode(v), c + 1)
    ensures Delimited(s, e)
  {
    StartLayout(s, ':', Encode(v), c);
    EncodeOpens(v);
    OccursChar(s, Encode(v), c + 1, 0);
  }

  /** One written member: its key, the `:` and its value read back, up to the delimiter at `e`. */
  lemma {:induction false} ReadsMember(m: Member, s: string, j: nat, e: nat)
    requires Encodable(m.value) && OccursAt(s, EncodeMember(m), j) && e == j + |EncodeMember(m)|
    requires e < |s| && (s[e] == ',' || s[e] == '}')
    ensures MemberReads(s, j, m, e)
    decreases m, 1
  {
    var c := MemberKeyLayout(m, s, j);
    MemberValueLayout(m.value, s, c, e);
    ReadsMemberAt(m, s, j, c, e);
  }

  /** A member whose key ends before the `:` at `c` and whose value is written from `c + 1` to `e`. */
  lemma {:induction false} ReadsMemberAt(m: Member, s: string, j: nat, c: nat, e: nat)
    requires j < |s| && s[j] == '"' && OccursAt(s, Escape(m.key) + "\"", j + 1)
    requires c == j + 1 + |Escape(m.key)| + 1
    requires c + 1 < |s| && s[c] == ':' && !IsJsonSpace(s[c + 1])
    requires Encodable(m.value) && OccursAt(s, Encode(m.value), c + 1)
    requires e == c + 1 + |Encode(m.value)| && Delimited(s, e)
    ensures MemberReads(s, j, m, e)
    decreases m, 0
  {
    assert ParseValue(s, c + 1) == Read(m.value, e, false) by {
      ReadsEncoded(m.value, s, c + 1, e);
    }
    ReadsKeyThenValue(m, s, j, c, e);
  }

  /** The quoted key at `j` and the `:` at `c`, followed by a value read up to `e`, read as the member. */
  lemma ReadsKeyThenValue(m: Member, s: string, j: nat, c: nat, e: nat)
    requires j < |s| && s[j] == '"' && OccursAt(s, Escape(m.key) + "\"", j + 1)
    requires c == j + 1 + |Escape(m.key)| + 1
    requires c + 1 < |s| && s[c] == ':' && !IsJsonSpace(s[c + 1])
    requires ParseValue(s, c + 1) == Read(m.value, e, false)
    ensures MemberReads(s, j, m, e)
  {
    ReadsEscaped(m.key, s, j + 1, c);
    MemberStep(s, j, m.key, c, m.value, e);
  }

  // ---------------------------------------------------------------------------
  // Objects
  // ---------------------------------------------------------------------------

  lemma {:induction false} PutFresh(entries: seq<Member>, key: string, value: Json)
    requires forall k :: 0 <= k < |entries| ==> entries[k].key != key
    ensures Put(entries, key, value) == entries + [Member(key, value)]
    decreases |entries|
  {
    if |entries| > 0 {
      PutFresh(entries[1..], key, value);
      assert entries == [entries[0]] + entries[1..];
    }
  }

  /** An object whose keys are all different is kept as it is. */
  lemma {:induction false} DictOfDistinct(pairs: seq<Member>)
    requires DistinctKeys(pairs)
    ensures DictOf(pairs) == pairs
    decreases |pairs|
  {
    if |pairs| > 0 {
      var init, last := pairs[..|pairs| - 1], pairs[|pairs| - 1];
      assert DistinctKeys(init) by {
        forall a, b | 0 <= a < b < |init|
          ensures init[a].key != init[b].key
        {
          assert init[a] == pairs[a] && init[b] == pairs[b];
        }
      }
      DictOfDistinct(init);
      forall k | 0 <= k < |init|
        ensures init[k].key != last.key
      {
        assert init[k] == pairs[k];
      }
      PutFresh(init, last.key, last.value);
      assert init + [last] == pairs;
    }
  }

  // ---------------------------------------------------------------------------
  // The round trip
  // ---------------------------------------------------------------------------

  /** `json.loads` reads back every written value. */
  lemma LoadsEncoded(v: Json)
    requires Encodable(v)
    ensures Loads(Encode(v)) == Loaded(v)
  {
    var s := Encode(v);
    EncodeOpens(v);
    NoSpaceSkipped(s, 0);
    assert OccursAt(s, s, 0);
    ReadsEncoded(v, s, 0, |s|);
    NoSpaceSkipped(s, |s|);
  }

  // ---------------------------------------------------------------------------
  // A repeated key drops the earlier value together with its lone surrogate
  // ---------------------------------------------------------------------------

  /** A member with whatever lone-surrogate flags its key and value carry. */
  lemma FlaggedMemberStep(s: string, j: nat, key: string, ke: nat, kl: bool, v: Json, e: nat, l: bool)
    requires j < |s| && s[j] == '"' && ParseString(s, j + 1) == Read(key, ke, kl)
    requires ke + 1 < |s| && s[ke] == ':' && !IsJsonSpace(s[ke + 1])
    requires ParseValue(s, ke + 1) == Read(v, e, l)
    ensures ParseMember(s, j) == Read(Keyed(Member(key, v), kl), e, l)
  {
    NoSpaceSkipped(s, ke);
    NoSpaceSkipped(s, ke + 1);
  }

  /** A member followed by `,` and more members, one of which repeats its key: the member's value flag drops out. */
  lemma RepeatedMembersMore(s: string, j: nat, m: Member, e: nat, rest: seq<Member>, e2: nat)
    requires j <= |s| && ParseMember(s, j) == Read(Keyed(m, false), e, true)
    requires e + 1 < |s| && s[e] == ',' && !IsJsonSpace(s[e + 1])
    requires ParseMembers(s, e + 1) == Read(rest, e2, false) && HasKey(rest, m.key)
    ensures ParseMembers(s, j) == Read([m] + rest, e2, false)
  {
    NoSpaceSkipped(s, e);
    NoSpaceSkipped(s, e + 1);
    assert ParseMembers(s, SkipSpace(s, e + 1)) == Read(rest, e2, false);
  }

  /** `{"a":"\ud800","a":1}`: the first value holds a lone surrogate, the second replaces it. */
  const RepeatedKeyText: string := "{\"a\":\"\\ud800\",\"a\":1}"

  /** `s` spells `RepeatedKeyText`, character by character. */
  predicate SpellsRepeatedKey(s: string) {
    |s| == 20 && s[0] == '{' && s[1] == '"' && s[2] == 'a' && s[3] == '"' && s[4] == ':'
    && s[5] == '"' && s[6] == '\\' && s[7] == 'u' && s[8] == 'd' && s[9] == '8' && s[10] == '0'
    && s[11] == '0' && s[12] == '"' && s[13] == ',' && s[14] == '"' && s[15] == 'a' && s[16] == '"'
    && s[17] == ':' && s[18] == '1' && s[19] == '}'
  }

  lemma RepeatedKeyTextSpells()
    ensures SpellsRepeatedKey(RepeatedKeyText)
  {
  }

  lemma RepeatedKeyLoneValue(s: string)
    requires SpellsRepeatedKey(s)
    ensures |s| == 20
    ensures ParseValue(s, 5) == Read(JStr("\U{FFFD}"), 13, true)
  {
    assert Hex4(s, 8) == Some(0xD800) by {
      assert s[8] == 'd' && s[9] == '8' && s[10] == '0' && s[11] == '0';
      assert HexValue('d') == 13 && HexValue('8') == 8 && HexValue('0') == 0;
    }
    assert Unescape(s, 6) == Some(Escaped('\U{FFFD}', 12, true));
    assert ParseString(s, 12) == Read("", 13, false);
    assert ['\U{FFFD}'] + "" == "\U{FFFD}";
    assert ParseString(s, 6) == Read("\U{FFFD}", 13, true);
  }

  lemma RepeatedKeyKey(s: string, j: nat)
    requires SpellsRepeatedKey(s) && (j == 2 || j == 15)
    ensures |s| == 20
    ensures ParseString(s, j) == Read("a", j + 2, false)
  {
    assert s[j] == 'a' && s[j + 1] == '"';
    assert ParseString(s, j + 1) == Read("", j + 2, false);
    assert ['a'] + "" == "a";
  }

  lemma RepeatedKeyNumber(s: string)
    requires SpellsRepeatedKey(s)
    ensures |s| == 20
    ensures ParseNumber(s, 18) == Read(JInt(1), 19, false)
  {
    assert s[18] == '1' && s[19] == '}';
    assert RunEnd(s, 19, IsDigit) == 19;
    assert RunEnd(s, 18, IsDigit) == 19;
    assert IntegerEnd(s, 18) == 19;
    assert FractionEnd(s, 19) == 19 && ExponentEnd(s, 19) == 19;
    assert s[18..19] == "1" && DigitsValue("1") == 1;
  }

  lemma RepeatedKeyLastMember(s: string)
    requires SpellsRepeatedKey(s)
    ensures |s| == 20
    ensures ParseMembers(s, 14) == Read([Member("a", JInt(1))], 20, false)
  {
    RepeatedKeyKey(s, 15);
    RepeatedKeyNumber(s);
    assert ParseValue(s, 18) == Read(JInt(1), 19, false) by {
      assert s[18] == '1';
    }
    FlaggedMemberStep(s, 14, "a", 17, false, JInt(1), 19, false);
    assert MemberReads(s, 14, Member("a", JInt(1)), 19);
    MembersLast(s, 14, Member("a", JInt(1)), 19);
  }

  lemma RepeatedKeyFirstMember(s: string)
    requires SpellsRepeatedKey(s)
    ensures |s| == 20
    ensures ParseMember(s, 1) == Read(Keyed(Member("a", JStr("\U{FFFD}")), false), 13, true)
  {
    assert |s| == 20 && s[1] == '"' && s[4] == ':' && !IsJsonSpace(s[5]);
    assert ParseString(s, 2) == Read("a", 4, false) by {
      RepeatedKeyKey(s, 2);
    }
    assert ParseValue(s, 5) == Read(JStr("\U{FFFD}"), 13, true) by {
      RepeatedKeyLoneValue(s);
    }
    FlaggedMemberStep(s, 1, "a", 4, false, JStr("\U{FFFD}"), 13, true);
  }

  lemma RepeatedKeyMembers(s: string)
    requires SpellsRepeatedKey(s)
    ensures |s| == 20
    ensures ParseMembers(s, 1) == Read([Member("a", JStr("\U{FFFD}")), Member("a", JInt(1))], 20, false)
  {
    var first := Member("a", JStr("\U{FFFD}"));
    var rest := [Member("a", JInt(1))];
    RepeatedKeyFirstMember(s);
    RepeatedKeyLastMember(s);
    assert HasKey(rest, first.key) by {
      assert rest[0].key == "a";
    }
    assert s[13] == ',' && !IsJsonSpace(s[14]);
    RepeatedMembersMore(s, 1, first, 13, rest, 20);
    assert [first] + rest == [first, Member("a", JInt(1))];
  }

  lemma RepeatedKeyDict()
    ensures DictOf([Member("a", JStr("\U{FFFD}")), Member("a", JInt(1))]) == [Member("a", JInt(1))]
  {
    var pairs := [Member("a", JStr("\U{FFFD}")), Member("a", JInt(1))];
    assert pairs[..1][..0] == [];
    assert DictOf(pairs[..1]) == [pairs[0]];
  }

  /**
   * A repeated key drops the earlier value, so a lone surrogate in that
   * value does not reach the result: the text loads as `{"a": 1}`.
   */
  lemma RepeatedKeyDropsLoneValue(s: string)
    requires SpellsRepeatedKey(s)
    ensures Loads(s) == Loaded(JObj([Member("a", JInt(1))]))
  {
    RepeatedKeyMembers(s);
    RepeatedKeyDict();
    NoSpaceSkipped(s, 1);
    assert ParseObject(s, 1) == Read(JObj([Member("a", JInt(1))]), 20, false);
    NoSpaceSkipped(s, 0);
    NoSpaceSkipped(s, 20);
  }

  /** `json.loads` of the text itself: `{"a": 1}`, with no lone surrogate reported. */
  lemma RepeatedKeyLoads()
    ensures Loads(RepeatedKeyText) == Loaded(JObj([Member("a", JInt(1))]))
  {
    RepeatedKeyTextSpells();
    RepeatedKeyDropsLoneValue(RepeatedKeyText);
  }
}

=== FILE: literals.dfy ===
/**
 * `create_const_value_recursive` and the value half of `create_constant`: a
 * constant's value text becomes a tree of literal expressions. A string is
 * decoded as JSON first and kept as it is when it is not JSON; scalars become
 * constant values, objects structure expressions and lists array expressions,
 * which carry a table only when the expected type is a Table.
 */
module Literals {
  import opened Wrappers
  import opened Text
  import opened Json
  import opened JsonRoundTrip
  import opened Types

  /** The expression a value compiles to. A float keeps the text `float()` read. */
  datatype Literal =
    | Const(text: string)
    | FloatConst(raw: string)
    | Struct(fields: seq<Field>)
    | Array(table: Option<TableSig>, items: seq<Literal>)

  /** One labelled expression of a structure. */
  datatype Field = Field(key: string, flow: Literal)

  /** The table of an array expression: its element type and its size as text. */
  datatype TableSig = TableSig(elem: Ty, size: string)

  /**
   * The expected type of the items of a list, when the list's own expected
   * type is a Table. `getDefinedType()` on a Table is read as the element type
   * the Table was built with (`setType`); both are foreign getters.
   */
  function ElementType(t: Option<Ty>): (e: Option<Ty>)
    ensures e.Some? <==> t.Some? && t.value.Table?
    ensures e.Some? ==> Depth(e.value) + 1 == Depth(t.value)
  {
    if t.Some? && t.value.Table? then Some(t.value.elem) else None
  }

  /**
   * The table an array expression gets for `count` elements under expected
   * type `t`: one exactly when `t` is a Table, with `t`'s element type and the
   * element count as its size; the size `t` declares is not consulted.
   */
  function TableFor(t: Option<Ty>, count: nat): (r: Option<TableSig>)
    ensures r.Some? <==> t.Some? && t.value.Table?
    ensures r.Some? ==> r.value.elem == t.value.elem
    ensures r.Some? ==> Canonical(r.value.size) && DigitsValue(r.value.size) == count
  {
    NatToStringValue(count);
    if t.Some? && t.value.Table? then Some(TableSig(t.value.elem, NatToString(count))) else None
  }

  /** A value as `create_const_value_recursive` meets it: a string is a value text, to be decoded first. */
  function CompileValue(v: Json, t: Option<Ty>): (r: Option<Literal>)
    ensures !v.JStr? && !v.JArr? && !v.JObj? ==> r.Some? && (r.value.Const? || r.value.FloatConst?)
    decreases MaxStr(v), v, 2, 0
  {
    if v.JStr? then CompileText(v.s, t) else CompileParsed(v, t)
  }

  /**
   * A value text: decoded as JSON and compiled, or kept verbatim as one
   * constant value when it is not JSON. `None` stands for a text whose
   * decoding holds a lone surrogate, which this model cannot carry on with.
   */
  function CompileText(s: string, t: Option<Ty>): (r: Option<Literal>)
    decreases |s|, JStr(s), 1, 1
  {
    match Loads(s)
    case DecodeError => Some(Const(s))
    case LoneSurrogate => None
    case Loaded(w) => CompileParsed(w, t)
  }

  /** A value already decoded: the part of `create_const_value_recursive` after `json.loads`. */
  function CompileParsed(w: Json, t: Option<Ty>): (r: Option<Literal>)
    ensures !w.JArr? && !w.JObj? ==> r.Some? && !r.value.Struct? && !r.value.Array?
    ensures r.Some? && r.value.Struct? ==> w.JObj? && |r.value.fields| == |w.entries|
    ensures r.Some? && r.value.Array? ==> w.JArr? && |r.value.items| == |w.items|
    decreases MaxStr(w), w, 1, 0
  {
    match w
    case JStr(s) => Some(Const(s))
    case JBool(b) => Some(Const(if b then "true" else "false"))
    case JInt(i) => Some(Const(IntToString(i)))
    case JFloat(raw) => Some(FloatConst(raw))
    case JNull => Some(Const("None"))
    case JObj(entries) =>
      (match CompileFieldsFrom(w, 0)
       case None => None
       case Some(fields) => Some(Struct(fields)))
    case JArr(items) =>
      (match CompileItemsFrom(w, 0, ElementType(t))
       case None => None
       case Some(ls) => Some(Array(TableFor(t, |items|), ls)))
  }

  /** The entries of object `w` from position `k` on, each compiled with no expected type. */
  function CompileFieldsFrom(w: Json, k: nat): (r: Option<seq<Field>>)
    requires w.JObj? && k <= |w.entries|
    ensures r.Some? ==> |r.value| == |w.entries| - k
    decreases MaxStr(w), w, 0, |w.entries| - k
  {
    if k == |w.entries| then Some([])
    else
      MaxOfEntriesBounds(w.entries, k);
      match CompileValue(w.entries[k].value, None)
      case None => None
      case Some(flow) =>
        match CompileFieldsFrom(w, k + 1)
        case None => None
        case Some(rest) => Some([Field(w.entries[k].key, flow)] + rest)
  }

  /** The items of list `w` from position `k` on, each compiled with expected type `elem`. */
  function CompileItemsFrom(w: Json, k: nat, elem: Option<Ty>): (r: Option<seq<Literal>>)
    requires w.JArr? && k <= |w.items|
    ensures r.Some? ==> |r.value| == |w.items| - k
    decreases MaxStr(w), w, 0, |w.items| - k
  {
    if k == |w.items| then Some([])
    else
      MaxOfItemsBounds(w.items, k);
      match CompileValue(w.items[k], elem)
      case None => None
      case Some(item) =>
        match CompileItemsFrom(w, k + 1, elem)
        case None => None
        case Some(rest) => Some([item] + rest)
  }

  /**
   * `create_const_value_recursive(value, create_type_from_string(type_name))`
   * as `create_constant` calls it on the constant's value text.
   */
  function CompileConstant(text: string, typeName: string, directory: set<string>): (r: Option<Literal>)
    ensures Loads(text).DecodeError? ==> r == Some(Const(text))
    ensures Loads(text).LoneSurrogate? ==> r.None?
  {
    CompileText(text, Some(TypeFromString(typeName, directory)))
  }

  // ---------------------------------------------------------------------------
  // Lists and objects: one compiled expression per item, in order
  // ---------------------------------------------------------------------------

  /** The items from `k` on compile one by one and in order; the list fails exactly when one item does. */
  lemma {:induction false} ItemsCompiled(w: Json, k: nat, elem: Option<Ty>)
    requires w.JArr? && k <= |w.items|
    ensures CompileItemsFrom(w, k, elem).Some? <==>
              forall j :: k <= j < |w.items| ==> CompileValue(w.items[j], elem).Some?
    ensures CompileItemsFrom(w, k, elem).Some? ==>
              forall j :: k <= j < |w.items| ==> CompileValue(w.items[j], elem) == Some(CompileItemsFrom(w, k, elem).value[j - k])
    decreases |w.items| - k
  {
    if k < |w.items| {
      ItemsCompiled(w, k + 1, elem);
      var r := CompileItemsFrom(w, k, elem);
      var head := CompileValue(w.items[k], elem);
      var rest := CompileItemsFrom(w, k + 1, elem);
      assert r == if head.None? || rest.None? then None else Some([head.value] + rest.value);
      if r.Some? {
        forall j | k < j < |w.items|
          ensures CompileValue(w.items[j], elem) == Some(r.value[j - k])
        {
          assert r.value[j - k] == rest.value[j - (k + 1)];
        }
      }
    }
  }

  /** One entry more: the value at `k` compiles, then the entries after it. */
  lemma FieldsStep(w: Json, k: nat)
    requires w.JObj? && k < |w.entries|
    ensures var head := CompileValue(w.entries[k].value, None);
            var rest := CompileFieldsFrom(w, k + 1);
            CompileFieldsFrom(w, k) == if head.None? || rest.None? then None else Some([Field(w.entries[k].key, head.value)] + rest.value)
  {
  }

  /** The entries from `k` on compile exactly when every value among them compiles, with no expected type. */
  lemma {:induction false} FieldsFail(w: Json, k: nat)
    requires w.JObj? && k <= |w.entries|
    ensures CompileFieldsFrom(w, k).Some? <==>
              forall j :: k <= j < |w.entries| ==> CompileValue(w.entries[j].value, None).Some?
    decreases |w.entries| - k
  {
    if k < |w.entries| {
      FieldsFail(w, k + 1);
      FieldsStep(w, k);
      ghost var n := |w.entries|;
      assert (forall j :: k <= j < n ==> CompileValue(w.entries[j].value, None).Some?) <==>
             CompileValue(w.entries[k].value, None).Some? && forall j :: k + 1 <= j < n ==> CompileValue(w.entries[j].value, None).Some?;
    }
  }

  /** The entries from `k` on compile one by one and in order, each value with no expected type. */
  lemma {:induction false} FieldsCompiled(w: Json, k: nat)
    requires w.JObj? && k <= |w.entries|
    requires CompileFieldsFrom(w, k).Some?
    ensures forall j :: k <= j < |w.entries| ==>
              && CompileFieldsFrom(w, k).value[j - k].key == w.entries[j].key
              && CompileValue(w.entries[j].value, None) == Some(CompileFieldsFrom(w, k).value[j - k].flow)
    decreases |w.entries| - k
  {
    if k < |w.entries| {
      var r := CompileFieldsFrom(w, k);
      var rest := CompileFieldsFrom(w, k + 1);
      var head := CompileValue(w.entries[k].value, None);
      assert head.Some? && rest.Some? && r.value == [Field(w.entries[k].key, head.value)] + rest.value by {
        FieldsStep(w, k);
      }
      FieldsCompiled(w, k + 1);
      forall j | k <= j < |w.entries|
        ensures r.value[j - k].key == w.entries[j].key
        ensures CompileValue(w.entries[j].value, None) == Some(r.value[j - k].flow)
      {
        if j == k {
          assert r.value[0] == Field(w.entries[k].key, head.value);
        } else {
          assert r.value[j - k] == rest.value[j - (k + 1)];
        }
      }
    }
  }

  /**
   * A list becomes an array expression with one item per element, in order,
   * each compiled with the element type of a Table, and carries the table
   * `TableFor` gives its length.
   */
  lemma ListCompiles(items: seq<Json>, t: Option<Ty>)
    ensures var r := CompileParsed(JArr(items), t);
            && (r.Some? <==> forall k :: 0 <= k < |items| ==> CompileValue(items[k], ElementType(t)).Some?)
            && (r.Some? ==>
                  && r.value.Array?
                  && |r.value.items| == |items|
                  && (forall k :: 0 <= k < |items| ==> CompileValue(items[k], ElementType(t)) == Some(r.value.items[k]))
                  && r.value.table == TableFor(t, |items|))
  {
    var ls := CompileItemsFrom(JArr(items), 0, ElementType(t));
    assert CompileParsed(JArr(items), t) == if ls.None? then None else Some(Array(TableFor(t, |items|), ls.value));
    ItemsCompiled(JArr(items), 0, ElementType(t));
  }

  /**
   * An object becomes a structure expression with one labelled expression per
   * key, in the object's order, labelled by the key and holding the value
   * compiled with no expected type.
   */
  lemma ObjectCompiles(entries: seq<Member>, t: Option<Ty>)
    ensures var r := CompileParsed(JObj(entries), t);
            && (r.Some? <==> forall k :: 0 <= k < |entries| ==> CompileValue(entries[k].value, None).Some?)
            && (r.Some? ==>
                  && r.value.Struct?
                  && |r.value.fields| == |entries|
                  && forall k :: 0 <= k < |entries| ==>
                       && r.value.fields[k].key == entries[k].key
                       && CompileValue(entries[k].value, None) == Some(r.value.fields[k].flow))
  {
    var w := JObj(entries);
    var fs := CompileFieldsFrom(w, 0);
    assert CompileParsed(w, t) == if fs.None? then None else Some(Struct(fs.value));
    assert fs.Some? <==> forall k :: 0 <= k < |entries| ==> CompileValue(entries[k].value, None).Some? by {
      FieldsFail(w, 0);
    }
    if fs.Some? {
      assert forall k :: 0 <= k < |entries| ==>
               && fs.value[k].key == entries[k].key
               && CompileValue(entries[k].value, None) == Some(fs.value[k].flow) by {
        FieldsCompiled(w, 0);
      }
    }
  }

  /** Only a list reads its expected type: any other value compiles the same under every type. */
  lemma TypeOnlyShapesLists(w: Json, t: Option<Ty>)
    requires !w.JArr?
    ensures CompileParsed(w, t) == CompileParsed(w, None)
  {
  }

  /**
   * Scalars become constant values: a boolean in lower case, an integer in
   * decimal that reads back as the integer, a string as its characters, and
   * `null` as Python's `None`.
   */
  lemma ScalarCompiles(w: Json, t: Option<Ty>)
    requires !w.JArr? && !w.JObj? && !w.JFloat?
    ensures CompileParsed(w, t).Some? && CompileParsed(w, t).value.Const?
    ensures var text := CompileParsed(w, t).value.text;
            && (w.JBool? ==> (text == "true" || text == "false") && (text == "true" <==> w.b))
            && (w.JInt? && w.i >= 0 ==> Canonical(text) && DigitsValue(text) == w.i)
            && (w.JInt? && w.i < 0 ==> text[0] == '-' && Canonical(text[1..]) && DigitsValue(text[1..]) == -w.i)
            && (w.JStr? ==> text == w.s)
            && (w.JNull? ==> text == "None")
  {
    if w.JInt? {
      if w.i >= 0 {
        NatToStringValue(w.i);
      } else {
        NatToStringValue(-w.i);
        assert IntToString(w.i)[1..] == NatToString(-w.i);
      }
    }
  }

  // ---------------------------------------------------------------------------
  // Value texts
  // ---------------------------------------------------------------------------

  /** A text that is not JSON is kept verbatim as one constant value, under any expected type. */
  lemma NotJsonKeptVerbatim(s: string, t: Option<Ty>)
    requires Loads(s).DecodeError?
    ensures CompileText(s, t) == Some(Const(s))
  {
  }

  /** Compiling the JSON text of a value compiles the value itself: the text is decoded back to it first. */
  lemma CompileWritten(v: Json, t: Option<Ty>)
    requires Encodable(v)
    ensures CompileText(Encode(v), t) == CompileParsed(v, t)
  {
    LoadsEncoded(v);
  }

  /**
   * The value of a constant whose text is a list carries a table exactly
   * when its type name has at least one `^` size; the table's element type
   * is the constant's type less its outermost size, with the same base, and
   * its size is the list's length.
   */
  lemma ConstantTableFollowsTypeName(text: string, typeName: string, directory: set<string>, items: seq<Json>)
    requires Loads(text) == Loaded(JArr(items))
    requires CompileConstant(text, typeName, directory).Some?
    ensures var r := CompileConstant(text, typeName, directory).value;
            var segments := Split(typeName, "^");
            && r.Array? && |r.items| == |items|
            && (r.table.Some? <==> |segments| > 1)
            && (r.table.Some? ==>
                  && Depth(r.table.value.elem) == |segments| - 2
                  && BaseOf(r.table.value.elem) == FindType(directory, segments[0])
                  && Canonical(r.table.value.size) && DigitsValue(r.table.value.size) == |items|)
  {
    var ty := TypeFromString(typeName, directory);
    ListCompiles(items, Some(ty));
  }
}

=== FILE: mapfold_line.dfy ===
/**
 * `parse_mapfoldwi_expression`: a line `outs = (mapfoldwi A Op <<S>> if c)(args)`
 * becomes an `Iterate` descriptor, and a line it cannot read raises `ValueError`.
 *
 * The operator part is found with `re.search` of
 *   `\((mapfoldwi)\s+(\d+)\s+([a-zA-Z0-9_]+)\s+<<\s*(\d+)\s*>>\s+if\s+([a-zA-Z0-9_]+)\)`
 * and the argument list, independently, with `re.search` of `\)\s*\((.*?)\)`.
 * Both searches run over the stripped right-hand side.
 */
module MapfoldLine {
  import opened Wrappers
  import opened Text
  import opened Exceptions
  import opened Pattern
  import opened ExprLine

  /** The operator part; pieces 2, 4, 8 and 14 are groups 2 to 5 of the regular expression. */
  const OpPattern: seq<Piece> := [
    Lit("(mapfoldwi"), Run(IsSpace, true),
    Run(IsDigit, true), Run(IsSpace, true),
    Run(IsWordChar, true), Run(IsSpace, true),
    Lit("<<"), Run(IsSpace, false), Run(IsDigit, true), Run(IsSpace, false), Lit(">>"),
    Run(IsSpace, true), Lit("if"), Run(IsSpace, true),
    Run(IsWordChar, true), Lit(")")
  ]

  /**
   * `.*?` before `\)` stops at the first `)`, and `.` never crosses a newline,
   * so the lazy group is exactly the longest run of characters that are
   * neither `)` nor a newline.
   */
  predicate IsLazyArgChar(c: char) {
    c != ')' && c != '\n'
  }

  /** The argument part; piece 3 is the argument group. */
  const InputPattern: seq<Piece> := [
    Lit(")"), Run(IsSpace, false), Lit("("), Run(IsLazyArgChar, false), Lit(")")
  ]

  lemma ClassesApart(c: char)
    ensures IsSpace(c) ==> !IsDigit(c) && !IsWordChar(c) && c != '<' && c != '>' && c != 'i'
    ensures IsDigit(c) ==> !IsSpace(c) && c != '>'
    ensures IsWordChar(c) ==> !IsSpace(c) && c != ')'
  {
  }

  lemma OpSuffix12()
    ensures Deterministic(OpPattern[12..])
    ensures forall c :: CanStart(OpPattern[12..], c) <==> c == 'i'
    ensures Consumes(OpPattern[12..])
  {
    var ps := OpPattern;
    SuffixStep(ps, 15);
    assert ps[16..] == [];
    SuffixStep(ps, 14);
    forall c ensures IsWordChar(c) ==> !CanStart(ps[15..], c) { ClassesApart(c); StartStep(ps, 15, c); }
    SuffixStep(ps, 13);
    forall c ensures IsSpace(c) ==> !CanStart(ps[14..], c) { ClassesApart(c); StartStep(ps, 14, c); }
    SuffixStep(ps, 12);
    forall c ensures CanStart(ps[12..], c) <==> c == 'i' { StartStep(ps, 12, c); }
  }

  lemma OpSuffix10()
    ensures Deterministic(OpPattern[10..])
    ensures forall c :: CanStart(OpPattern[10..], c) <==> c == '>'
    ensures Consumes(OpPattern[10..])
  {
    var ps := OpPattern;
    OpSuffix12();
    SuffixStep(ps, 11);
    forall c ensures IsSpace(c) ==> !CanStart(ps[12..], c) { ClassesApart(c); StartStep(ps, 12, c); }
    SuffixStep(ps, 10);
    forall c ensures CanStart(ps[10..], c) <==> c == '>' { StartStep(ps, 10, c); }
  }

  lemma OpSuffix8()
    ensures Deterministic(OpPattern[8..])
    ensures forall c :: CanStart(OpPattern[8..], c) <==> IsDigit(c)
    ensures Consumes(OpPattern[8..])
  {
    var ps := OpPattern;
    OpSuffix10();
    SuffixStep(ps, 9);
    forall c ensures IsSpace(c) ==> !CanStart(ps[10..], c) { ClassesApart(c); }
    SuffixStep(ps, 8);
    forall c ensures IsDigit(c) ==> !CanStart(ps[9..], c) { ClassesApart(c); StartStep(ps, 9, c); }
    forall c ensures CanStart(ps[8..], c) <==> IsDigit(c) { StartStep(ps, 8, c); }
  }

  lemma OpSuffix6()
    ensures Deterministic(OpPattern[6..])
    ensures forall c :: CanStart(OpPattern[6..], c) <==> c == '<'
    ensures Consumes(OpPattern[6..])
  {
    var ps := OpPattern;
    OpSuffix8();
    SuffixStep(ps, 7);
    forall c ensures IsSpace(c) ==> !CanStart(ps[8..], c) { ClassesApart(c); }
    SuffixStep(ps, 6);
    forall c ensures CanStart(ps[6..], c) <==> c == '<' { StartStep(ps, 6, c); }
  }

  lemma OpSuffix4()
    ensures Deterministic(OpPattern[4..])
    ensures forall c :: CanStart(OpPattern[4..], c) <==> IsWordChar(c)
    ensures Consumes(OpPattern[4..])
  {
    var ps := OpPattern;
    OpSuffix6();
    SuffixStep(ps, 5);
    forall c ensures IsSpace(c) ==> !CanStart(ps[6..], c) { ClassesApart(c); }
    SuffixStep(ps, 4);
    forall c ensures IsWordChar(c) ==> !CanStart(ps[5..], c) { ClassesApart(c); StartStep(ps, 5, c); }
    forall c ensures CanStart(ps[4..], c) <==> IsWordChar(c) { StartStep(ps, 4, c); }
  }

  lemma OpPatternDeterministic()
    ensures Deterministic(OpPattern)
  {
    var ps := OpPattern;
    OpSuffix4();
    SuffixStep(ps, 3);
    forall c ensures IsSpace(c) ==> !CanStart(ps[4..], c) { ClassesApart(c); StartStep(ps, 4, c); }
    SuffixStep(ps, 2);
    forall c ensures IsDigit(c) ==> !CanStart(ps[3..], c) { ClassesApart(c); StartStep(ps, 3, c); }
    SuffixStep(ps, 1);
    forall c ensures IsSpace(c) ==> !CanStart(ps[2..], c) { ClassesApart(c); StartStep(ps, 2, c); }
    SuffixStep(ps, 0);
    assert ps[0..] == ps;
  }

  lemma InputPatternDeterministic()
    ensures Deterministic(InputPattern)
  {
    var ps := InputPattern;
    assert Deterministic(ps[4..]);
    assert Deterministic(ps[3..]);
    assert Deterministic(ps[2..]);
    assert Deterministic(ps[1..]);
  }

  // ---------------------------------------------------------------------------
  // The parser
  // ---------------------------------------------------------------------------

  /** The descriptor read from a right side where both parts were found. */
  function IterateOf(outputs: seq<string>, right: string, op: Found, args: Found): (d: Descriptor)
    requires Fits(right, OpPattern, op.start, op.ends)
    requires Fits(right, InputPattern, args.start, args.ends)
    ensures d.Iterate? && d.outputs == outputs && |d.inputs| >= 1
    ensures |d.accumulators| > 0 && AllOf(d.accumulators, IsDigit)
    ensures |d.size| > 0 && AllOf(d.size, IsDigit)
    ensures |d.subOperator| > 0 && AllOf(d.subOperator, IsWordChar)
    ensures |d.condition| > 0 && AllOf(d.condition, IsWordChar)
  {
    GroupClasses(right, op);
    Iterate(
      outputs,
      GroupOf(right, OpPattern, op.start, op.ends, 4),
      GroupOf(right, OpPattern, op.start, op.ends, 2),
      GroupOf(right, OpPattern, op.start, op.ends, 8),
      GroupOf(right, OpPattern, op.start, op.ends, 14),
      StripEach(Split(GroupOf(right, InputPattern, args.start, args.ends, 3), ",")))
  }

  /** Groups 2 and 4 are digit strings; groups 3 and 5 are identifiers. */
  lemma GroupClasses(right: string, op: Found)
    requires Fits(right, OpPattern, op.start, op.ends)
    ensures var g := GroupOf(right, OpPattern, op.start, op.ends, 2); |g| > 0 && AllOf(g, IsDigit)
    ensures var g := GroupOf(right, OpPattern, op.start, op.ends, 8); |g| > 0 && AllOf(g, IsDigit)
    ensures var g := GroupOf(right, OpPattern, op.start, op.ends, 4); |g| > 0 && AllOf(g, IsWordChar)
    ensures var g := GroupOf(right, OpPattern, op.start, op.ends, 14); |g| > 0 && AllOf(g, IsWordChar)
  {
    assert OpPattern[2] == Run(IsDigit, true) && OpPattern[8] == Run(IsDigit, true);
    assert OpPattern[4] == Run(IsWordChar, true) && OpPattern[14] == Run(IsWordChar, true);
  }

  /**
   * `parse_mapfoldwi_expression`: split on `=` into exactly two sides, read the
   * outputs from the stripped left side, then search the stripped right side
   * for the operator part and, separately, for the argument list.
   */
  function ParseMapfoldwi(line: string): (r: Result<Descriptor, Exc>)
    ensures r.Err? ==> r.error.ValueError?
    ensures r.Ok? ==> r.value.Iterate? && |r.value.outputs| >= 1 && |r.value.inputs| >= 1
    ensures r.Ok? ==> |r.value.accumulators| > 0 && AllOf(r.value.accumulators, IsDigit)
    ensures r.Ok? ==> |r.value.size| > 0 && AllOf(r.value.size, IsDigit)
    ensures r.Ok? ==> |r.value.subOperator| > 0 && AllOf(r.value.subOperator, IsWordChar)
    ensures r.Ok? ==> |r.value.condition| > 0 && AllOf(r.value.condition, IsWordChar)
  {
    var sides := Split(line, "=");
    if |sides| != 2 then Err(ValueError(NotOneEquals))
    else
      var left, right := Strip(sides[0]), Strip(sides[1]);
      match Search(right, OpPattern, 0)
      case None => Err(ValueError(OperatorPartUnmatched))
      case Some(op) =>
        match Search(right, InputPattern, 0)
        case None => Err(ValueError(InputsPartUnmatched))
        case Some(args) => Ok(IterateOf(StripEach(Split(left, ",")), right, op, args))
  }

  /** The line must contain exactly one `=`. */
  lemma EqualsCountRule(line: string)
    ensures ParseMapfoldwi(line) == Err(ValueError(NotOneEquals)) <==> multiset(line)['='] != 1
  {
    SplitCount(line, '=');
  }

  /** A line with one `=` splits into the text before and after it. */
  lemma SidesOfEquals(x: string, y: string)
    requires '=' !in x && '=' !in y
    ensures Split(x + "=" + y, "=") == [x, y]
  {
    assert Join([x, y], "=") == x + "=" + y by {
      assert [x, y][1..] == [y];
    }
    JoinThenSplit([x, y], '=');
  }

  /** With one `=`, the operator part must occur in the stripped right side. */
  lemma OperatorPartRule(x: string, y: string)
    requires '=' !in x && '=' !in y
    ensures ParseMapfoldwi(x + "=" + y) == Err(ValueError(OperatorPartUnmatched))
            <==> !Matches(Strip(y), OpPattern)
  {
    SidesOfEquals(x, y);
    OpPatternDeterministic();
    SearchIsLeftmost(Strip(y), OpPattern);
  }

  /** With one `=` and an operator part, the argument list must occur in the stripped right side. */
  lemma InputsPartRule(x: string, y: string)
    requires '=' !in x && '=' !in y
    ensures ParseMapfoldwi(x + "=" + y) == Err(ValueError(InputsPartUnmatched))
            <==> Matches(Strip(y), OpPattern) && !Matches(Strip(y), InputPattern)
  {
    SidesOfEquals(x, y);
    OpPatternDeterministic();
    InputPatternDeterministic();
    SearchIsLeftmost(Strip(y), OpPattern);
    SearchIsLeftmost(Strip(y), InputPattern);
  }

  // ---------------------------------------------------------------------------
  // Reading back a well-formed line
  // ---------------------------------------------------------------------------

  /** The operator part spelled with single spaces, one text per piece of the pattern. */
  function OpChunks(acc: string, sub: string, size: string, cond: string): (cs: seq<string>)
    ensures |cs| == 16
    ensures cs[2] == acc && cs[4] == sub && cs[8] == size && cs[14] == cond
  {
    ["(mapfoldwi", " ", acc, " "] + [sub, " ", "<<", ""] + [size, "", ">>", " "] + ["if", " ", cond, ")"]
  }

  predicate IsNotClose(c: char) {
    c != ')'
  }

  predicate IsNotEquals(c: char) {
    c != '='
  }

  /** The operator-part pieces of well-formed groups fit the pattern, and only the last holds a `)`. */
  lemma OpChunksFit(acc: string, sub: string, size: string, cond: string)
    requires |acc| > 0 && AllOf(acc, IsDigit) && |size| > 0 && AllOf(size, IsDigit)
    requires |sub| > 0 && AllOf(sub, IsWordChar) && |cond| > 0 && AllOf(cond, IsWordChar)
    ensures ChunksFit(OpChunks(acc, sub, size, cond), OpPattern)
    ensures forall k :: 0 <= k < 15 ==> AllOf(OpChunks(acc, sub, size, cond)[k], IsNotClose)
    ensures forall k :: 0 <= k < 16 ==> AllOf(OpChunks(acc, sub, size, cond)[k], IsNotEquals)
  {
    var cs := OpChunks(acc, sub, size, cond);
    forall k | 0 <= k < 16
      ensures PieceFits(cs[k], OpPattern[k])
      ensures k < 15 ==> AllOf(cs[k], IsNotClose)
      ensures AllOf(cs[k], IsNotEquals)
    {
      ChunkFits(acc, sub, size, cond, k);
    }
  }

  lemma ChunkFits(acc: string, sub: string, size: string, cond: string, k: nat)
    requires |acc| > 0 && AllOf(acc, IsDigit) && |size| > 0 && AllOf(size, IsDigit)
    requires |sub| > 0 && AllOf(sub, IsWordChar) && |cond| > 0 && AllOf(cond, IsWordChar)
    requires k < 16
    ensures PieceFits(OpChunks(acc, sub, size, cond)[k], OpPattern[k])
    ensures k < 15 ==> AllOf(OpChunks(acc, sub, size, cond)[k], IsNotClose)
    ensures AllOf(OpChunks(acc, sub, size, cond)[k], IsNotEquals)
  {
    var c := OpChunks(acc, sub, size, cond)[k];
    forall j | 0 <= j < |c|
      ensures c[j] != ')' || k == 15
      ensures c[j] != '='
    {
    }
  }

  /** `(mapfoldwi A Op <<S>> if c)` */
  function OpText(acc: string, sub: string, size: string, cond: string): string {
    Concat(OpChunks(acc, sub, size, cond))
  }

  /** `(mapfoldwi A Op <<S>> if c)(args)` */
  function RightSide(acc: string, sub: string, size: string, cond: string, args: string): string {
    OpText(acc, sub, size, cond) + "(" + args + ")"
  }

  /** The argument part, one text per piece of its pattern. */
  function InputChunks(args: string): (cs: seq<string>) {
    [")", "", "(", args, ")"]
  }

  /** Where the two parts sit in the right side `OpText + "(" + args + ")"`. */
  lemma RightSideLayout(acc: string, sub: string, size: string, cond: string, args: string)
    returns (right: string, pre: string)
    requires |acc| > 0 && AllOf(acc, IsDigit) && |size| > 0 && AllOf(size, IsDigit)
    requires |sub| > 0 && AllOf(sub, IsWordChar) && |cond| > 0 && AllOf(cond, IsWordChar)
    requires AllOf(args, IsNotEquals)
    ensures right == RightSide(acc, sub, size, cond, args)
    ensures right == pre + Concat(InputChunks(args))
    ensures |OpText(acc, sub, size, cond)| <= |right|
    ensures right[0..|OpText(acc, sub, size, cond)|] == OpText(acc, sub, size, cond)
    ensures |pre| + |Concat(InputChunks(args))| == |right|
    ensures right[|pre|..|pre| + |Concat(InputChunks(args))|] == Concat(InputChunks(args))
    ensures AllOf(pre, IsNotClose)
    ensures AllOf(right, IsNotEquals)
    ensures Trimmed(right)
  {
    var cs := OpChunks(acc, sub, size, cond);
    var op := Concat(cs);
    right := op + "(" + args + ")";
    pre := OpTextEnds(acc, sub, size, cond);
    ConcatFive(")", "", "(", args, ")");
    assert right == pre + Concat(InputChunks(args));
    assert right[0..|op|] == op;
    ConcatAllOf(cs, IsNotEquals);
    ConcatFour(op, "(", args, ")");
    ConcatAllOf([op, "(", args, ")"], IsNotEquals);
    assert op[0] == '(';
  }

  /** The operator part ends with its only `)`. */
  lemma OpTextEnds(acc: string, sub: string, size: string, cond: string) returns (pre: string)
    requires |acc| > 0 && AllOf(acc, IsDigit) && |size| > 0 && AllOf(size, IsDigit)
    requires |sub| > 0 && AllOf(sub, IsWordChar) && |cond| > 0 && AllOf(cond, IsWordChar)
    ensures OpText(acc, sub, size, cond) == pre + ")"
    ensures AllOf(pre, IsNotClose)
    ensures ChunksFit(OpChunks(acc, sub, size, cond), OpPattern)
    ensures forall k :: 0 <= k < 16 ==> AllOf(OpChunks(acc, sub, size, cond)[k], IsNotEquals)
    ensures OpText(acc, sub, size, cond)[0] == '('
  {
    var cs := OpChunks(acc, sub, size, cond);
    pre := Concat(cs[..15]);
    OpChunksFit(acc, sub, size, cond);
    assert cs == cs[..15] + [")"];
    ConcatAppend(cs[..15], [")"]);
    assert Concat([")"]) == ")";
    ConcatAllOf(cs[..15], IsNotClose);
    assert Concat(cs) == "(mapfoldwi" + Concat(cs[1..]);
  }

  lemma ConcatFour(a: string, b: string, c: string, d: string)
    ensures Concat([a, b, c, d]) == a + b + c + d
  {
    assert [a, b, c, d][1..] == [b, c, d];
    assert [b, c, d][1..] == [c, d];
    assert [c, d][1..] == [d];
    assert [d][1..] == [];
    assert Concat([d]) == d;
    assert Concat([c, d]) == c + d;
    assert Concat([b, c, d]) == b + (c + d);
    assert Concat([a, b, c, d]) == a + (b + (c + d));
  }

  lemma ConcatFive(a: string, b: string, c: string, d: string, e: string)
    ensures Concat([a, b, c, d, e]) == a + b + c + d + e
  {
    assert [a, b, c, d, e][1..] == [b, c, d, e];
    ConcatFour(b, c, d, e);
  }

  /** Text that begins with chunks fitting the operator pattern is found at the start. */
  lemma OpFoundAtStart(right: string, cs: seq<string>)
    requires ChunksFit(cs, OpPattern)
    requires |Concat(cs)| <= |right| && right[0..|Concat(cs)|] == Concat(cs)
    ensures Search(right, OpPattern, 0) == Some(Found(0, Ends(0, cs)))
    ensures Fits(right, OpPattern, 0, Ends(0, cs))
    ensures forall i :: 0 <= i < 16 ==> GroupOf(right, OpPattern, 0, Ends(0, cs), i) == cs[i]
  {
    ChunksGiveFit(right, 0, cs, OpPattern);
    OpPatternDeterministic();
    SearchFinds(right, OpPattern, 0, Ends(0, cs));
  }

  /** The operator part at the start of the right side is what the search reports, group by group. */
  lemma OpPartFound(right: string, acc: string, sub: string, size: string, cond: string)
    requires |acc| > 0 && AllOf(acc, IsDigit) && |size| > 0 && AllOf(size, IsDigit)
    requires |sub| > 0 && AllOf(sub, IsWordChar) && |cond| > 0 && AllOf(cond, IsWordChar)
    requires |OpText(acc, sub, size, cond)| <= |right|
    requires right[0..|OpText(acc, sub, size, cond)|] == OpText(acc, sub, size, cond)
    ensures Search(right, OpPattern, 0).Some?
    ensures var f := Search(right, OpPattern, 0).value;
      && Fits(right, OpPattern, f.start, f.ends)
      && GroupOf(right, OpPattern, f.start, f.ends, 2) == acc
      && GroupOf(right, OpPattern, f.start, f.ends, 4) == sub
      && GroupOf(right, OpPattern, f.start, f.ends, 8) == size
      && GroupOf(right, OpPattern, f.start, f.ends, 14) == cond
  {
    var cs := OpChunks(acc, sub, size, cond);
    var _ := OpTextEnds(acc, sub, size, cond);
    OpFoundAtStart(right, cs);
  }

  /** The first `)(` of the right side opens the argument list the search reports. */
  lemma InputPartFound(right: string, pre: string, args: string)
    requires AllOf(args, IsLazyArgChar) && AllOf(pre, IsNotClose)
    requires right == pre + Concat(InputChunks(args))
    ensures Search(right, InputPattern, 0).Some?
    ensures var f := Search(right, InputPattern, 0).value;
      Fits(right, InputPattern, f.start, f.ends) && GroupOf(right, InputPattern, f.start, f.ends, 3) == args
  {
    var cs := InputChunks(args);
    assert ChunksFit(cs, InputPattern);
    assert right[|pre|..|pre| + |Concat(cs)|] == Concat(cs);
    ChunksGiveFit(right, |pre|, cs, InputPattern);
    forall q: nat, e | q < |pre|
      ensures !Fits(right, InputPattern, q, e)
    {
      assert right[q] == pre[q];
      if q < |right| && |e| > 0 && q <= e[0] <= |right| {
        assert right[q..e[0]] != ")" by {
          if |right[q..e[0]]| > 0 {
            assert right[q..e[0]][0] == right[q];
          }
        }
      }
    }
    InputPatternDeterministic();
    SearchFinds(right, InputPattern, |pre|, Ends(|pre|, cs));
  }

  /** With one `=` and both parts found by `Search`, the descriptor is read from the stripped right side. */
  lemma ParseOfFound(x: string, y: string, op: Found, args: Found)
    requires '=' !in x && '=' !in y
    requires Search(Strip(y), OpPattern, 0) == Some(op)
    requires Search(Strip(y), InputPattern, 0) == Some(args)
    ensures Fits(Strip(y), OpPattern, op.start, op.ends)
    ensures Fits(Strip(y), InputPattern, args.start, args.ends)
    ensures ParseMapfoldwi(x + "=" + y) == Ok(IterateOf(StripEach(Split(Strip(x), ",")), Strip(y), op, args))
  {
    SidesOfEquals(x, y);
  }

  /** `f` is a match of the pattern in `s` and no match starts before it, as `re.search` reports. */
  ghost predicate LeftmostFit(s: string, ps: seq<Piece>, f: Found) {
    && f.start <= |s| && Fits(s, ps, f.start, f.ends)
    && forall q: nat, ends :: q < f.start ==> !Fits(s, ps, q, ends)
  }

  /** The leftmost match of a deterministic pattern is the one `Search` reports. */
  lemma LeftmostIsSearched(s: string, ps: seq<Piece>, f: Found)
    requires Deterministic(ps) && LeftmostFit(s, ps, f)
    ensures Search(s, ps, 0) == Some(f)
  {
    SearchIsLeftmost(s, ps);
    var g := Search(s, ps, 0).value;
    assert g.start == f.start;
    MatchUnique(s, ps, f.start, f.ends, g.ends);
  }

  /**
   * With one `=`, given the leftmost operator part and the leftmost argument
   * list of the stripped right side, the descriptor is: the stripped pieces of
   * the stripped left side split on `,`; groups 3, 2, 4 and 5 of the operator
   * part; and the stripped pieces of the argument list split on `,`.
   */
  lemma ParseOfSides(x: string, y: string, op: Found, args: Found)
    requires '=' !in x && '=' !in y
    requires LeftmostFit(Strip(y), OpPattern, op) && LeftmostFit(Strip(y), InputPattern, args)
    ensures ParseMapfoldwi(x + "=" + y)
            == Ok(Iterate(StripEach(Split(Strip(x), ",")),
                          GroupOf(Strip(y), OpPattern, op.start, op.ends, 4),
                          GroupOf(Strip(y), OpPattern, op.start, op.ends, 2),
                          GroupOf(Strip(y), OpPattern, op.start, op.ends, 8),
                          GroupOf(Strip(y), OpPattern, op.start, op.ends, 14),
                          StripEach(Split(GroupOf(Strip(y), InputPattern, args.start, args.ends, 3), ","))))
  {
    OpPatternDeterministic();
    InputPatternDeterministic();
    LeftmostIsSearched(Strip(y), OpPattern, op);
    LeftmostIsSearched(Strip(y), InputPattern, args);
    ParseOfFound(x, y, op, args);
  }

  /** The descriptor holds the groups as they were matched. */
  lemma IterateOfGroups(outputs: seq<string>, right: string, op: Found, args: Found,
                        acc: string, sub: string, size: string, cond: string, a: string)
    requires Fits(right, OpPattern, op.start, op.ends)
    requires Fits(right, InputPattern, args.start, args.ends)
    requires GroupOf(right, OpPattern, op.start, op.ends, 2) == acc
    requires GroupOf(right, OpPattern, op.start, op.ends, 4) == sub
    requires GroupOf(right, OpPattern, op.start, op.ends, 8) == size
    requires GroupOf(right, OpPattern, op.start, op.ends, 14) == cond
    requires GroupOf(right, InputPattern, args.start, args.ends, 3) == a
    ensures IterateOf(outputs, right, op, args) == Iterate(outputs, sub, acc, size, cond, StripEach(Split(a, ",")))
  {
  }

  /**
   * A line `x = sp(mapfoldwi A Op <<S>> if c)(args)` with one `=` reads back as
   * its outputs, groups and arguments.
   */
  lemma ParseMapfoldLayout(x: string, sp: string, acc: string, sub: string, size: string, cond: string, args: string)
    requires '=' !in x && AllOf(sp, IsSpace)
    requires |acc| > 0 && AllOf(acc, IsDigit) && |size| > 0 && AllOf(size, IsDigit)
    requires |sub| > 0 && AllOf(sub, IsWordChar) && |cond| > 0 && AllOf(cond, IsWordChar)
    requires AllOf(args, IsLazyArgChar) && '=' !in args
    ensures ParseMapfoldwi(x + "=" + sp + RightSide(acc, sub, size, cond, args))
            == Ok(Iterate(StripEach(Split(Strip(x), ",")), sub, acc, size, cond, StripEach(Split(args, ","))))
  {
    assert AllOf(args, IsNotEquals);
    var right, pre := RightSideLayout(acc, sub, size, cond, args);
    var y := SpacedRight(sp, right);
    Regroup(x + "=", sp, right);
    OpPartFound(right, acc, sub, size, cond);
    InputPartFound(right, pre, args);
    var op, found := Search(right, OpPattern, 0).value, Search(right, InputPattern, 0).value;
    ParseOfFound(x, y, op, found);
    IterateOfGroups(StripEach(Split(Strip(x), ",")), right, op, found, acc, sub, size, cond, args);
  }

  /** Spaces before a trimmed right side without `=` are stripped again. */
  lemma SpacedRight(sp: string, right: string) returns (y: string)
    requires AllOf(sp, IsSpace) && Trimmed(right) && AllOf(right, IsNotEquals)
    ensures y == sp + right && '=' !in y && Strip(y) == right
  {
    y := sp + right;
    ConcatFour(sp, right, "", "");
    assert AllOf(sp, IsNotEquals);
    ConcatAllOf([sp, right, "", ""], IsNotEquals);
    assert sp + right + "" == y;
    StripOfPadded(sp, right, "");
  }

  lemma Regroup(a: string, b: string, c: string)
    ensures a + b + c == a + (b + c)
  {
  }

  /** The example from the parser's own documentation. */
  lemma ParseDocumentedExample()
    ensures ParseMapfoldwi("_L4, _L5, _L6, _L7 = (mapfoldwi 2 Operator2 <<5>> if _L1)(_L2, _L3)")
            == Ok(Iterate(["_L4", "_L5", "_L6", "_L7"], "Operator2", "2", "5", "_L1", ["_L2", "_L3"]))
  {
    ExampleClasses();
    ExampleText();
    ParseMapfoldLayout("_L4, _L5, _L6, _L7 ", " ", "2", "Operator2", "5", "_L1", "_L2, _L3");
    ExampleOutputs();
    ExampleInputs();
  }

  lemma ExampleClasses()
    ensures '=' !in "_L4, _L5, _L6, _L7 " && AllOf(" ", IsSpace)
    ensures AllOf("2", IsDigit) && AllOf("5", IsDigit)
    ensures AllOf("Operator2", IsWordChar) && AllOf("_L1", IsWordChar)
    ensures AllOf("_L2, _L3", IsLazyArgChar) && '=' !in "_L2, _L3"
  {
  }

  lemma ExampleText()
    ensures "_L4, _L5, _L6, _L7 " + "=" + " " + RightSide("2", "Operator2", "5", "_L1", "_L2, _L3")
            == "_L4, _L5, _L6, _L7 = (mapfoldwi 2 Operator2 <<5>> if _L1)(_L2, _L3)"
  {
    var t := "(mapfoldwi 2 Operator2 <<5>> if _L1)";
    ExampleOpText();
    SpliceRight("_L4, _L5, _L6, _L7 ", " ", t, "_L2, _L3");
    ExampleLeftOfOp();
    ExampleWithArgs();
  }

  /** Moves the operator text next to the left side, leaving the argument list at the end. */
  lemma SpliceRight(x: string, sp: string, t: string, args: string)
    ensures x + "=" + sp + (t + "(" + args + ")") == (x + "=" + sp + t) + ("(" + args + ")")
  {
  }

  lemma ExampleLeftOfOp()
    ensures "_L4, _L5, _L6, _L7 " + "=" + " " + "(mapfoldwi 2 Operator2 <<5>> if _L1)"
            == "_L4, _L5, _L6, _L7 = (mapfoldwi 2 Operator2 <<5>> if _L1)"
  {
    var p := "_L4, _L5, _L6, _L7 " + "=" + " ";
    assert p == "_L4, _L5, _L6, _L7 = ";
    ExampleOpHalves();
    ExampleLeftOfOpHead();
    ExampleLeftOfOpTail();
    SpliceRight(p, "", "(mapfoldwi 2 Operator2", " <<5>> if _L1");
  }

  lemma ExampleOpHalves()
    ensures "(mapfoldwi 2 Operator2" + " <<5>> if _L1" == "(mapfoldwi 2 Operator2 <<5>> if _L1"
  {
  }

  lemma ExampleLeftOfOpHead()
    ensures "_L4, _L5, _L6, _L7 = " + "(mapfoldwi 2 Operator2" == "_L4, _L5, _L6, _L7 = (mapfoldwi 2 Operator2"
  {
  }

  lemma ExampleLeftOfOpTail()
    ensures "_L4, _L5, _L6, _L7 = (mapfoldwi 2 Operator2" + " <<5>> if _L1)"
            == "_L4, _L5, _L6, _L7 = (mapfoldwi 2 Operator2 <<5>> if _L1)"
  {
  }

  lemma ExampleWithArgs()
    ensures "_L4, _L5, _L6, _L7 = (mapfoldwi 2 Operator2 <<5>> if _L1)" + ("(" + "_L2, _L3" + ")")
            == "_L4, _L5, _L6, _L7 = (mapfoldwi 2 Operator2 <<5>> if _L1)(_L2, _L3)"
  {
    assert "(" + "_L2, _L3" + ")" == "(_L2, _L3)";
  }

  lemma ExampleOpText()
    ensures OpText("2", "Operator2", "5", "_L1") == "(mapfoldwi 2 Operator2 <<5>> if _L1)"
  {
    OpTextSpelled("2", "Operator2", "5", "_L1");
  }

  /** The operator part written out. */
  lemma OpTextSpelled(acc: string, sub: string, size: string, cond: string)
    ensures OpText(acc, sub, size, cond)
            == "(mapfoldwi " + acc + " " + sub + " <<" + size + ">> if " + cond + ")"
  {
    var q0, q1 := ["(mapfoldwi", " ", acc, " "], [sub, " ", "<<", ""];
    var q2, q3 := [size, "", ">>", " "], ["if", " ", cond, ")"];
    ConcatAppend(q0 + q1 + q2, q3);
    ConcatAppend(q0 + q1, q2);
    ConcatAppend(q0, q1);
    ConcatFour("(mapfoldwi", " ", acc, " ");
    ConcatFour(sub, " ", "<<", "");
    ConcatFour(size, "", ">>", " ");
    ConcatFour("if", " ", cond, ")");
  }

  lemma ExampleOutputs()
    ensures StripEach(Split(Strip("_L4, _L5, _L6, _L7 "), ",")) == ["_L4", "_L5", "_L6", "_L7"]
  {
    ExampleLeftStrip();
    ExampleLeftSplit();
    ExampleOutputPieces();
  }

  lemma ExampleOutputPieces()
    ensures StripEach(["_L4", " _L5", " _L6", " _L7"]) == ["_L4", "_L5", "_L6", "_L7"]
  {
    StripTrimmed("_L4");
    ExampleStripLeading("_L5");
    ExampleStripLeading("_L6");
    ExampleStripLeading("_L7");
    assert " " + "_L5" == " _L5" && " " + "_L6" == " _L6" && " " + "_L7" == " _L7";
    StripEachIs(["_L4", " _L5", " _L6", " _L7"], ["_L4", "_L5", "_L6", "_L7"]);
  }

  lemma ExampleLeftStrip()
    ensures Strip("_L4, _L5, _L6, _L7 ") == "_L4, _L5, _L6, _L7"
  {
    StripTrailing("_L4, _L5, _L6, _L7");
    assert "_L4, _L5, _L6, _L7" + " " == "_L4, _L5, _L6, _L7 ";
  }

  lemma ExampleLeftSplit()
    ensures Split("_L4, _L5, _L6, _L7", ",") == ["_L4", " _L5", " _L6", " _L7"]
  {
    var pieces := ["_L4", " _L5", " _L6", " _L7"];
    assert Join(pieces, ",") == "_L4, _L5, _L6, _L7" by {
      assert pieces[1..] == [" _L5", " _L6", " _L7"];
      assert pieces[1..][1..] == [" _L6", " _L7"];
      assert pieces[1..][1..][1..] == [" _L7"];
    }
    JoinThenSplit(pieces, ',');
  }

  lemma ExampleStripLeading(name: string)
    requires Trimmed(name)
    ensures Strip(" " + name) == name
  {
    StripLeading(name);
  }

  lemma ExampleInputs()
    ensures StripEach(Split("_L2, _L3", ",")) == ["_L2", "_L3"]
  {
    ExampleArgsSplit();
    StripTrimmed("_L2");
    ExampleStripLeading("_L3");
    assert " " + "_L3" == " _L3";
    StripEachIs(["_L2", " _L3"], ["_L2", "_L3"]);
  }

  lemma ExampleArgsSplit()
    ensures Split("_L2, _L3", ",") == ["_L2", " _L3"]
  {
    assert Join(["_L2", " _L3"], ",") == "_L2, _L3" by {
      assert ["_L2", " _L3"][1..] == [" _L3"];
    }
    JoinThenSplit(["_L2", " _L3"], ',');
  }
}

=== FILE: pattern.dfy ===
/**
 * Regular expressions without alternation or backtracking: a sequence of
 * literal texts and greedy runs of a character class. When no run can swallow
 * the first character of what follows it, the pattern has at most one match
 * at each start position, and a left-to-right scan finds it. `re.search`
 * tries start positions from the left and reports the first that matches.
 */
module Pattern {
  import opened Wrappers
  import opened Text

  /** `Lit(t)` matches `t`; `Run(cls, atLeastOne)` is `cls+` or `cls*`. */
  datatype Piece = Lit(text: string) | Run(cls: char -> bool, atLeastOne: bool)

  predicate PieceFits(t: string, p: Piece) {
    if p.Lit? then t == p.text else AllOf(t, p.cls) && (p.atLeastOne ==> |t| > 0)
  }

  /**
   * `ps` matches `s` from `from` with piece `i` ending at `ends[i]`;
   * piece `i` covers `s[from..ends[0]]` for `i == 0` and `s[ends[i - 1]..ends[i]]` after.
   */
  predicate Fits(s: string, ps: seq<Piece>, from: nat, ends: seq<nat>)
    decreases |ps|
  {
    && |ends| == |ps| && from <= |s|
    && (|ps| > 0 ==>
          && from <= ends[0] <= |s|
          && PieceFits(s[from..ends[0]], ps[0])
          && Fits(s, ps[1..], ends[0], ends[1..]))
  }

  /** Where piece `p` ends when it is scanned greedily from `from`. */
  function PieceEnd(s: string, p: Piece, from: nat): (r: Option<nat>)
    requires from <= |s|
    ensures r.Some? ==> from <= r.value <= |s| && PieceFits(s[from..r.value], p)
  {
    match p
    case Lit(x) =>
      if from + |x| <= |s| && s[from..from + |x|] == x then Some(from + |x|) else None
    case Run(cls, one) =>
      var e := RunEnd(s, from, cls);
      if one && e == from then None else Some(e)
  }

  /** Scan the pieces in order, each run as long as it can be. */
  function Scan(s: string, ps: seq<Piece>, from: nat): (r: Option<seq<nat>>)
    requires from <= |s|
    ensures r.Some? ==> Fits(s, ps, from, r.value)
    decreases |ps|
  {
    if |ps| == 0 then Some([])
    else
      match PieceEnd(s, ps[0], from)
      case None => None
      case Some(e) =>
        match Scan(s, ps[1..], e)
        case None => None
        case Some(rest) =>
          assert ([e] + rest)[1..] == rest;
          Some([e] + rest)
  }

  /** `c` can be the first character of a match of `ps`. */
  predicate CanStart(ps: seq<Piece>, c: char)
    decreases |ps|
  {
    && |ps| > 0
    && if ps[0].Lit? then |ps[0].text| > 0 && ps[0].text[0] == c
       else ps[0].cls(c) || (!ps[0].atLeastOne && CanStart(ps[1..], c))
  }

  /** Every match of `ps` is non-empty. */
  predicate Consumes(ps: seq<Piece>)
    decreases |ps|
  {
    && |ps| > 0
    && if ps[0].Lit? then |ps[0].text| > 0 else ps[0].atLeastOne || Consumes(ps[1..])
  }

  /** No character of the class can start a match of `rest`. */
  predicate Excludes(cls: char -> bool, rest: seq<Piece>) {
    forall c :: cls(c) ==> !CanStart(rest, c)
  }

  /** Literals are non-empty and every run is followed by a consuming rest it cannot start. */
  predicate Deterministic(ps: seq<Piece>)
    decreases |ps|
  {
    && (|ps| > 0 ==>
          && (if ps[0].Lit? then |ps[0].text| > 0
              else Consumes(ps[1..]) && Excludes(ps[0].cls, ps[1..]))
          && Deterministic(ps[1..]))
  }

  /** `Consumes` and `Deterministic` of the suffix from `k`, in terms of piece `k` and the suffix after it. */
  lemma SuffixStep(ps: seq<Piece>, k: nat)
    requires k < |ps|
    ensures Consumes(ps[k..]) <==>
      if ps[k].Lit? then |ps[k].text| > 0 else ps[k].atLeastOne || Consumes(ps[k + 1..])
    ensures Deterministic(ps[k..]) <==>
      && (if ps[k].Lit? then |ps[k].text| > 0
          else Consumes(ps[k + 1..]) && Excludes(ps[k].cls, ps[k + 1..]))
      && Deterministic(ps[k + 1..])
  {
    assert ps[k..][1..] == ps[k + 1..];
  }

  /** Whether `c` can start the suffix from `k`, in terms of piece `k` and the suffix after it. */
  lemma StartStep(ps: seq<Piece>, k: nat, c: char)
    requires k < |ps|
    ensures CanStart(ps[k..], c) <==>
      if ps[k].Lit? then |ps[k].text| > 0 && ps[k].text[0] == c
      else ps[k].cls(c) || (!ps[k].atLeastOne && CanStart(ps[k + 1..], c))
  {
    assert ps[k..][1..] == ps[k + 1..];
  }

  /** A non-empty match starts with a character that can start the pattern. */
  lemma {:induction false} FitStarts(s: string, ps: seq<Piece>, from: nat, ends: seq<nat>)
    requires Fits(s, ps, from, ends) && Consumes(ps)
    ensures from < |s| && CanStart(ps, s[from])
    decreases |ps|
  {
    match ps[0]
    case Lit(x) =>
      assert s[from..ends[0]][0] == s[from];
    case Run(cls, one) =>
      if ends[0] > from {
        assert s[from..ends[0]][0] == s[from];
      } else {
        FitStarts(s, ps[1..], ends[0], ends[1..]);
      }
  }

  /** For a deterministic pattern, any match is the one the scan finds. */
  lemma {:induction false} ScanComplete(s: string, ps: seq<Piece>, from: nat, ends: seq<nat>)
    requires Deterministic(ps) && Fits(s, ps, from, ends)
    ensures Scan(s, ps, from) == Some(ends)
    decreases |ps|
  {
    if |ps| > 0 {
      HeadEnd(s, ps, from, ends);
      ScanComplete(s, ps[1..], ends[0], ends[1..]);
      assert ends == [ends[0]] + ends[1..];
    }
  }

  /** The first piece of a deterministic match ends where the greedy scan ends it. */
  lemma HeadEnd(s: string, ps: seq<Piece>, from: nat, ends: seq<nat>)
    requires |ps| > 0 && Deterministic(ps) && Fits(s, ps, from, ends)
    ensures PieceEnd(s, ps[0], from) == Some(ends[0])
  {
    match ps[0]
    case Lit(x) =>
    case Run(cls, one) =>
      FitStarts(s, ps[1..], ends[0], ends[1..]);
      RunEndIs(s, from, cls, ends[0]);
  }

  /** A deterministic pattern matches in at most one way at each position. */
  lemma MatchUnique(s: string, ps: seq<Piece>, from: nat, ends1: seq<nat>, ends2: seq<nat>)
    requires Deterministic(ps) && Fits(s, ps, from, ends1) && Fits(s, ps, from, ends2)
    ensures ends1 == ends2
  {
    ScanComplete(s, ps, from, ends1);
    ScanComplete(s, ps, from, ends2);
  }

  /** A match: where it starts and where each piece ends. */
  datatype Found = Found(start: nat, ends: seq<nat>)

  /** `re.search`: the leftmost start position at or after `from` where the scan succeeds. */
  function Search(s: string, ps: seq<Piece>, from: nat): (r: Option<Found>)
    requires from <= |s|
    ensures r.Some? ==> from <= r.value.start <= |s| && Scan(s, ps, r.value.start) == Some(r.value.ends)
    ensures r.Some? ==> forall q :: from <= q < r.value.start ==> Scan(s, ps, q).None?
    ensures r.None? ==> forall q :: from <= q <= |s| ==> Scan(s, ps, q).None?
    decreases |s| - from
  {
    match Scan(s, ps, from)
    case Some(ends) => Some(Found(from, ends))
    case None => if from == |s| then None else Search(s, ps, from + 1)
  }

  /** The pattern matches somewhere in `s`. */
  ghost predicate Matches(s: string, ps: seq<Piece>) {
    exists q: nat, ends :: q <= |s| && Fits(s, ps, q, ends)
  }

  /**
   * For a deterministic pattern, `Search` reports a match exactly when one
   * exists, and the one it reports starts leftmost.
   */
  lemma SearchIsLeftmost(s: string, ps: seq<Piece>)
    requires Deterministic(ps)
    ensures Search(s, ps, 0).None? ==> forall q: nat, ends :: q <= |s| ==> !Fits(s, ps, q, ends)
    ensures (forall q: nat, ends :: q <= |s| ==> !Fits(s, ps, q, ends)) ==> Search(s, ps, 0).None?
    ensures Search(s, ps, 0).Some? <==> Matches(s, ps)
    ensures Search(s, ps, 0).Some? ==>
      var f := Search(s, ps, 0).value;
      && Fits(s, ps, f.start, f.ends)
      && forall q: nat, ends :: q < f.start ==> !Fits(s, ps, q, ends)
  {
    var r := Search(s, ps, 0);
    forall q: nat, ends | q <= |s| && Fits(s, ps, q, ends)
      ensures r.Some? && r.value.start <= q
    {
      ScanComplete(s, ps, q, ends);
    }
    if r.Some? {
      var f := r.value;
      assert f.start <= |s| && Fits(s, ps, f.start, f.ends);
    }
  }

  /** If nothing fits before `p` and the pattern fits at `p`, that is what `re.search` reports. */
  lemma SearchFinds(s: string, ps: seq<Piece>, p: nat, ends: seq<nat>)
    requires Deterministic(ps) && Fits(s, ps, p, ends)
    requires forall q: nat, e :: q < p ==> !Fits(s, ps, q, e)
    ensures Search(s, ps, 0) == Some(Found(p, ends))
  {
    SearchIsLeftmost(s, ps);
    var f := Search(s, ps, 0).value;
    MatchUnique(s, ps, p, f.ends, ends);
  }

  /** The text piece `i` matched. */
  function GroupOf(s: string, ps: seq<Piece>, from: nat, ends: seq<nat>, i: nat): (g: string)
    requires Fits(s, ps, from, ends) && i < |ps|
    ensures PieceFits(g, ps[i])
    decreases i
  {
    if i == 0 then s[from..ends[0]] else GroupOf(s, ps[1..], ends[0], ends[1..], i - 1)
  }

  // ---------------------------------------------------------------------------
  // Building matches from the pieces of a text
  // ---------------------------------------------------------------------------

  function Concat(chunks: seq<string>): string
    decreases |chunks|
  {
    if |chunks| == 0 then "" else chunks[0] + Concat(chunks[1..])
  }

  lemma {:induction false} ConcatAppend(a: seq<string>, b: seq<string>)
    ensures Concat(a + b) == Concat(a) + Concat(b)
    decreases |a|
  {
    if |a| > 0 {
      assert (a + b)[1..] == a[1..] + b;
      ConcatAppend(a[1..], b);
    } else {
      assert a + b == b;
    }
  }

  /** A class that holds on every chunk holds on their concatenation. */
  lemma {:induction false} ConcatAllOf(chunks: seq<string>, p: char -> bool)
    requires forall k :: 0 <= k < |chunks| ==> AllOf(chunks[k], p)
    ensures AllOf(Concat(chunks), p)
    decreases |chunks|
  {
    if |chunks| > 0 {
      ConcatAllOf(chunks[1..], p);
      var rest := Concat(chunks[1..]);
      forall k | 0 <= k < |chunks[0] + rest|
        ensures p((chunks[0] + rest)[k])
      {
        if k < |chunks[0]| {
          assert (chunks[0] + rest)[k] == chunks[0][k];
        } else {
          assert (chunks[0] + rest)[k] == rest[k - |chunks[0]|];
        }
      }
    }
  }

  /** Chunk `i` is a text piece `i` accepts. */
  predicate ChunksFit(chunks: seq<string>, ps: seq<Piece>) {
    |chunks| == |ps| && forall i :: 0 <= i < |ps| ==> PieceFits(chunks[i], ps[i])
  }

  /** Where each chunk ends when the chunks are laid out from `from`. */
  function Ends(from: nat, chunks: seq<string>): (ends: seq<nat>)
    ensures |ends| == |chunks|
    decreases |chunks|
  {
    if |chunks| == 0 then [] else [from + |chunks[0]|] + Ends(from + |chunks[0]|, chunks[1..])
  }

  /** Text made of chunks the pieces accept is matched by the pattern, chunk by chunk. */
  lemma {:induction false} ChunksGiveFit(s: string, from: nat, chunks: seq<string>, ps: seq<Piece>)
    requires ChunksFit(chunks, ps)
    requires from + |Concat(chunks)| <= |s| && s[from..from + |Concat(chunks)|] == Concat(chunks)
    ensures Fits(s, ps, from, Ends(from, chunks))
    ensures forall i :: 0 <= i < |ps| ==> GroupOf(s, ps, from, Ends(from, chunks), i) == chunks[i]
    decreases |ps|
  {
    if |ps| > 0 {
      var c0, rest := chunks[0], Concat(chunks[1..]);
      var mid := from + |c0|;
      assert s[from..mid] == s[from..from + |Concat(chunks)|][..|c0|];
      assert s[mid..mid + |rest|] == s[from..from + |Concat(chunks)|][|c0|..];
      assert ChunksFit(chunks[1..], ps[1..]) by {
        forall i | 0 <= i < |ps| - 1
          ensures PieceFits(chunks[1..][i], ps[1..][i])
        {
          assert PieceFits(chunks[i + 1], ps[i + 1]);
        }
      }
      ChunksGiveFit(s, mid, chunks[1..], ps[1..]);
      var ends := Ends(from, chunks);
      assert ends[1..] == Ends(mid, chunks[1..]);
      forall i | 0 < i < |ps|
        ensures GroupOf(s, ps, from, ends, i) == chunks[i]
      {
        assert GroupOf(s, ps, from, ends, i) == GroupOf(s, ps[1..], mid, ends[1..], i - 1);
      }
    }
  }
}

=== FILE: scope_path.dfy ===
/**
 * The string half of `switch_to_operator_by_path`: a scope path
 * `Pkg1::...::PkgN::Operator/Part1:Part2:...` names a root package, the
 * packages below it, an operator, and a path into the operator's state
 * machines and states. Finding those objects in the model is not part of
 * this module; it only decides which names the walk looks for.
 */
module ScopePaths {
  import opened Wrappers
  import opened Text

  /**
   * The names the walk looks for: the root package, the packages below it,
   * the operator inside the last of them, and the canvas parts inside the
   * operator. With a single segment the root package and the operator share
   * its name.
   */
  datatype ScopePath = ScopePath(root: string, packages: seq<string>, operator: string, canvas: seq<string>)

  /**
   * What a switch decides before it touches the model: the key under which
   * the producer map is emptied (the stripped path, even when the path is
   * then rejected) and the names to walk, if the path has any segment.
   */
  datatype Switch = Switch(key: string, target: Option<ScopePath>)

  /** Python's `s.strip(":")`. */
  function TrimColons(s: string): (r: string)
    ensures |r| <= |s|
    ensures |r| > 0 ==> r[0] != ':' && r[|r| - 1] != ':'
    decreases |s|
  {
    if |s| == 0 then s
    else if s[0] == ':' then TrimColons(s[1..])
    else if s[|s| - 1] == ':' then TrimColons(s[..|s| - 1])
    else s
  }

  /** `[seg for seg in canvas_part.strip(":").split(":") if seg]`, or nothing when there is no canvas part. */
  function CanvasParts(canvasPart: Option<string>): (parts: seq<string>)
    ensures forall k :: 0 <= k < |parts| ==> |parts[k]| > 0 && ':' !in parts[k]
  {
    match canvasPart
    case None => []
    case Some(c) =>
      if c == "" then []
      else
        var parts := NonEmpty(Split(TrimColons(c), ":"));
        assert forall k :: 0 <= k < |parts| ==> ':' !in parts[k] by {
          forall k | 0 <= k < |parts|
            ensures ':' !in parts[k]
          {
            NoColonWhenNotContained(parts[k]);
          }
        }
        parts
  }

  lemma NoColonWhenNotContained(s: string)
    requires !Contains(s, ":")
    ensures ':' !in s
  {
    if ':' in s {
      var k :| 0 <= k < |s| && s[k] == ':';
      assert OccursAt(s, ":", k) by {
        assert s[k..k + 1] == [s[k]];
      }
    }
  }

  /** `path_str.split("/", 1)` when the path holds a `/`, else the whole path and no canvas part. */
  function CutAtSlash(path: string): (r: (string, Option<string>))
    ensures '/' !in r.0
  {
    match IndexOf(path, "/")
    case Some(k) =>
      NoColonOrSlash(path, k, '/');
      (path[..k], Some(path[k + 1..]))
    case None =>
      NoCharWhenAbsent(path, '/');
      (path, None)
  }

  /** `[seg for seg in package_op_part.strip().split("::") if seg]`. */
  function Segments(opPart: string): (segments: seq<string>)
    requires '/' !in opPart
    ensures forall k :: 0 <= k < |segments| ==> |segments[k]| > 0 && '/' !in segments[k]
  {
    StripOmits(opPart, '/');
    SplitPiecesOmit(Strip(opPart), "::", '/');
    NonEmpty(Split(Strip(opPart), "::"))
  }

  /** The names a non-empty segment list and its canvas parts send the walk to. */
  predicate ValidTarget(t: ScopePath) {
    && |t.root| > 0 && |t.operator| > 0
    && '/' !in t.root && '/' !in t.operator
    && (forall k :: 0 <= k < |t.packages| ==> |t.packages[k]| > 0 && '/' !in t.packages[k])
    && (forall k :: 0 <= k < |t.canvas| ==> |t.canvas[k]| > 0 && ':' !in t.canvas[k])
  }

  /** `segments[0]` is the root, `segments[1:-1]` the packages below it, `segments[-1]` the operator. */
  function TargetOf(segments: seq<string>, canvas: seq<string>): (t: ScopePath)
    requires |segments| >= 1
    requires forall k :: 0 <= k < |segments| ==> |segments[k]| > 0 && '/' !in segments[k]
    requires forall k :: 0 <= k < |canvas| ==> |canvas[k]| > 0 && ':' !in canvas[k]
    ensures ValidTarget(t)
  {
    var last := |segments| - 1;
    var packages := segments[1..if last < 1 then 1 else last];
    assert forall k :: 0 <= k < |packages| ==> packages[k] == segments[k + 1];
    ScopePath(segments[0], packages, segments[last], canvas)
  }

  /**
   * `switch_to_operator_by_path`, up to the model walk. The path is cut at its
   * first `/`; the part before it is stripped, split on `::` and its empty
   * segments dropped; the part after it goes to `CanvasParts`.
   */
  function SwitchPath(path: string): (r: Switch)
    ensures r.key == Strip(path)
    ensures Strip(path) == "" ==> r.target.None?
    ensures r.target.Some? ==> ValidTarget(r.target.value)
  {
    var key := Strip(path);
    if key == "" then Switch(key, None)
    else
      var cut := CutAtSlash(path);
      var segments := Segments(cut.0);
      if |segments| < 1 then Switch(key, None)
      else Switch(key, Some(TargetOf(segments, CanvasParts(cut.1))))
  }

  lemma NoColonOrSlash(s: string, k: nat, c: char)
    requires k <= |s|
    requires forall j :: 0 <= j < k ==> !OccursAt(s, [c], j)
    ensures c !in s[..k]
  {
    forall j | 0 <= j < k
      ensures s[..k][j] != c
    {
      assert !OccursAt(s, [c], j);
      assert s[j..j + 1] == [s[j]];
    }
  }

  lemma NoCharWhenAbsent(s: string, c: char)
    requires forall j :: !OccursAt(s, [c], j)
    ensures c !in s
  {
    forall j | 0 <= j < |s|
      ensures s[j] != c
    {
      assert !OccursAt(s, [c], j);
      assert s[j..j + 1] == [s[j]];
    }
  }

  /** A character absent from the text is absent from every piece `split` cuts it into. */
  lemma {:induction false} SplitPiecesOmit(s: string, sep: string, c: char)
    requires |sep| > 0 && c !in s
    ensures forall k :: 0 <= k < |Split(s, sep)| ==> c !in Split(s, sep)[k]
    ensures forall p :: p in NonEmpty(Split(s, sep)) ==> c !in p
    decreases |s|
  {
    match IndexOf(s, sep)
    case None =>
    case Some(k) =>
      SliceOmits(s, c, 0, k);
      SliceOmits(s, c, k + |sep|, |s|);
      SplitPiecesOmit(s[k + |sep|..], sep, c);
      assert Split(s, sep) == [s[..k]] + Split(s[k + |sep|..], sep);
  }

  // ---------------------------------------------------------------------------
  // Round trip: a path written from its parts is read back as those parts
  // ---------------------------------------------------------------------------

  /** The parts a well-written path is made of: non-empty, trimmed package names without `:` or `/`, canvas parts without `:`. */
  predicate Writable(segments: seq<string>, canvas: seq<string>) {
    && |segments| >= 1
    && (forall k :: 0 <= k < |segments| ==>
          |segments[k]| > 0 && Trimmed(segments[k]) && ':' !in segments[k] && '/' !in segments[k])
    && (forall k :: 0 <= k < |canvas| ==> |canvas[k]| > 0 && ':' !in canvas[k])
  }

  /** `Pkg1::...::Operator/Part1:...:PartM`, with no `/` when there is no canvas part. */
  function WritePath(segments: seq<string>, canvas: seq<string>): string {
    Join(segments, "::") + (if |canvas| == 0 then "" else "/" + Join(canvas, ":"))
  }

  /** How `SwitchPath` reads a path once its cut, segments and canvas parts are known. */
  lemma SwitchPathReads(path: string, segments: seq<string>, canvas: seq<string>)
    requires Strip(path) != "" && |segments| >= 1
    requires Segments(CutAtSlash(path).0) == segments
    requires CanvasParts(CutAtSlash(path).1) == canvas
    ensures SwitchPath(path).target == Some(TargetOf(segments, canvas))
  {
  }

  /** The cut at the first `/` of a written path separates the package part from the canvas part. */
  lemma CutWrittenPath(segments: seq<string>, canvas: seq<string>)
    requires Writable(segments, canvas)
    ensures CutAtSlash(WritePath(segments, canvas))
              == (Join(segments, "::"), if |canvas| == 0 then None else Some(Join(canvas, ":")))
  {
    JoinOmits(segments, "::", '/');
    if |canvas| == 0 {
      CutWithoutSlash(Join(segments, "::"));
      assert WritePath(segments, canvas) == Join(segments, "::");
    } else {
      CutAtFirstSlash(Join(segments, "::"), Join(canvas, ":"));
      assert WritePath(segments, canvas) == Join(segments, "::") + "/" + Join(canvas, ":");
    }
  }

  lemma CutWithoutSlash(s: string)
    requires '/' !in s
    ensures CutAtSlash(s) == (s, None)
  {
    NoOccurrenceOfChar(s, '/');
  }

  lemma CutAtFirstSlash(x: string, y: string)
    requires '/' !in x
    ensures CutAtSlash(x + "/" + y) == (x, Some(y))
  {
    var s := x + "/" + y;
    FirstCharOccurrence(x, '/', y);
    assert s == x + ['/'] + y;
    assert s[..|x|] == x && s[|x| + 1..] == y;
  }

  /** The package part of a written path splits back into its segments. */
  lemma SegmentsOfWritten(segments: seq<string>)
    requires Writable(segments, [])
    ensures '/' !in Join(segments, "::")
    ensures Segments(Join(segments, "::")) == segments
  {
    var opPart := Join(segments, "::");
    JoinOmits(segments, "::", '/');
    JoinTrimmed(segments, "::");
    StripTrimmed(opPart);
    JoinThenSplitOn(segments, "::");
    NonEmptyKeeps(segments);
  }

  /** The canvas part of a written path splits back into its parts. */
  lemma CanvasOfWritten(canvas: seq<string>)
    requires forall k :: 0 <= k < |canvas| ==> |canvas[k]| > 0 && ':' !in canvas[k]
    ensures CanvasParts(if |canvas| == 0 then None else Some(Join(canvas, ":"))) == canvas
  {
    if |canvas| > 0 {
      JoinColonEnds(canvas);
      JoinThenSplit(canvas, ':');
      NonEmptyKeeps(canvas);
      JoinStartsWithHead(canvas, ":");
    }
  }

  /**
   * Reading a written path gives back its parts: the first segment is the
   * root package, the last the operator, those between the packages below
   * the root, and the canvas parts in order.
   */
  lemma SwitchPathRoundTrip(segments: seq<string>, canvas: seq<string>)
    requires Writable(segments, canvas)
    ensures var last := |segments| - 1;
            SwitchPath(WritePath(segments, canvas)).target
              == Some(ScopePath(segments[0], segments[1..if last < 1 then 1 else last], segments[last], canvas))
  {
    var path := WritePath(segments, canvas);
    CutWrittenPath(segments, canvas);
    assert Writable(segments, []);
    SegmentsOfWritten(segments);
    CanvasOfWritten(canvas);
    assert Strip(path) != "" by {
      JoinStartsWithHead(segments, "::");
      assert path[0] == segments[0][0];
      assert !IsSpace(path[0]);
      if Strip(path) == "" {
        StripRemovesEnds(path);
      }
    }
  }

  /** `[seg for seg in parts if seg]` keeps a list without empty pieces as it is. */
  lemma {:induction false} NonEmptyKeeps(parts: seq<string>)
    requires forall k :: 0 <= k < |parts| ==> |parts[k]| > 0
    ensures NonEmpty(parts) == parts
    decreases |parts|
  {
    if |parts| > 0 {
      NonEmptyKeeps(parts[1..]);
      assert parts == [parts[0]] + parts[1..];
    }
  }

  /** A character absent from the pieces and from the separator is absent from the joined text. */
  lemma {:induction false} JoinOmits(parts: seq<string>, sep: string, c: char)
    requires c !in sep
    requires forall k :: 0 <= k < |parts| ==> c !in parts[k]
    ensures c !in Join(parts, sep)
    decreases |parts|
  {
    if |parts| > 1 {
      JoinOmits(parts[1..], sep, c);
    }
  }

  /** The joined text ends with the last piece when that piece is not empty. */
  lemma {:induction false} JoinEndsWithLast(parts: seq<string>, sep: string)
    requires |parts| >= 1 && |parts[|parts| - 1]| > 0
    ensures |Join(parts, sep)| > 0
    ensures Join(parts, sep)[|Join(parts, sep)| - 1] == parts[|parts| - 1][|parts[|parts| - 1]| - 1]
    decreases |parts|
  {
    if |parts| > 1 {
      JoinEndsWithLast(parts[1..], sep);
    }
  }

  /** Trimmed, non-empty pieces join into trimmed text. */
  lemma JoinTrimmed(parts: seq<string>, sep: string)
    requires |parts| >= 1
    requires forall k :: 0 <= k < |parts| ==> |parts[k]| > 0 && Trimmed(parts[k])
    ensures Trimmed(Join(parts, sep))
  {
    JoinStartsWithHead(parts, sep);
    JoinEndsWithLast(parts, sep);
    assert Join(parts, sep)[0] == parts[0][0];
  }

  /** Canvas parts without `:` join into text that `strip(":")` leaves alone. */
  lemma JoinColonEnds(canvas: seq<string>)
    requires |canvas| >= 1
    requires forall k :: 0 <= k < |canvas| ==> |canvas[k]| > 0 && ':' !in canvas[k]
    ensures TrimColons(Join(canvas, ":")) == Join(canvas, ":")
  {
    JoinStartsWithHead(canvas, ":");
    JoinEndsWithLast(canvas, ":");
    assert Join(canvas, ":")[0] == canvas[0][0];
  }

  /** The first occurrence of `sep` in `x + sep + y` is right after `x` when `x` lacks `sep`'s first character. */
  lemma FirstSepOccurrence(x: string, sep: string, y: string)
    requires |sep| > 0 && sep[0] !in x
    ensures IndexOf(x + sep + y, sep) == Some(|x|)
  {
    var s := x + sep + y;
    assert OccursAt(s, sep, |x|) by {
      assert s[|x|..|x| + |sep|] == sep;
    }
    forall k | 0 <= k < |x|
      ensures !OccursAt(s, sep, k)
    {
      assert s[k] == x[k];
    }
  }

  lemma NoSepOccurrence(x: string, sep: string)
    requires |sep| > 0 && sep[0] !in x
    ensures IndexOf(x, sep) == None
  {
    forall k | 0 <= k < |x|
      ensures !OccursAt(x, sep, k)
    {
    }
  }

  /** Splitting undoes joining when no piece holds the separator's first character. */
  lemma {:induction false} JoinThenSplitOn(parts: seq<string>, sep: string)
    requires |parts| >= 1 && |sep| > 0
    requires forall k :: 0 <= k < |parts| ==> sep[0] !in parts[k]
    ensures Split(Join(parts, sep), sep) == parts
    decreases |parts|
  {
    if |parts| == 1 {
      NoSepOccurrence(parts[0], sep);
    } else {
      var head, tail := parts[0], parts[1..];
      var rest := Join(tail, sep);
      var s := head + sep + rest;
      FirstSepOccurrence(head, sep, rest);
      assert s[..|head|] == head;
      assert s[|head| + |sep|..] == rest;
      JoinThenSplitOn(tail, sep);
      assert parts == [head] + tail;
    }
  }

  // ---------------------------------------------------------------------------
  // Trailing colons, empty segments and the single-segment reading
  // ---------------------------------------------------------------------------

  /** A path that starts with a trimmed, non-empty segment does not strip to nothing. */
  lemma StartsWithSegment(segments: seq<string>, rest: string)
    requires |segments| >= 1 && |segments[0]| > 0 && Trimmed(segments[0])
    ensures Strip(Join(segments, "::") + rest) != ""
  {
    var path := Join(segments, "::") + rest;
    JoinStartsWithHead(segments, "::");
    assert path[0] == segments[0][0];
    if Strip(path) == "" {
      StripRemovesEnds(path);
    }
  }

  /** `strip(":")` drops one trailing `:` after canvas parts. */
  lemma CanvasTrailingColon(canvas: seq<string>)
    requires |canvas| >= 1
    requires forall k :: 0 <= k < |canvas| ==> |canvas[k]| > 0 && ':' !in canvas[k]
    ensures CanvasParts(Some(Join(canvas, ":") + ":")) == canvas
  {
    var y := Join(canvas, ":");
    JoinColonEnds(canvas);
    JoinStartsWithHead(canvas, ":");
    assert (y + ":")[..|y|] == y;
    assert TrimColons(y + ":") == y;
    CanvasOfWritten(canvas);
  }

  /**
   * A trailing `:` after the canvas parts, as in the documented example
   * `Package1::Package2::Operator3/SM1:State1:SM2:State2:SM3:State3:`,
   * changes nothing.
   */
  lemma TrailingColonIgnored(segments: seq<string>, canvas: seq<string>)
    requires Writable(segments, canvas) && |canvas| >= 1
    ensures SwitchPath(WritePath(segments, canvas) + ":").target == SwitchPath(WritePath(segments, canvas)).target
  {
    var path := WritePath(segments, canvas) + ":";
    CutTrailingColon(segments, canvas);
    CanvasTrailingColon(canvas);
    assert Writable(segments, []);
    SegmentsOfWritten(segments);
    SwitchPathReads(path, segments, canvas);
    SwitchPathRoundTrip(segments, canvas);
  }

  /** The cut of a written path with a trailing `:` keeps the `:` on the canvas part. */
  lemma CutTrailingColon(segments: seq<string>, canvas: seq<string>)
    requires Writable(segments, canvas) && |canvas| >= 1
    ensures Strip(WritePath(segments, canvas) + ":") != ""
    ensures CutAtSlash(WritePath(segments, canvas) + ":") == (Join(segments, "::"), Some(Join(canvas, ":") + ":"))
  {
    var x, y := Join(segments, "::"), Join(canvas, ":");
    var path := WritePath(segments, canvas) + ":";
    JoinOmits(segments, "::", '/');
    assert path == x + "/" + (y + ":") == x + ("/" + (y + ":"));
    CutAtFirstSlash(x, y + ":");
    StartsWithSegment(segments, "/" + (y + ":"));
  }

  /**
   * A path with one segment and no `/` names a package and an operator of
   * the same name, and nothing inside the operator.
   */
  lemma SingleSegmentPath(name: string)
    requires |name| > 0 && Trimmed(name) && ':' !in name && '/' !in name
    ensures SwitchPath(name).target == Some(ScopePath(name, [], name, []))
  {
    SwitchPathRoundTrip([name], []);
    assert WritePath([name], []) == name;
  }

  lemma JoinTwo(a: string, b: string, sep: string)
    ensures Join([a, b], sep) == a + sep + b
  {
    assert [a, b][1..] == [b];
  }

  lemma JoinThree(a: string, m: string, b: string, sep: string)
    ensures Join([a, m, b], sep) == a + sep + (m + sep + b)
  {
    assert [a, m, b][1..] == [m, b];
    JoinTwo(m, b, sep);
  }

  /** An empty segment between two `::` is dropped: `A::::B` reads like `A::B`. */
  lemma EmptySegmentDropped(a: string, b: string)
    requires Writable([a, b], [])
    ensures SwitchPath(a + "::::" + b).target == SwitchPath(a + "::" + b).target == Some(ScopePath(a, [], b, []))
  {
    var s := a + "::::" + b;
    JoinTwo(a, b, "::");
    JoinThree(a, "", b, "::");
    assert Join([a, "", b], "::") == s;
    SwitchPathRoundTrip([a, b], []);
    assert WritePath([a, b], []) == a + "::" + b;
    SegmentsWithEmpty(a, b);
    StartsWithSegment([a, "", b], "");
    assert s + "" == s;
  }

  /** The two segments of `a::b` and the empty one between them carry no `:` or `/`. */
  lemma ThreePartsClean(a: string, b: string)
    requires Writable([a, b], [])
    ensures |a| > 0 && Trimmed(a) && ':' !in a && '/' !in a
    ensures |b| > 0 && Trimmed(b) && ':' !in b && '/' !in b
    ensures forall k :: 0 <= k < |[a, "", b]| ==> ':' !in [a, "", b][k] && '/' !in [a, "", b][k]
  {
    assert [a, b][0] == a && [a, b][1] == b;
    var parts := [a, "", b];
    forall k | 0 <= k < |parts|
      ensures ':' !in parts[k] && '/' !in parts[k]
    {
      if k == 0 { assert parts[k] == a; } else if k == 1 { assert parts[k] == ""; } else { assert parts[k] == b; }
    }
  }

  /** Gluing trimmed, non-empty ends leaves the whole trimmed. */
  lemma TrimmedGlue(a: string, mid: string, b: string)
    requires |a| > 0 && |b| > 0 && Trimmed(a) && Trimmed(b)
    ensures Trimmed(a + mid + b)
  {
    var s := a + mid + b;
    assert s[0] == a[0];
    assert s[|s| - 1] == b[|b| - 1];
  }

  /** Dropping the empty pieces of `[a, "", b]` leaves `[a, b]`. */
  lemma NonEmptyDropsMiddle(a: string, b: string)
    requires |a| > 0 && |b| > 0
    ensures NonEmpty([a, "", b]) == [a, b]
  {
    var parts := [a, "", b];
    assert parts[1..] == ["", b];
    assert ["", b][1..] == [b];
    assert [b][1..] == [];
    assert NonEmpty([b]) == [b];
    assert NonEmpty(["", b]) == [b];
    assert NonEmpty(parts) == [a] + [b];
  }

  lemma SegmentsWithEmpty(a: string, b: string)
    requires Writable([a, b], [])
    ensures '/' !in a + "::::" + b
    ensures CutAtSlash(a + "::::" + b) == (a + "::::" + b, None)
    ensures Segments(a + "::::" + b) == [a, b]
  {
    ThreePartsClean(a, b);
    var parts := [a, "", b];
    var s := a + "::::" + b;
    JoinThree(a, "", b, "::");
    assert Join(parts, "::") == s;
    JoinOmits(parts, "::", '/');
    CutWithoutSlash(s);
    TrimmedGlue(a, "::::", b);
    StripTrimmed(s);
    JoinThenSplitOn(parts, "::");
    NonEmptyDropsMiddle(a, b);
  }
}

=== FILE: symbols.dfy ===
/**
 * The builder's symbol table: the current operator's inputs, outputs and
 * locals, the locals of the current canvas, the equations of the canvas, the
 * map from a flow name to the equation that produces it, and the diagram
 * edges between equations.
 */
module Symbols {
  import opened Wrappers
  import opened Exceptions
  import opened Types

  /** A declared variable: its name and its type expression. */
  datatype Var = Var(name: string, ty: Ty)

  /** The operator-call shapes a built-in operator name selects. */
  datatype Shape = NAry | Unary | Binary | NumericCast | Pre | Fby

  /**
   * The right-hand side of an equation; flows are referenced by name. An `Id`
   * whose path was never set has no name, and neither has a call whose
   * operator was not found.
   */
  datatype Expr =
    | Id(path: Option<string>)
    | OpCall(callee: Option<string>, params: seq<string>)
    | BuiltIn(op: string, shape: Option<Shape>, operands: seq<string>)
    | Iter(sub: string, accumulators: string, size: string, defaults: nat, cond: string, params: seq<string>)

  datatype Equation = Equation(lefts: seq<string>, right: Expr)

  /** A diagram edge from the equation producing an operand to the equation reading it. */
  datatype Edge = Edge(src: nat, dst: Option<nat>, leftIndex: nat, rightIndex: nat)

  /**
   * The builder's state for the current operator and canvas. `producers` is
   * the canvas's name-to-equation map (an equation's diagram element stands
   * for the equation); when the canvas is the operator itself its locals are
   * `locals` and `opLocals` is empty.
   */
  datatype State = State(
    inputs: seq<Var>, outputs: seq<Var>, opLocals: seq<Var>, locals: seq<Var>,
    equations: seq<Equation>, producers: map<string, nat>, edges: seq<Edge>)

  /** A declaration's result: the new state and the variable the caller gets back. */
  datatype Made = Made(st: State, v: Var)

  /** The interface of a called operator: its input and output types. */
  datatype OpSig = OpSig(inputs: seq<Ty>, outputs: seq<Ty>)

  // ---------------------------------------------------------------------------
  // Lookup by name
  // ---------------------------------------------------------------------------

  function Names(vars: seq<Var>): (ns: seq<string>)
    ensures |ns| == |vars|
    ensures forall k :: 0 <= k < |vars| ==> ns[k] == vars[k].name
  {
    seq(|vars|, k requires 0 <= k < |vars| => vars[k].name)
  }

  /** The first variable called `name`, as the builder's `for ... if getName() == name` loops find it. */
  function Find(vars: seq<Var>, name: string): (r: Option<Var>)
    ensures r.Some? <==> name in Names(vars)
    ensures r.Some? ==> r.value.name == name && r.value in vars
  {
    if |vars| == 0 then None
    else if vars[0].name == name then Some(vars[0])
    else
      assert Names(vars) == [vars[0].name] + Names(vars[1..]);
      Find(vars[1..], name)
  }

  /** The variable found is the first one with the name. */
  lemma {:induction false} FindIsFirst(vars: seq<Var>, name: string)
    requires name in Names(vars)
    ensures exists k :: 0 <= k < |vars| && vars[k] == Find(vars, name).value && name !in Names(vars[..k])
  {
    if vars[0].name == name {
      assert vars[..0] == [];
    } else {
      assert Names(vars) == [vars[0].name] + Names(vars[1..]);
      FindIsFirst(vars[1..], name);
      var r := Find(vars[1..], name);
      var k :| 0 <= k < |vars[1..]| && vars[1..][k] == r.value && name !in Names(vars[1..][..k]);
      assert Names(vars[..k + 1]) == [vars[0].name] + Names(vars[1..][..k]);
    }
  }

  /** No two variables of the list share a name. */
  predicate Unique(vars: seq<Var>) {
    forall i, j :: 0 <= i < j < |vars| ==> vars[i].name != vars[j].name
  }

  /** In a list of distinct names, the variable found is the one at that name's position. */
  lemma FindUnique(vars: seq<Var>, k: nat)
    requires Unique(vars) && k < |vars|
    ensures Find(vars, vars[k].name) == Some(vars[k])
  {
    var r := Find(vars, vars[k].name);
    assert Names(vars)[k] == vars[k].name;
    FindIsFirst(vars, vars[k].name);
    var j :| 0 <= j < |vars| && vars[j] == r.value && vars[k].name !in Names(vars[..j]);
    assert vars[j].name == vars[k].name;
  }

  // ---------------------------------------------------------------------------
  // determine_var_kind
  // ---------------------------------------------------------------------------

  datatype Kind = InputKind | LocalKind | OutputKind | NotFound

  /** A name's kind and the variable it denotes (`None` exactly for `NotFound`). */
  datatype Resolution = Resolution(kind: Kind, v: Option<Var>)

  /**
   * `SCADE_Builder.determine_var_kind`: the operator's inputs, then its
   * locals, then the current canvas's locals, then its outputs; the first
   * variable with the name wins.
   */
  function Resolve(st: State, name: string): (r: Resolution)
    ensures r.kind == InputKind <==> name in Names(st.inputs)
    ensures r.kind == LocalKind <==>
              name !in Names(st.inputs) && (name in Names(st.opLocals) || name in Names(st.locals))
    ensures r.kind == OutputKind <==>
              && name !in Names(st.inputs) && name !in Names(st.opLocals) && name !in Names(st.locals)
              && name in Names(st.outputs)
    ensures r.v.None? <==> r.kind == NotFound
    ensures r.v.Some? ==> r.v.value.name == name
    ensures r.kind == InputKind ==> r.v == Find(st.inputs, name)
    ensures r.kind == LocalKind ==>
              r.v == if name in Names(st.opLocals) then Find(st.opLocals, name) else Find(st.locals, name)
    ensures r.kind == OutputKind ==> r.v == Find(st.outputs, name)
  {
    if Find(st.inputs, name).Some? then Resolution(InputKind, Find(st.inputs, name))
    else if Find(st.opLocals, name).Some? then Resolution(LocalKind, Find(st.opLocals, name))
    else if Find(st.locals, name).Some? then Resolution(LocalKind, Find(st.locals, name))
    else if Find(st.outputs, name).Some? then Resolution(OutputKind, Find(st.outputs, name))
    else Resolution(NotFound, None)
  }

  /**
   * The older script's `determine_var_kind`: inputs, the operator's locals,
   * outputs. Its operator locals are the `locals` of the state.
   */
  function ResolveV4(st: State, name: string): (r: Resolution)
    ensures r.kind == InputKind <==> name in Names(st.inputs)
    ensures r.kind == LocalKind <==> name !in Names(st.inputs) && name in Names(st.locals)
    ensures r.kind == OutputKind <==>
              name !in Names(st.inputs) && name !in Names(st.locals) && name in Names(st.outputs)
    ensures r.v.None? <==> r.kind == NotFound
    ensures r.v.Some? ==> r.v.value.name == name
  {
    if Find(st.inputs, name).Some? then Resolution(InputKind, Find(st.inputs, name))
    else if Find(st.locals, name).Some? then Resolution(LocalKind, Find(st.locals, name))
    else if Find(st.outputs, name).Some? then Resolution(OutputKind, Find(st.outputs, name))
    else Resolution(NotFound, None)
  }

  /** With no separate operator locals the two lookups agree. */
  lemma ResolveVersionsAgree(st: State, name: string)
    requires st.opLocals == []
    ensures ResolveV4(st, name) == Resolve(st, name)
  {
    assert Names(st.opLocals) == [];
  }

  /** A name that is both an input and a local or output resolves to the input: inputs shadow. */
  lemma InputsShadow(st: State, name: string)
    requires name in Names(st.inputs)
    ensures Resolve(st, name).kind == InputKind && ResolveV4(st, name).kind == InputKind
    ensures Resolve(st, name).v == ResolveV4(st, name).v
  {
  }

  /**
   * Appending a canvas local can only turn the appended name from unknown or
   * Output into Local: Inputs stay Inputs, Locals stay Locals, other names keep
   * their kind.
   */
  lemma ResolveAfterLocal(st: State, v: Var, n: string)
    ensures var st' := st.(locals := st.locals + [v]);
            && (Resolve(st', n).kind == InputKind <==> Resolve(st, n).kind == InputKind)
            && (Resolve(st, n).kind == LocalKind ==> Resolve(st', n).kind == LocalKind)
            && (Resolve(st', n).kind == NotFound ==> Resolve(st, n).kind == NotFound)
            && (n != v.name ==> Resolve(st', n).kind == Resolve(st, n).kind)
            && (n == v.name && Resolve(st, n).kind != InputKind ==> Resolve(st', n).kind == LocalKind)
  {
    assert Names(st.locals + [v]) == Names(st.locals) + [v.name];
  }

  /** The older lookup under the same change. */
  lemma ResolveV4AfterLocal(st: State, v: Var, n: string)
    ensures var st' := st.(locals := st.locals + [v]);
            && (ResolveV4(st', n).kind == InputKind <==> ResolveV4(st, n).kind == InputKind)
            && (ResolveV4(st, n).kind == LocalKind ==> ResolveV4(st', n).kind == LocalKind)
            && (ResolveV4(st', n).kind == NotFound ==> ResolveV4(st, n).kind == NotFound)
            && (n != v.name ==> ResolveV4(st', n).kind == ResolveV4(st, n).kind)
            && (n == v.name && ResolveV4(st, n).kind != InputKind ==> ResolveV4(st', n).kind == LocalKind)
  {
    assert Names(st.locals + [v]) == Names(st.locals) + [v.name];
  }

  // ---------------------------------------------------------------------------
  // Declarations: create_input, create_output, create_local, create_local_E
  // ---------------------------------------------------------------------------

  /**
   * The de-duplicating append every `create_*` shares: a variable whose name is
   * already in the list is returned as found and the list is left alone;
   * otherwise `v` is appended and returned.
   */
  function Declare(vars: seq<Var>, v: Var): (r: (seq<Var>, Var))
    ensures v.name in Names(vars) ==> r.0 == vars && Some(r.1) == Find(vars, v.name)
    ensures v.name !in Names(vars) ==> |r.0| == |vars| + 1 && r.0[..|vars|] == vars && r.0[|vars|] == v
    ensures r.1 in r.0 && r.1.name == v.name
  {
    match Find(vars, v.name)
    case Some(existing) => (vars, existing)
    case None => (vars + [v], v)
  }

  /** Declaring twice under one name is declaring once. */
  lemma DeclareIdempotent(vars: seq<Var>, v: Var, w: Var)
    requires w.name == v.name
    ensures Declare(Declare(vars, v).0, w) == Declare(vars, v)
  {
    if v.name !in Names(vars) {
      FindAppended(vars, v);
    }
  }

  /** A name new to a list finds the variable appended under it. */
  lemma {:induction false} FindAppended(vars: seq<Var>, v: Var)
    requires v.name !in Names(vars)
    ensures v.name in Names(vars + [v]) && Find(vars + [v], v.name) == Some(v)
  {
    assert Names(vars + [v]) == Names(vars) + [v.name];
    if |vars| > 0 {
      assert Names(vars) == [vars[0].name] + Names(vars[1..]);
      assert (vars + [v])[1..] == vars[1..] + [v];
      FindAppended(vars[1..], v);
    }
  }

  /** Declarations keep the names of a list distinct. */
  lemma DeclareKeepsUnique(vars: seq<Var>, v: Var)
    requires Unique(vars)
    ensures Unique(Declare(vars, v).0)
  {
    if v.name !in Names(vars) {
      var vs := Declare(vars, v).0;
      forall i, j | 0 <= i < j < |vs|
        ensures vs[i].name != vs[j].name
      {
        if j == |vars| {
          assert Names(vars)[i] == vars[i].name;
        }
      }
    }
  }

  /** `create_input`: a new input typed by a type string, unless the name is taken. */
  function CreateInput(st: State, name: string, typeName: string, directory: set<string>): (r: Made)
    ensures r.st.outputs == st.outputs && r.st.locals == st.locals && r.st.opLocals == st.opLocals
    ensures r.st.equations == st.equations && r.st.producers == st.producers && r.st.edges == st.edges
    ensures r.st.inputs == Declare(st.inputs, Var(name, TypeFromString(typeName, directory))).0
    ensures Find(r.st.inputs, name) == Some(r.v)
  {
    var (vs, v) := Declare(st.inputs, Var(name, TypeFromString(typeName, directory)));
    DeclareFinds(st.inputs, Var(name, TypeFromString(typeName, directory)));
    Made(st.(inputs := vs), v)
  }

  /** `create_output`: a new output typed by a type string, unless the name is taken. */
  function CreateOutput(st: State, name: string, typeName: string, directory: set<string>): (r: Made)
    ensures r.st.inputs == st.inputs && r.st.locals == st.locals && r.st.opLocals == st.opLocals
    ensures r.st.equations == st.equations && r.st.producers == st.producers && r.st.edges == st.edges
    ensures r.st.outputs == Declare(st.outputs, Var(name, TypeFromString(typeName, directory))).0
    ensures Find(r.st.outputs, name) == Some(r.v)
  {
    var (vs, v) := Declare(st.outputs, Var(name, TypeFromString(typeName, directory)));
    DeclareFinds(st.outputs, Var(name, TypeFromString(typeName, directory)));
    Made(st.(outputs := vs), v)
  }

  /** `create_local`: a new canvas local typed by a type string, unless the canvas has the name. */
  function CreateLocal(st: State, name: string, typeName: string, directory: set<string>): (r: Made)
    ensures r.st.inputs == st.inputs && r.st.outputs == st.outputs && r.st.opLocals == st.opLocals
    ensures r.st.equations == st.equations && r.st.producers == st.producers && r.st.edges == st.edges
    ensures r.st.locals == Declare(st.locals, Var(name, TypeFromString(typeName, directory))).0
    ensures Find(r.st.locals, name) == Some(r.v)
  {
    var (vs, v) := Declare(st.locals, Var(name, TypeFromString(typeName, directory)));
    DeclareFinds(st.locals, Var(name, TypeFromString(typeName, directory)));
    Made(st.(locals := vs), v)
  }

  /** After a declaration the name finds the variable handed back. */
  lemma DeclareFinds(vars: seq<Var>, v: Var)
    ensures Find(Declare(vars, v).0, v.name) == Some(Declare(vars, v).1)
  {
    if v.name !in Names(vars) {
      DeclareIdempotent(vars, v, v);
    }
  }

  /**
   * `create_local_E`: a canvas local with a copy of a given type. The name
   * check comes first; copying a missing type raises `AttributeError`, and
   * nothing has changed by then.
   */
  function CreateLocalE(st: State, ty: Option<Ty>, name: string): (r: Result<Made, Exc>)
    ensures name in Names(st.locals) ==> r == Ok(Made(st, Find(st.locals, name).value))
    ensures name !in Names(st.locals) && ty.None? ==> r == Err(AttributeError)
    ensures name !in Names(st.locals) && ty.Some? ==>
              r.Ok? && r.value.v == Var(name, ty.value)
              && r.value.st == st.(locals := st.locals + [Var(name, ty.value)])
  {
    match Find(st.locals, name)
    case Some(existing) => Ok(Made(st, existing))
    case None =>
      match CloneType(ty)
      case Err(e) => Err(e)
      case Ok(t) => Ok(Made(st.(locals := st.locals + [Var(name, t)]), Var(name, t)))
  }

  // ---------------------------------------------------------------------------
  // The older script's declarations
  // ---------------------------------------------------------------------------

  /** `create_input` of the older script: a NamedType of a looked-up type, no `^` parsing. */
  function CreateInputV4(st: State, typeName: string, name: string, directory: set<string>): (r: Made)
    ensures r.st == st.(inputs := r.st.inputs)
    ensures r.st.inputs == Declare(st.inputs, Var(name, Named(FindType(directory, typeName)))).0
    ensures name !in Names(st.inputs) ==> r.v.ty == Named(FindType(directory, typeName))
  {
    var (vs, v) := Declare(st.inputs, Var(name, Named(FindType(directory, typeName))));
    Made(st.(inputs := vs), v)
  }

  function CreateOutputV4(st: State, typeName: string, name: string, directory: set<string>): (r: Made)
    ensures r.st == st.(outputs := r.st.outputs)
    ensures r.st.outputs == Declare(st.outputs, Var(name, Named(FindType(directory, typeName)))).0
    ensures name !in Names(st.outputs) ==> r.v.ty == Named(FindType(directory, typeName))
  {
    var (vs, v) := Declare(st.outputs, Var(name, Named(FindType(directory, typeName))));
    Made(st.(outputs := vs), v)
  }

  /** `create_local` of the older script: the operator's locals, which are `locals` here. */
  function CreateLocalV4(st: State, typeName: string, name: string, directory: set<string>): (r: Made)
    ensures r.st == st.(locals := r.st.locals)
    ensures r.st.locals == Declare(st.locals, Var(name, Named(FindType(directory, typeName)))).0
    ensures name !in Names(st.locals) ==> r.v.ty == Named(FindType(directory, typeName))
  {
    var (vs, v) := Declare(st.locals, Var(name, Named(FindType(directory, typeName))));
    Made(st.(locals := vs), v)
  }

  /**
   * `create_local_E` of the older script: a fresh NamedType referencing the
   * given type's declaration. `None` raises `AttributeError`; a Table hands its
   * element type where a declaration is expected, which the Java side refuses.
   */
  function CreateLocalEV4(st: State, ty: Option<Ty>, name: string): (r: Result<Made, Exc>)
    ensures name in Names(st.locals) ==> r == Ok(Made(st, Find(st.locals, name).value))
    ensures name !in Names(st.locals) ==>
              (r.Ok? <==> ty.Some? && ty.value.Named?)
    ensures name !in Names(st.locals) && r.Ok? ==>
              r.value.v == Var(name, ty.value)
              && r.value.st == st.(locals := st.locals + [Var(name, ty.value)])
    ensures r.Err? ==> r.error == (if ty.None? then AttributeError else ForeignError)
  {
    match Find(st.locals, name)
    case Some(existing) => Ok(Made(st, existing))
    case None =>
      match ty
      case None => Err(AttributeError)
      case Some(Table(_, _)) => Err(ForeignError)
      case Some(Named(b)) => Ok(Made(st.(locals := st.locals + [Var(name, Named(b))]), Var(name, Named(b))))
  }

  // ---------------------------------------------------------------------------
  // get_output_port_data_type
  // ---------------------------------------------------------------------------

  /**
   * `get_output_port_data_type`: the type of output `index` of the called
   * operator, `None` when the index is out of range; a missing operator raises.
   */
  function OutputPortType(op: Option<OpSig>, index: int): (r: Result<Option<Ty>, Exc>)
    ensures op.None? <==> r == Err(AttributeError)
    ensures op.Some? && (index < 0 || index >= |op.value.outputs|) ==> r == Ok(None)
    ensures op.Some? && 0 <= index < |op.value.outputs| ==> r == Ok(Some(op.value.outputs[index]))
  {
    match op
    case None => Err(AttributeError)
    case Some(sig) => if index < 0 || index >= |sig.outputs| then Ok(None) else Ok(Some(sig.outputs[index]))
  }
}

=== FILE: text.dfy ===
/**
 * The Python string primitives the compiler is built from: `str.strip`,
 * `str.split`, `str.splitlines`, substring search, `int()` of a digit string
 * and `str()` of an integer. Character classes are those of Python's `re`
 * module for `str` patterns, with `\w` restricted to ASCII.
 */
module Text {
  import opened Wrappers

  /** Python's `str.isspace`; `\s` in a `str` pattern matches the same set. */
  predicate IsSpace(c: char) {
    || ('\t' <= c <= '\r')
    || ('\U{1C}' <= c <= ' ')
    || c == '\U{85}' || c == '\U{A0}' || c == '\U{1680}'
    || ('\U{2000}' <= c <= '\U{200A}')
    || c == '\U{2028}' || c == '\U{2029}' || c == '\U{202F}' || c == '\U{205F}' || c == '\U{3000}'
  }

  predicate IsDigit(c: char) {
    '0' <= c <= '9'
  }

  /** `[a-zA-Z0-9_]`, which is also the ASCII part of `\w`. */
  predicate IsWordChar(c: char) {
    ('a' <= c <= 'z') || ('A' <= c <= 'Z') || IsDigit(c) || c == '_'
  }

  predicate AllSpace(s: string) {
    forall k :: 0 <= k < |s| ==> IsSpace(s[k])
  }

  predicate AllDigits(s: string) {
    forall k :: 0 <= k < |s| ==> IsDigit(s[k])
  }

  predicate AllWord(s: string) {
    forall k :: 0 <= k < |s| ==> IsWordChar(s[k])
  }

  /** Every character of `s` is in the class `p`. */
  predicate AllOf(s: string, p: char -> bool) {
    forall k :: 0 <= k < |s| ==> p(s[k])
  }

  /** A character class that holds on a slice holds on every slice inside it. */
  lemma AllOfInner(s: string, lo: nat, hi: nat, lo': nat, hi': nat, p: char -> bool)
    requires lo <= lo' <= hi' <= hi <= |s|
    requires AllOf(s[lo..hi], p)
    ensures AllOf(s[lo'..hi'], p)
  {
    forall k | 0 <= k < hi' - lo'
      ensures p(s[lo'..hi'][k])
    {
      assert s[lo'..hi'][k] == s[lo..hi][k + lo' - lo];
    }
  }

  /** The end of the longest run of `inRun` characters that starts at `from`. */
  function RunEnd(s: string, from: nat, inRun: char -> bool): (r: nat)
    requires from <= |s|
    ensures from <= r <= |s|
    ensures AllOf(s[from..r], inRun)
    ensures r < |s| ==> !inRun(s[r])
    decreases |s| - from
  {
    if from < |s| && inRun(s[from]) then
      var r := RunEnd(s, from + 1, inRun);
      assert s[from..r] == [s[from]] + s[from + 1..r];
      r
    else from
  }

  /** A run is determined by where it starts: any maximal run is the one `RunEnd` finds. */
  lemma RunEndIs(s: string, from: nat, inRun: char -> bool, e: nat)
    requires from <= e <= |s|
    requires AllOf(s[from..e], inRun)
    requires e < |s| ==> !inRun(s[e])
    ensures RunEnd(s, from, inRun) == e
  {
    var r := RunEnd(s, from, inRun);
    forall t | from <= t < e
      ensures inRun(s[t])
    {
      assert s[t] == s[from..e][t - from];
    }
    forall t | from <= t < r
      ensures inRun(s[t])
    {
      assert s[t] == s[from..r][t - from];
    }
  }

  /** Neither end of `s` is whitespace: what `str.strip()` returns. */
  predicate Trimmed(s: string) {
    |s| == 0 || (!IsSpace(s[0]) && !IsSpace(s[|s| - 1]))
  }

  // ---------------------------------------------------------------------------
  // str.strip()
  // ---------------------------------------------------------------------------

  function TrimStart(s: string): (r: string)
    ensures |r| <= |s| && r == s[|s| - |r|..]
    ensures AllSpace(s[..|s| - |r|])
    ensures |r| > 0 ==> !IsSpace(r[0])
    decreases |s|
  {
    if |s| > 0 && IsSpace(s[0]) then TrimStart(s[1..]) else s
  }

  function TrimEnd(s: string): (r: string)
    ensures |r| <= |s| && r == s[..|r|]
    ensures AllSpace(s[|r|..])
    ensures |r| > 0 ==> !IsSpace(r[|r| - 1])
    decreases |s|
  {
    if |s| > 0 && IsSpace(s[|s| - 1]) then TrimEnd(s[..|s| - 1]) else s
  }

  /** Python's `s.strip()`: `s` without its leading and trailing whitespace. */
  function Strip(s: string): (r: string)
    ensures Trimmed(r) && |r| <= |s|
    decreases |s|
  {
    if |s| > 0 && IsSpace(s[0]) then Strip(s[1..]) else TrimEnd(s)
  }

  /** Stripping is trimming the front and then the back. */
  lemma {:induction false} StripIsTrims(s: string)
    ensures Strip(s) == TrimEnd(TrimStart(s))
    decreases |s|
  {
    if |s| > 0 && IsSpace(s[0]) {
      StripIsTrims(s[1..]);
    }
  }

  /** Stripping removes whitespace at the two ends and nothing else. */
  lemma StripRemovesEnds(s: string)
    ensures var r := Strip(s);
      exists i :: 0 <= i <= |s| - |r| && s[..i] + r + s[i + |r|..] == s
                  && AllSpace(s[..i]) && AllSpace(s[i + |r|..])
  {
    var t := TrimStart(s);
    var r := TrimEnd(t);
    var i := |s| - |t|;
    StripIsTrims(s);
    StripDecomposes(s, t, r);
    assert s[..i] + r + s[i + |r|..] == s;
  }

  lemma StripDecomposes(s: string, t: string, r: string)
    requires |t| <= |s| && t == s[|s| - |t|..]
    requires |r| <= |t| && r == t[..|r|] && AllSpace(t[|r|..])
    ensures s[..|s| - |t|] + r + s[|s| - |t| + |r|..] == s
    ensures AllSpace(s[|s| - |t| + |r|..])
  {
    var i := |s| - |t|;
    var tail := t[|r|..];
    assert t == r + tail;
    assert s[i + |r|..] == tail;
    assert s == s[..i] + s[i..];
  }

  lemma {:induction false} TrimStartOfPadded(pre: string, t: string)
    requires AllSpace(pre)
    requires |t| == 0 || !IsSpace(t[0])
    ensures TrimStart(pre + t) == t
    decreases |pre|
  {
    if |pre| > 0 {
      assert (pre + t)[1..] == pre[1..] + t;
      TrimStartOfPadded(pre[1..], t);
    }
  }

  lemma {:induction false} TrimEndOfPadded(t: string, post: string)
    requires AllSpace(post)
    requires |t| == 0 || !IsSpace(t[|t| - 1])
    ensures TrimEnd(t + post) == t
    decreases |post|
  {
    if |post| > 0 {
      assert (t + post)[..|t + post| - 1] == t + post[..|post| - 1];
      TrimEndOfPadded(t, post[..|post| - 1]);
    }
  }

  /** `strip` removes exactly the whitespace padding around a trimmed string. */
  lemma StripOfPadded(pre: string, x: string, post: string)
    requires AllSpace(pre) && AllSpace(post) && Trimmed(x)
    ensures Strip(pre + x + post) == x
  {
    StripIsTrims(pre + x + post);
    TrimsOfPadded(pre, x, post);
  }

  lemma TrimsOfPadded(pre: string, x: string, post: string)
    requires AllSpace(pre) && AllSpace(post) && Trimmed(x)
    ensures TrimEnd(TrimStart(pre + x + post)) == x
  {
    if |x| == 0 {
      assert pre + x + post == (pre + post) + "";
      TrimStartOfPadded(pre + post, "");
    } else {
      assert pre + x + post == pre + (x + post);
      TrimStartOfPadded(pre, x + post);
      TrimEndOfPadded(x, post);
    }
  }

  /** Stripping adds no character. */
  lemma StripOmits(s: string, c: char)
    requires c !in s
    ensures c !in Strip(s)
  {
    StripIsTrims(s);
    var t := TrimStart(s);
    SliceOmits(s, c, |s| - |t|, |s|);
    var r := TrimEnd(t);
    SliceOmits(t, c, 0, |r|);
  }

  lemma SliceOmits(s: string, c: char, lo: nat, hi: nat)
    requires c !in s && lo <= hi <= |s|
    ensures c !in s[lo..hi]
  {
    forall k | 0 <= k < hi - lo
      ensures s[lo..hi][k] != c
    {
      assert s[lo..hi][k] == s[lo + k];
    }
  }

  /** Text that is already trimmed is left alone. */
  lemma StripTrimmed(x: string)
    requires Trimmed(x)
    ensures Strip(x) == x
  {
    assert AllSpace("");
    assert "" + x + "" == x;
    StripOfPadded("", x, "");
  }

  /** `strip` is idempotent. */
  lemma StripIdempotent(s: string)
    ensures Strip(Strip(s)) == Strip(s)
  {
    var r := Strip(s);
    assert AllSpace("");
    assert "" + r + "" == r;
    StripOfPadded("", r, "");
  }

  // ---------------------------------------------------------------------------
  // Substring search and str.split(sep)
  // ---------------------------------------------------------------------------

  predicate OccursAt(s: string, pat: string, k: int) {
    0 <= k && k + |pat| <= |s| && s[k..k + |pat|] == pat
  }

  /** The leftmost occurrence of `pat` in `s` at or after `from`. */
  function IndexOfFrom(s: string, pat: string, from: nat): (r: Option<nat>)
    requires |pat| > 0 && from <= |s|
    ensures r.Some? ==> from <= r.value && OccursAt(s, pat, r.value)
    ensures r.Some? ==> forall k :: from <= k < r.value ==> !OccursAt(s, pat, k)
    ensures r.None? ==> forall k :: from <= k ==> !OccursAt(s, pat, k)
    decreases |s| - from
  {
    if from + |pat| > |s| then None
    else if s[from..from + |pat|] == pat then Some(from)
    else IndexOfFrom(s, pat, from + 1)
  }

  /** Python's `s.find(pat)`, with `None` for -1. */
  function IndexOf(s: string, pat: string): (r: Option<nat>)
    requires |pat| > 0
    ensures r.Some? ==> OccursAt(s, pat, r.value) && forall k :: 0 <= k < r.value ==> !OccursAt(s, pat, k)
    ensures r.None? ==> forall k :: !OccursAt(s, pat, k)
  {
    IndexOfFrom(s, pat, 0)
  }

  /** Python's `pat in s`. */
  predicate Contains(s: string, pat: string)
    requires |pat| > 0
  {
    IndexOf(s, pat).Some?
  }

  /** An occurrence inside a prefix is an occurrence in the whole string. */
  lemma OccursInPrefix(s: string, n: nat, pat: string, k: int)
    requires n <= |s|
    requires OccursAt(s[..n], pat, k)
    ensures OccursAt(s, pat, k)
  {
    assert s[..n][k..k + |pat|] == s[k..k + |pat|];
  }

  /** Python's `s.split(sep)` for a non-empty separator: cut at every leftmost, non-overlapping occurrence. */
  function Split(s: string, sep: string): (parts: seq<string>)
    requires |sep| > 0
    ensures |parts| >= 1
    ensures forall k :: 0 <= k < |parts| ==> !Contains(parts[k], sep)
    decreases |s|
  {
    match IndexOf(s, sep)
    case None => [s]
    case Some(k) =>
      var head := s[..k];
      assert !Contains(head, sep) by {
        if IndexOf(head, sep).Some? {
          OccursInPrefix(s, k, sep, IndexOf(head, sep).value);
        }
      }
      [head] + Split(s[k + |sep|..], sep)
  }

  /** Python's `sep.join(parts)`. */
  function Join(parts: seq<string>, sep: string): string
    decreases |parts|
  {
    if |parts| == 0 then ""
    else if |parts| == 1 then parts[0]
    else parts[0] + sep + Join(parts[1..], sep)
  }

  /** The first piece starts the joined text. */
  lemma JoinStartsWithHead(parts: seq<string>, sep: string)
    requires |parts| >= 1
    ensures |parts[0]| <= |Join(parts, sep)|
    ensures Join(parts, sep)[..|parts[0]|] == parts[0]
  {
  }

  /** A character class that holds on every piece and on the separator holds on the joined text. */
  lemma {:induction false} JoinAllOf(parts: seq<string>, sep: string, p: char -> bool)
    requires AllOf(sep, p)
    requires forall k :: 0 <= k < |parts| ==> AllOf(parts[k], p)
    ensures AllOf(Join(parts, sep), p)
    decreases |parts|
  {
    if |parts| > 1 {
      JoinAllOf(parts[1..], sep, p);
      var rest := Join(parts[1..], sep);
      var s := parts[0] + sep + rest;
      forall k | 0 <= k < |s|
        ensures p(s[k])
      {
        if k < |parts[0]| {
          assert s[k] == parts[0][k];
        } else if k < |parts[0]| + |sep| {
          assert s[k] == sep[k - |parts[0]|];
        } else {
          assert s[k] == rest[k - |parts[0]| - |sep|];
        }
      }
    }
  }

  /** Splitting loses nothing: joining the pieces back gives the original text. */
  lemma {:induction false} SplitThenJoin(s: string, sep: string)
    requires |sep| > 0
    ensures Join(Split(s, sep), sep) == s
    decreases |s|
  {
    match IndexOf(s, sep)
    case None =>
    case Some(k) =>
      var rest := s[k + |sep|..];
      var pieces := Split(rest, sep);
      SplitThenJoin(rest, sep);
      assert Split(s, sep) == [s[..k]] + pieces;
      assert ([s[..k]] + pieces)[1..] == pieces;
      assert Join(Split(s, sep), sep) == s[..k] + sep + rest;
      assert s == s[..k] + s[k..k + |sep|] + rest;
  }

  lemma FirstCharOccurrence(x: string, c: char, y: string)
    requires c !in x
    ensures IndexOf(x + [c] + y, [c]) == Some(|x|)
  {
    var s := x + [c] + y;
    assert OccursAt(s, [c], |x|) by {
      assert s[|x|..|x| + 1] == [c];
    }
    forall k | 0 <= k < |x|
      ensures !OccursAt(s, [c], k)
    {
      assert s[k..k + 1] == [x[k]];
    }
  }

  lemma NoOccurrenceOfChar(x: string, c: char)
    requires c !in x
    ensures IndexOf(x, [c]) == None
  {
    forall k | 0 <= k < |x|
      ensures !OccursAt(x, [c], k)
    {
      assert x[k..k + 1] == [x[k]];
    }
  }

  /** For a one-character separator that no piece contains, splitting undoes joining. */
  lemma {:induction false} JoinThenSplit(parts: seq<string>, c: char)
    requires |parts| >= 1
    requires forall k :: 0 <= k < |parts| ==> c !in parts[k]
    ensures Split(Join(parts, [c]), [c]) == parts
    decreases |parts|
  {
    if |parts| == 1 {
      NoOccurrenceOfChar(parts[0], c);
    } else {
      var head, tail := parts[0], parts[1..];
      var rest := Join(tail, [c]);
      var s := head + [c] + rest;
      assert Join(parts, [c]) == s;
      FirstCharOccurrence(head, c, rest);
      assert s[..|head|] == head;
      assert s[|head| + 1..] == rest;
      assert Split(s, [c]) == [head] + Split(rest, [c]);
      JoinThenSplit(tail, c);
      assert parts == [head] + tail;
    }
  }

  /** Splitting on one character gives one piece more than the character occurs. */
  lemma {:induction false} SplitCount(s: string, c: char)
    ensures |Split(s, [c])| == multiset(s)[c] + 1
    decreases |s|
  {
    match IndexOf(s, [c])
    case None =>
      forall k | 0 <= k < |s|
        ensures s[k] != c
      {
        assert !OccursAt(s, [c], k);
        assert s[k..k + 1] == [s[k]];
      }
      assert multiset(s)[c] == 0;
    case Some(k) =>
      var head, rest := s[..k], s[k + 1..];
      forall j | 0 <= j < |head|
        ensures head[j] != c
      {
        assert !OccursAt(s, [c], j);
        assert s[j..j + 1] == [s[j]];
      }
      assert s[k..k + 1] == [c];
      assert s == head + [c] + rest;
      assert multiset(s) == multiset(head) + multiset{c} + multiset(rest);
      SplitCount(rest, c);
  }

  /** Python's `[p.strip() for p in parts]`. */
  function StripEach(parts: seq<string>): (r: seq<string>)
    ensures |r| == |parts|
    ensures forall k :: 0 <= k < |r| ==> r[k] == Strip(parts[k])
  {
    seq(|parts|, k requires 0 <= k < |parts| => Strip(parts[k]))
  }

  /** `StripEach` is determined piece by piece. */
  lemma StripEachIs(parts: seq<string>, stripped: seq<string>)
    requires |parts| == |stripped|
    requires forall k :: 0 <= k < |parts| ==> Strip(parts[k]) == stripped[k]
    ensures StripEach(parts) == stripped
  {
  }

  /** Python's `[p for p in parts if p]`. */
  function NonEmpty(parts: seq<string>): (r: seq<string>)
    ensures |r| <= |parts|
    ensures forall k :: 0 <= k < |r| ==> |r[k]| > 0 && r[k] in parts
    ensures forall p :: p in parts && |p| > 0 ==> p in r
  {
    if |parts| == 0 then []
    else if |parts[0]| == 0 then NonEmpty(parts[1..])
    else [parts[0]] + NonEmpty(parts[1..])
  }

  // ---------------------------------------------------------------------------
  // str.splitlines()
  // ---------------------------------------------------------------------------

  /** The line boundaries `str.splitlines` recognises (`\r\n` counts as one). */
  predicate IsLineBreak(c: char) {
    || ('\n' <= c <= '\r')
    || ('\U{1C}' <= c <= '\U{1E}')
    || c == '\U{85}' || c == '\U{2028}' || c == '\U{2029}'
  }

  predicate NoLineBreak(s: string) {
    forall k :: 0 <= k < |s| ==> !IsLineBreak(s[k])
  }

  function FirstBreak(s: string): (k: nat)
    ensures k <= |s| && NoLineBreak(s[..k])
    ensures k < |s| ==> IsLineBreak(s[k])
  {
    if |s| == 0 then 0
    else if IsLineBreak(s[0]) then 0
    else
      var k := 1 + FirstBreak(s[1..]);
      assert s[..k] == [s[0]] + s[1..][..k - 1];
      k
  }

  /** Python's `s.splitlines()`: the lines of `s` without their terminators; no empty last line. */
  function SplitLines(s: string): (lines: seq<string>)
    ensures |lines| <= |s|
    ensures |s| > 0 ==> |lines| >= 1
    ensures forall k :: 0 <= k < |lines| ==> NoLineBreak(lines[k])
    decreases |s|
  {
    if |s| == 0 then []
    else
      var k := FirstBreak(s);
      if k == |s| then [s]
      else
        var width := if s[k] == '\r' && k + 1 < |s| && s[k + 1] == '\n' then 2 else 1;
        [s[..k]] + SplitLines(s[k + width..])
  }

  /** The only line terminator in `s` is `\n`. */
  predicate OnlyNewlineBreaks(s: string) {
    forall k :: 0 <= k < |s| ==> IsLineBreak(s[k]) ==> s[k] == '\n'
  }

  lemma NewlineBreaksOfSuffix(s: string, i: nat)
    requires OnlyNewlineBreaks(s) && i <= |s|
    ensures OnlyNewlineBreaks(s[i..])
  {
    forall j | 0 <= j < |s| - i
      ensures IsLineBreak(s[i..][j]) ==> s[i..][j] == '\n'
    {
      assert s[i..][j] == s[i + j];
    }
  }

  /**
   * For text whose only line terminator is `\n` and which does not end with
   * one, `splitlines` is the inverse of joining with `\n`.
   */
  lemma {:induction false} SplitLinesThenJoin(s: string)
    requires OnlyNewlineBreaks(s)
    requires |s| == 0 || s[|s| - 1] != '\n'
    ensures Join(SplitLines(s), "\n") == s
    decreases |s|
  {
    if |s| > 0 && FirstBreak(s) < |s| {
      var k := FirstBreak(s);
      LineAtNewline(s);
      NewlineBreaksOfSuffix(s, k + 1);
      SplitLinesThenJoin(s[k + 1..]);
      JoinAroundNewline(s, k, SplitLines(s[k + 1..]));
    }
  }

  /** Joining the line before a `\n` with the lines that rebuild the rest rebuilds `s`. */
  lemma JoinAroundNewline(s: string, k: nat, lines: seq<string>)
    requires k < |s| && s[k] == '\n'
    requires |lines| >= 1 && Join(lines, "\n") == s[k + 1..]
    ensures Join([s[..k]] + lines, "\n") == s
  {
    JoinCons(s[..k], lines, "\n");
    AroundIndex(s, k);
  }

  /** A text is what comes before position `k`, the character there, and what follows. */
  lemma AroundIndex(s: string, k: nat)
    requires k < |s|
    ensures s[..k] + [s[k]] + s[k + 1..] == s
  {
    assert s[k..] == [s[k]] + s[k + 1..];
    assert s == s[..k] + s[k..];
  }

  /** A first break that is a `\n` not ending the text splits off one line. */
  lemma LineAtNewline(s: string)
    requires OnlyNewlineBreaks(s)
    requires |s| > 0 && s[|s| - 1] != '\n' && FirstBreak(s) < |s|
    ensures s[FirstBreak(s)] == '\n' && FirstBreak(s) + 1 < |s|
    ensures s[FirstBreak(s) + 1..][|s| - FirstBreak(s) - 2] == s[|s| - 1]
    ensures SplitLines(s) == [s[..FirstBreak(s)]] + SplitLines(s[FirstBreak(s) + 1..])
    ensures |SplitLines(s[FirstBreak(s) + 1..])| >= 1
  {
  }

  /** Joining a head piece in front of a non-empty list. */
  lemma JoinCons(head: string, tail: seq<string>, sep: string)
    requires |tail| >= 1
    ensures Join([head] + tail, sep) == head + sep + Join(tail, sep)
  {
    assert ([head] + tail)[1..] == tail;
  }

  // ---------------------------------------------------------------------------
  // Decimal numerals: int() of a digit string and str() of an int
  // ---------------------------------------------------------------------------

  function DigitValue(c: char): nat
    requires IsDigit(c)
  {
    c as int - '0' as int
  }

  function DigitChar(d: nat): (c: char)
    requires d < 10
    ensures IsDigit(c) && DigitValue(c) == d
  {
    ('0' as int + d) as char
  }

  /** Python's `int(s)` for a non-empty string of ASCII digits. */
  function DigitsValue(s: string): nat
    requires AllDigits(s)
    decreases |s|
  {
    if |s| == 0 then 0 else DigitsValue(s[..|s| - 1]) * 10 + DigitValue(s[|s| - 1])
  }

  /** A digit string without superfluous leading zeros, as `str` prints a natural number. */
  predicate Canonical(s: string) {
    |s| >= 1 && AllDigits(s) && (s[0] == '0' ==> |s| == 1)
  }

  /** Python's `str(n)` for a natural number. */
  function NatToString(n: nat): (r: string)
    ensures Canonical(r)
    decreases n
  {
    if n < 10 then [DigitChar(n)]
    else
      var r := NatToString(n / 10) + [DigitChar(n % 10)];
      assert r[0] == NatToString(n / 10)[0];
      r
  }

  /** Python's `str(i)` for an integer. */
  function IntToString(i: int): string {
    if i < 0 then "-" + NatToString(-i) else NatToString(i)
  }

  /** Reading back a printed natural number gives the number. */
  lemma {:induction false} NatToStringValue(n: nat)
    ensures DigitsValue(NatToString(n)) == n
    decreases n
  {
    if n >= 10 {
      var r := NatToString(n);
      NatToStringValue(n / 10);
      assert r[..|r| - 1] == NatToString(n / 10);
    }
  }

  /** Printing the value of a canonical digit string gives the string back. */
  lemma {:induction false} DigitsValueToString(s: string)
    requires Canonical(s)
    ensures NatToString(DigitsValue(s)) == s
    decreases |s|
  {
    if |s| > 1 {
      var init := s[..|s| - 1];
      var d := DigitValue(s[|s| - 1]);
      assert Canonical(init) by {
        assert init[0] == s[0];
      }
      DigitsValueToString(init);
      var v := DigitsValue(init);
      assert init[0] != '0';
      assert NatToString(0) == "0";
      assert v > 0;
      assert DigitsValue(s) == v * 10 + d;
      assert (v * 10 + d) / 10 == v && (v * 10 + d) % 10 == d;
      assert DigitChar(d) == s[|s| - 1];
      assert s == init + [s[|s| - 1]];
    }
  }

  // ---------------------------------------------------------------------------
  // Positions picked out of a sequence
  // ---------------------------------------------------------------------------

  /** The positions of a tail, as positions of the whole sequence. */
  function Shift(idx: seq<nat>): (r: seq<nat>)
    ensures |r| == |idx|
    ensures forall i :: 0 <= i < |idx| ==> r[i] == idx[i] + 1
  {
    seq(|idx|, i requires 0 <= i < |idx| => idx[i] + 1)
  }

  /** Positions in strictly increasing order. */
  predicate Increasing(idx: seq<nat>) {
    forall i, j :: 0 <= i < j < |idx| ==> idx[i] < idx[j]
  }

  /** Where the shifted positions of the tail sit in the whole. */
  lemma ShiftMembers(idx: seq<nat>, k: nat)
    requires k >= 1
    ensures k in Shift(idx) <==> k - 1 in idx
  {
    var sh := Shift(idx);
    if k in sh {
      var i :| 0 <= i < |sh| && sh[i] == k;
      assert idx[i] == k - 1;
    }
    if k - 1 in idx {
      var i :| 0 <= i < |idx| && idx[i] == k - 1;
      assert sh[i] == k;
    }
  }

  /** Position 0 followed by the shifted positions of the tail keeps them increasing. */
  lemma ShiftCons(idx: seq<nat>)
    requires Increasing(idx)
    ensures Increasing([0] + Shift(idx))
  {
    var r := [0] + Shift(idx);
    forall i, j | 0 <= i < j < |r|
      ensures r[i] < r[j]
    {
      assert r[j] == idx[j - 1] + 1;
      if i > 0 {
        assert r[i] == idx[i - 1] + 1;
      }
    }
  }
}

=== FILE: text_block.dfy ===
/**
 * `parse_text_block`: the text is stripped and cut into lines; each line is
 * parsed on its own and the descriptors of the lines that parse are kept in
 * order. The builder's version sends lines that mention `mapfoldwi` to the
 * mapfoldwi parser, whose `ValueError` ends the whole block; the older
 * script's version knows only the expression parser.
 */
module TextBlock {
  import opened Wrappers
  import opened Text
  import opened Exceptions
  import opened ExprLine
  import opened MapfoldLine

  /** The lines the block is cut into: those of the stripped text. */
  function BlockLines(text: string): (lines: seq<string>)
    ensures |lines| <= |text|
    ensures forall k :: 0 <= k < |lines| ==> NoLineBreak(lines[k])
  {
    SplitLines(Strip(text))
  }

  /** For `\n`-separated text, the block's lines rebuild the stripped text. */
  lemma BlockLinesRejoin(text: string)
    requires OnlyNewlineBreaks(Strip(text))
    ensures Join(BlockLines(text), "\n") == Strip(text)
  {
    var s := Strip(text);
    if |s| > 0 {
      assert IsSpace('\n');
    }
    SplitLinesThenJoin(s);
  }

  // ---------------------------------------------------------------------------
  // One line
  // ---------------------------------------------------------------------------

  /**
   * One line of the builder's block: `Err` is the mapfoldwi parser's
   * exception, `Ok(None)` a line that is dropped, `Ok(Some(d))` a kept line.
   */
  function ParseLine(line: string): (r: Result<Option<Descriptor>, Exc>)
    ensures r.Err? ==> Contains(line, "mapfoldwi") && r.error.ValueError?
    ensures Contains(line, "mapfoldwi") ==> r.Err? || (r.value.Some? && r.value.value.Iterate?)
    ensures r.Ok? && r.value.Some? && !r.value.value.Iterate? ==> WellShaped(r.value.value)
  {
    if Contains(line, "mapfoldwi") then
      match ParseMapfoldwi(line)
      case Err(e) => Err(e)
      case Ok(d) => Ok(Some(d))
    else Ok(ParseExpressionLine(line))
  }

  /** A line without `mapfoldwi` is handled by the expression parser alone. */
  lemma PlainLineRouting(line: string)
    requires !Contains(line, "mapfoldwi")
    ensures ParseLine(line) == Ok(ParseExpressionLine(line))
    ensures ParseLine(line).value.None? <==> ParseExpressionLineV4(line).None?
  {
  }

  /** A line with `mapfoldwi` is kept exactly when the mapfoldwi parser accepts it. */
  lemma MapfoldLineRouting(line: string)
    requires Contains(line, "mapfoldwi")
    ensures ParseLine(line).Ok? <==> ParseMapfoldwi(line).Ok?
    ensures ParseMapfoldwi(line).Ok? ==> ParseLine(line) == Ok(Some(ParseMapfoldwi(line).value))
    ensures ParseMapfoldwi(line).Err? ==> ParseLine(line) == Err(ParseMapfoldwi(line).error)
  {
  }

  // ---------------------------------------------------------------------------
  // Collecting the outcomes of the lines
  // ---------------------------------------------------------------------------

  /** The outcome of each line, in order. */
  function Outcomes(lines: seq<string>): (outs: seq<Result<Option<Descriptor>, Exc>>)
    ensures |outs| == |lines|
    ensures forall k :: 0 <= k < |lines| ==> outs[k] == ParseLine(lines[k])
    ensures forall o :: o in outs && o.Err? ==> o.error.ValueError?
  {
    seq(|lines|, k requires 0 <= k < |lines| => ParseLine(lines[k]))
  }

  /** Walk the outcomes in order: the first exception ends the walk, dropped lines add nothing. */
  function Collect<D, E>(outs: seq<Result<Option<D>, E>>): (r: Result<seq<D>, E>)
    ensures r.Ok? ==> |r.value| <= |outs|
    ensures r.Err? ==> Err(r.error) in outs
  {
    if |outs| == 0 then Ok([])
    else
      match outs[0]
      case Err(e) => Err(e)
      case Ok(head) =>
        match Collect(outs[1..])
        case Err(e) => Err(e)
        case Ok(rest) => Ok(if head.Some? then [head.value] + rest else rest)
  }

  /** The walk succeeds exactly when no outcome is an exception. */
  lemma {:induction false} CollectOk<D, E>(outs: seq<Result<Option<D>, E>>)
    ensures Collect(outs).Ok? <==> forall k :: 0 <= k < |outs| ==> outs[k].Ok?
  {
    if |outs| > 0 {
      CollectOk(outs[1..]);
      assert forall k :: 1 <= k < |outs| ==> outs[1..][k - 1] == outs[k];
    }
  }

  /** The exception of the walk is the first one among the outcomes. */
  lemma {:induction false} CollectFirstError<D, E>(outs: seq<Result<Option<D>, E>>, k: nat)
    requires k < |outs| && outs[k].Err?
    requires forall j :: 0 <= j < k ==> outs[j].Ok?
    ensures Collect(outs) == Err(outs[k].error)
  {
    if k > 0 {
      assert outs[1..][k - 1] == outs[k];
      forall j | 0 <= j < k - 1
        ensures outs[1..][j].Ok?
      {
        assert outs[1..][j] == outs[j + 1];
      }
      CollectFirstError(outs[1..], k - 1);
    }
  }

  /** The positions of the outcomes that carry a descriptor. */
  function Kept<D, E>(outs: seq<Result<Option<D>, E>>): (idx: seq<nat>)
    ensures |idx| <= |outs|
    ensures forall i :: 0 <= i < |idx| ==> idx[i] < |outs|
  {
    if |outs| == 0 then []
    else
      var rest := Shift(Kept(outs[1..]));
      if outs[0].Ok? && outs[0].value.Some? then [0] + rest else rest
  }

  /** Every outcome is `Ok`: what a successful walk needs. */
  predicate AllOk<D, E>(outs: seq<Result<Option<D>, E>>) {
    forall k :: 0 <= k < |outs| ==> outs[k].Ok?
  }

  /** The kept positions pick out the walk's descriptors, in increasing order. */
  ghost predicate KeptMatches<D, E>(outs: seq<Result<Option<D>, E>>, ds: seq<D>, idx: seq<nat>) {
    && |ds| == |idx|
    && Increasing(idx)
    && (forall i :: 0 <= i < |idx| ==> idx[i] < |outs| && outs[idx[i]] == Ok(Some(ds[i])))
    && (forall k :: 0 <= k < |outs| ==> (k in idx <==> outs[k].Ok? && outs[k].value.Some?))
  }

  /**
   * A successful walk holds, in order, one descriptor per outcome that carries
   * one and nothing for the others: descriptor `i` comes from position
   * `Kept(outs)[i]`, the positions increase, and a position is kept exactly
   * when its outcome carries a descriptor.
   */
  lemma {:induction false} CollectKept<D, E>(outs: seq<Result<Option<D>, E>>)
    requires AllOk(outs)
    ensures Collect(outs).Ok?
    ensures KeptMatches(outs, Collect(outs).value, Kept(outs))
  {
    CollectOk(outs);
    if |outs| > 0 {
      var tail := outs[1..];
      assert AllOk(tail) by {
        assert forall k :: 1 <= k < |outs| ==> tail[k - 1] == outs[k];
      }
      CollectKept(tail);
      CollectOk(tail);
      if outs[0].value.Some? {
        KeptWithHead(outs, Collect(tail).value, Kept(tail));
      } else {
        KeptWithoutHead(outs, Collect(tail).value, Kept(tail));
      }
    }
  }

  lemma KeptWithHead<D, E>(outs: seq<Result<Option<D>, E>>, rest: seq<D>, tidx: seq<nat>)
    requires |outs| > 0 && outs[0].Ok? && outs[0].value.Some?
    requires KeptMatches(outs[1..], rest, tidx)
    ensures KeptMatches(outs, [outs[0].value.value] + rest, [0] + Shift(tidx))
  {
    var ds, idx := [outs[0].value.value] + rest, [0] + Shift(tidx);
    forall i | 1 <= i < |idx|
      ensures idx[i] < |outs| && outs[idx[i]] == Ok(Some(ds[i]))
    {
      assert idx[i] == tidx[i - 1] + 1 && ds[i] == rest[i - 1];
      assert outs[1..][tidx[i - 1]] == outs[idx[i]];
    }
    forall k | 1 <= k < |outs|
      ensures k in idx <==> outs[k].Ok? && outs[k].value.Some?
    {
      ShiftMembers(tidx, k);
      assert outs[1..][k - 1] == outs[k];
    }
  }

  lemma KeptWithoutHead<D, E>(outs: seq<Result<Option<D>, E>>, rest: seq<D>, tidx: seq<nat>)
    requires |outs| > 0 && outs[0].Ok? && outs[0].value.None?
    requires KeptMatches(outs[1..], rest, tidx)
    ensures KeptMatches(outs, rest, Shift(tidx))
  {
    var idx := Shift(tidx);
    forall i | 0 <= i < |idx|
      ensures idx[i] < |outs| && outs[idx[i]] == Ok(Some(rest[i]))
    {
      assert outs[1..][tidx[i]] == outs[idx[i]];
    }
    forall k | 1 <= k < |outs|
      ensures k in idx <==> outs[k].Ok? && outs[k].value.Some?
    {
      ShiftMembers(tidx, k);
      assert outs[1..][k - 1] == outs[k];
    }
    assert 0 !in idx;
  }

  // ---------------------------------------------------------------------------
  // The whole block
  // ---------------------------------------------------------------------------

  /** `SCADE_Builder.parse_text_block`, up to the dispatch of the descriptors. */
  function ParseTextBlock(text: string): (r: Result<seq<Descriptor>, Exc>)
    ensures r.Ok? ==> |r.value| <= |BlockLines(text)|
    ensures r.Err? ==> r.error.ValueError?
  {
    Collect(Outcomes(BlockLines(text)))
  }

  /**
   * The block raises exactly when one of its lines does, and then with the
   * exception of the first such line.
   */
  lemma BlockErrors(text: string, k: nat)
    requires k < |BlockLines(text)| && ParseLine(BlockLines(text)[k]).Err?
    requires forall j :: 0 <= j < k ==> ParseLine(BlockLines(text)[j]).Ok?
    ensures ParseTextBlock(text) == Err(ParseLine(BlockLines(text)[k]).error)
  {
    CollectFirstError(Outcomes(BlockLines(text)), k);
  }

  /**
   * A block none of whose lines raises parses to the descriptors of its
   * parsing lines, in order: descriptor `i` comes from line `idx[i]`, and a
   * line's position is in `idx` exactly when it parses.
   */
  lemma BlockKeepsParsedLines(text: string) returns (idx: seq<nat>)
    requires forall k :: 0 <= k < |BlockLines(text)| ==> ParseLine(BlockLines(text)[k]).Ok?
    ensures ParseTextBlock(text).Ok?
    ensures KeptMatches(Outcomes(BlockLines(text)), ParseTextBlock(text).value, idx)
  {
    var outs := Outcomes(BlockLines(text));
    CollectKept(outs);
    idx := Kept(outs);
  }

  // ---------------------------------------------------------------------------
  // The older script's block
  // ---------------------------------------------------------------------------

  /** The descriptors among `opts`, in order. */
  function Somes(opts: seq<Option<Descriptor>>): (ds: seq<Descriptor>)
    ensures |ds| <= |opts|
    ensures forall d :: d in ds ==> Some(d) in opts
  {
    if |opts| == 0 then []
    else
      var rest := Somes(opts[1..]);
      assert forall d :: Some(d) in opts[1..] ==> Some(d) in opts;
      if opts[0].Some? then [opts[0].value] + rest else rest
  }

  /** What the older expression parser makes of each line. */
  function OptionsV4(lines: seq<string>): (opts: seq<Option<Descriptor>>)
    ensures |opts| == |lines|
    ensures forall k :: 0 <= k < |lines| ==> opts[k] == ParseExpressionLineV4(lines[k])
    ensures forall o :: o in opts && o.Some? ==> o.value.Call?
  {
    seq(|lines|, k requires 0 <= k < |lines| => ParseExpressionLineV4(lines[k]))
  }

  /** The module-level `parse_text_block` of the older script. */
  function ParseTextBlockV4(text: string): (ds: seq<Descriptor>)
    ensures |ds| <= |BlockLines(text)|
    ensures forall d :: d in ds ==> d.Call?
  {
    Somes(OptionsV4(BlockLines(text)))
  }

  /** The options as outcomes of a walk that never raises. */
  function AsOutcomes(opts: seq<Option<Descriptor>>): (outs: seq<Result<Option<Descriptor>, Exc>>)
    ensures |outs| == |opts| && AllOk(outs)
    ensures forall k :: 0 <= k < |opts| ==> outs[k] == Ok(opts[k])
  {
    seq(|opts|, k requires 0 <= k < |opts| => Ok(opts[k]))
  }

  /** Keeping the descriptors among the options is the walk over them. */
  lemma {:induction false} SomesCollect(opts: seq<Option<Descriptor>>)
    ensures Collect(AsOutcomes(opts)) == Ok(Somes(opts))
  {
    if |opts| > 0 {
      SomesCollect(opts[1..]);
      assert AsOutcomes(opts)[1..] == AsOutcomes(opts[1..]);
    }
  }

  /**
   * The older block keeps, for every text, the descriptors of its parsing
   * lines in order: descriptor `i` comes from line `idx[i]`, the positions
   * increase, and a line is kept exactly when the older expression parser
   * accepts it.
   */
  lemma BlockV4KeepsParsedLines(text: string) returns (idx: seq<nat>)
    ensures var lines, ds := BlockLines(text), ParseTextBlockV4(text);
            && |idx| == |ds| && Increasing(idx)
            && (forall i :: 0 <= i < |idx| ==> idx[i] < |lines| && ParseExpressionLineV4(lines[idx[i]]) == Some(ds[i]))
            && (forall k :: 0 <= k < |lines| ==> (k in idx <==> ParseExpressionLineV4(lines[k]).Some?))
  {
    var opts := OptionsV4(BlockLines(text));
    var outs := AsOutcomes(opts);
    SomesCollect(opts);
    CollectKept(outs);
    idx := Kept(outs);
  }

  /** How the builder's descriptor of a line relates to the older script's. */
  predicate Corresponds(d: Descriptor, v: Descriptor) {
    match d
    case Call(_, _, _) => v == d
    case Assign(out, value) =>
      v.Call? && v.operator == "assign" && |v.outputs| >= 1 && v.outputs[0] == out && v.inputs == [value]
    case Iterate(_, _, _, _, _, _) => false
  }

  /** Outcomes and options that agree position by position collect to corresponding lists. */
  lemma {:induction false} CollectCorresponds(outs: seq<Result<Option<Descriptor>, Exc>>, opts: seq<Option<Descriptor>>)
    requires |outs| == |opts|
    requires forall k :: 0 <= k < |outs| ==> outs[k].Ok? && (outs[k].value.Some? <==> opts[k].Some?)
    requires forall k :: 0 <= k < |outs| && outs[k].value.Some? ==> Corresponds(outs[k].value.value, opts[k].value)
    ensures Collect(outs).Ok? && |Collect(outs).value| == |Somes(opts)|
    ensures forall i :: 0 <= i < |Somes(opts)| ==> Corresponds(Collect(outs).value[i], Somes(opts)[i])
  {
    if |outs| > 0 {
      assert forall k :: 1 <= k < |outs| ==> outs[1..][k - 1] == outs[k] && opts[1..][k - 1] == opts[k];
      CollectCorresponds(outs[1..], opts[1..]);
      var ds, vs := Collect(outs).value, Somes(opts);
      var rest, vrest := Collect(outs[1..]).value, Somes(opts[1..]);
      if opts[0].Some? {
        assert ds == [outs[0].value.value] + rest && vs == [opts[0].value] + vrest;
        forall i | 1 <= i < |vs|
          ensures Corresponds(ds[i], vs[i])
        {
          assert ds[i] == rest[i - 1] && vs[i] == vrest[i - 1];
        }
      }
    }
  }

  /**
   * Without `mapfoldwi` lines, both versions of the block keep the same lines:
   * a call line gives the same descriptor, and a simple line gives the
   * builder's one-name assignment and the older script's `"assign"` call on
   * the same first name and value.
   */
  lemma BlocksAgree(text: string)
    requires forall k :: 0 <= k < |BlockLines(text)| ==> !Contains(BlockLines(text)[k], "mapfoldwi")
    ensures ParseTextBlock(text).Ok?
    ensures |ParseTextBlock(text).value| == |ParseTextBlockV4(text)|
    ensures forall i :: 0 <= i < |ParseTextBlockV4(text)| ==>
              Corresponds(ParseTextBlock(text).value[i], ParseTextBlockV4(text)[i])
  {
    var lines := BlockLines(text);
    var opts := OptionsV4(lines);
    var outs := Outcomes(lines);
    forall k | 0 <= k < |lines|
      ensures outs[k].Ok? && (outs[k].value.Some? <==> opts[k].Some?)
      ensures outs[k].value.Some? ==> Corresponds(outs[k].value.value, opts[k].value)
    {
      PlainLineRouting(lines[k]);
    }
    CollectCorresponds(outs, opts);
  }
}

=== FILE: types.dfy ===
/**
 * SCADE type expressions as the builder creates them: a `NamedType` that
 * references a declared type, or a `Table` (fixed-size array) around an
 * element type. Type strings have the form `Base^s1^...^sk`.
 */
module Types {
  import opened Wrappers
  import opened Text
  import opened Exceptions

  /**
   * `Named(base)` is a NamedType whose referenced type declaration is `base`
   * (`None` when the type directory has no type of that name); `Table(size, elem)`
   * is an array of `elem` whose size is the raw constant text `size`.
   */
  datatype Ty = Named(base: Option<string>) | Table(size: string, elem: Ty)

  /** The referenced base type under all Table layers. */
  function BaseOf(t: Ty): Option<string> {
    match t
    case Named(b) => b
    case Table(_, e) => BaseOf(e)
  }

  function Depth(t: Ty): nat {
    match t
    case Named(_) => 0
    case Table(_, e) => 1 + Depth(e)
  }

  /** The Table sizes from the innermost layer to the outermost one. */
  function SizesInnerFirst(t: Ty): (r: seq<string>)
    ensures |r| == Depth(t)
  {
    match t
    case Named(_) => []
    case Table(s, e) => SizesInnerFirst(e) + [s]
  }

  /** `find_typeObject`: look a type name up in the directory of declared types. */
  function FindType(directory: set<string>, name: string): (r: Option<string>)
    ensures r.Some? <==> name in directory
    ensures r.Some? ==> r.value == name
  {
    if name in directory then Some(name) else None
  }

  /** Wrap `t` in one more Table per size, the first size innermost. */
  function WrapTables(t: Ty, sizes: seq<string>): (r: Ty)
    ensures BaseOf(r) == BaseOf(t)
    ensures SizesInnerFirst(r) == SizesInnerFirst(t) + sizes
    decreases |sizes|
  {
    if |sizes| == 0 then t
    else
      var r := WrapTables(Table(sizes[0], t), sizes[1..]);
      assert SizesInnerFirst(t) + sizes == SizesInnerFirst(t) + [sizes[0]] + sizes[1..];
      r
  }

  /**
   * `create_type_from_string`: `Base^s1^...^sk` becomes k Table layers around
   * a NamedType of `Base`; `s1` is the innermost size and `sk` the outermost.
   * Sizes are kept as raw text and not validated.
   */
  function TypeFromString(typeName: string, directory: set<string>): (t: Ty)
    ensures Depth(t) == |Split(typeName, "^")| - 1
    ensures BaseOf(t) == FindType(directory, Split(typeName, "^")[0])
    ensures SizesInnerFirst(t) == Split(typeName, "^")[1..]
  {
    var segments := Split(typeName, "^");
    WrapTables(Named(FindType(directory, segments[0])), segments[1..])
  }

  /** Print a type whose base is known back as a type string. */
  function TypeToString(t: Ty): string
    requires BaseOf(t).Some?
  {
    match t
    case Named(b) => b.value
    case Table(s, e) => TypeToString(e) + "^" + s
  }

  lemma {:induction false} TypeToStringIsJoin(t: Ty)
    requires BaseOf(t).Some?
    ensures TypeToString(t) == Join([BaseOf(t).value] + SizesInnerFirst(t), "^")
  {
    match t
    case Named(b) =>
    case Table(s, e) =>
      TypeToStringIsJoin(e);
      JoinSnoc([BaseOf(e).value] + SizesInnerFirst(e), s, "^");
      assert [BaseOf(t).value] + SizesInnerFirst(t) == ([BaseOf(e).value] + SizesInnerFirst(e)) + [s];
  }

  /** Joining one more piece appends the separator and the piece. */
  lemma {:induction false} JoinSnoc(parts: seq<string>, last: string, sep: string)
    requires |parts| >= 1
    ensures Join(parts + [last], sep) == Join(parts, sep) + sep + last
    decreases |parts|
  {
    if |parts| > 1 {
      assert (parts + [last])[1..] == parts[1..] + [last];
      JoinSnoc(parts[1..], last, sep);
    } else {
      assert (parts + [last])[1..] == [last];
    }
  }

  /** Wrapping a type's base in its sizes rebuilds the type. */
  lemma {:induction false} RebuildFromLayers(t: Ty)
    ensures WrapTables(Named(BaseOf(t)), SizesInnerFirst(t)) == t
  {
    match t
    case Named(b) =>
    case Table(s, e) =>
      RebuildFromLayers(e);
      WrapTablesSnoc(Named(BaseOf(e)), SizesInnerFirst(e), s);
  }

  lemma {:induction false} WrapTablesSnoc(t: Ty, sizes: seq<string>, s: string)
    ensures WrapTables(t, sizes + [s]) == Table(s, WrapTables(t, sizes))
    decreases |sizes|
  {
    if |sizes| == 0 {
      assert ([] + [s])[1..] == [];
    } else {
      assert (sizes + [s])[1..] == sizes[1..] + [s];
      WrapTablesSnoc(Table(sizes[0], t), sizes[1..], s);
    }
  }

  /** No `^` in the base name or in any size. */
  predicate Printable(t: Ty) {
    match t
    case Named(b) => b.Some? && '^' !in b.value
    case Table(s, e) => '^' !in s && Printable(e)
  }

  lemma {:induction false} PrintablePieces(t: Ty)
    requires Printable(t)
    ensures BaseOf(t).Some?
    ensures var ps := [BaseOf(t).value] + SizesInnerFirst(t);
      forall k :: 0 <= k < |ps| ==> '^' !in ps[k]
  {
    match t
    case Named(b) =>
    case Table(s, e) =>
      PrintablePieces(e);
      assert [BaseOf(t).value] + SizesInnerFirst(t) == ([BaseOf(e).value] + SizesInnerFirst(e)) + [s];
  }

  /** Reading a printed type back gives the same type, outermost size last. */
  lemma TypeStringRoundTrip(t: Ty, directory: set<string>)
    requires Printable(t)
    requires BaseOf(t).Some? && BaseOf(t).value in directory
    ensures TypeFromString(TypeToString(t), directory) == t
  {
    PrintablePieces(t);
    TypeToStringIsJoin(t);
    var pieces := [BaseOf(t).value] + SizesInnerFirst(t);
    JoinThenSplit(pieces, '^');
    assert Split(TypeToString(t), "^") == pieces;
    assert pieces[1..] == SizesInnerFirst(t);
    RebuildFromLayers(t);
  }

  /** `Type1^3^2` is a Table of size 2 around a Table of size 3 around `Type1`. */
  lemma LastSuffixIsOutermost(directory: set<string>)
    requires "Type1" in directory
    ensures TypeFromString("Type1^3^2", directory) == Table("2", Table("3", Named(Some("Type1"))))
  {
    var t := Table("2", Table("3", Named(Some("Type1"))));
    assert Printable(t);
    assert TypeToString(t) == "Type1^3^2";
    TypeStringRoundTrip(t, directory);
  }

  /** `clone_type`: a structural copy of every NamedType and Table layer, sizes included. */
  function Clone(t: Ty): (r: Ty)
    ensures r == t
  {
    match t
    case Named(b) => Named(b)
    case Table(s, e) => Table(s, Clone(e))
  }

  /** `clone_type` on a possibly missing type: `type_obj.eClass()` on `None` raises. */
  function CloneType(t: Option<Ty>): (r: Result<Ty, Exc>)
    ensures t.None? <==> r == Err(AttributeError)
    ensures t.Some? ==> r == Ok(t.value)
  {
    match t
    case None => Err(AttributeError)
    case Some(ty) => Ok(Clone(ty))
  }

  /**
   * The type of a non-accumulator mapfoldwi output: the name of the callee's
   * output type declaration with `^size` appended, parsed as a type string.
   * Only a NamedType with a resolved declaration has a name to read.
   */
  function PromotedType(outType: Ty, size: string, directory: set<string>): (r: Result<Ty, Exc>)
    ensures outType.Named? && outType.base.Some? <==> r.Ok?
    ensures r.Err? ==> r.error == AttributeError
  {
    match outType
    case Named(Some(b)) => Ok(TypeFromString(b + "^" + size, directory))
    case _ => Err(AttributeError)
  }

  /** Dimension promotion: a named element type becomes one Table of the window size. */
  lemma PromotionWrapsOnce(b: string, size: string, directory: set<string>)
    requires b in directory && '^' !in b && '^' !in size
    ensures PromotedType(Named(Some(b)), size, directory) == Ok(Table(size, Named(Some(b))))
  {
    var t := Table(size, Named(Some(b)));
    assert TypeToString(t) == b + "^" + size;
    TypeStringRoundTrip(t, directory);
  }
}

=== FILE: wrappers.dfy ===
/** Failure-compatible wrappers shared by every module of the model. */
module Wrappers {

  /** An optional value: Python's `None` or a present value. */
  datatype Option<+T> = None | Some(value: T) {

    predicate IsFailure() {
      None?
    }

    function PropagateFailure<U>(): Option<U>
      requires None?
    {
      None
    }

    function Extract(): T
      requires Some?
    {
      value
    }

    function GetOr(default: T): T {
      match this
      case Some(v) => v
      case None => default
    }
  }

  /** A value or the error that prevented it. */
  datatype Result<+T, +E> = Ok(value: T) | Err(error: E) {

    predicate IsFailure() {
      Err?
    }

    function PropagateFailure<U>(): Result<U, E>
      requires Err?
    {
      Err(error)
    }

    function Extract(): T
      requires Ok?
    {
      value
    }
  }
}
